=== FILE: README.md ===
# Sky atmosphere renderer — a Dafny model of its core

This project models the core of a Direct3D 11 sky renderer. The renderer draws a planet's
atmosphere in three ways:

- by Bruneton's 2017 precomputed look-up tables;
- by path tracing;
- by ray marching with small per-frame tables.

The model covers five parts:

- **The precomputation pipeline** (`generateSkyAtmosphereLUTs`). It builds the transmittance,
  irradiance and scattering tables by a fixed prologue, then one density / indirect-irradiance /
  multiple-scattering iteration per scattering order. It also fixes which temporary tables each
  pass reads and writes, under which blend state and with which scattering order.
- **The regeneration trigger** in `Game::render`. It compares the live atmosphere against the
  saved snapshot, and a set of switches against their values as `render` is entered. That is
  after `update` has handled the keys, so only what the settings panel changes is compared. It
  commits the snapshot, latches `forceGenLut`, and regenerates the tables only under the Bruneton
  method. The T key's method switch in `update` is modelled too.
- **The shader-variant key space.**
  - the path-tracing array (transmittance method × ground GI × shadow map × multiple-scattering
    approximation);
  - the ray-marching array with its pruned combinations;
  - the camera-volume pair;
  - the order in which `loadShaders` fills the slots and `releaseShaders` empties them;
  - how the render functions turn the switches into a key.
- **The shader object lifecycle.** Covers eager and lazy creation, the dirty flag,
  `recompileShaderIfNeeded`, `setShader` and `reload`. Also covers the fatal exit when a
  mandatory shader fails on the first load, and the 64-macro limit of `compileShader`.
- **Tables and device helpers.** Covers the look-up-table dimensions and their derived sizes,
  allocation and release of the durable and temporary tables, the texture and buffer descriptor
  helpers, the depth-format mappings, `divRoundUp`, and `resetPtr`.

## How the model is built

- **Kernels are symbolic.** Each pixel-shader kernel is an uninterpreted term
  (`LutPipeline.Content`): `Kernel(program, target slot, scattering order, inputs)`. Additive
  blending appears as `Sum`. Running the pass list on these terms yields, for `n` orders, the
  closed form `LutPipeline.Reference(n, d)`, written as a recurrence over orders. Here `d` is the
  density table's content before the run.
- **Shader compilation is a parameter.** The compiler is a function from a request (file, entry
  point, profile, define list) to optional bytecode. Whether compilation succeeds is therefore an
  input to the model.
- **Pointers have three states.** They are `Null`, `Points(x)` or `Indeterminate`. The last stands
  for a pointer member the constructor never initialised.
- **Floating point is modelled with reals.** `float` values are `real`. The `memcmp` of two
  atmosphere records is structural equality.

## Behaviour worth noting

- **When the snapshot is committed.** The snapshot is committed whenever a change is detected,
  whatever the method, before any regeneration (Game.cpp:1000). Only the Bruneton branch
  regenerates, and only there is `forceGenLut` cleared (Game.cpp:1031-1037). So with another
  method selected, the snapshot is up to date while the tables are stale. The latch carries the
  pending regeneration forward (`Regeneration.LatchHoldsWithoutBruneton`,
  `Regeneration.SwitchToBrunetonRegenerates`).
- **No failure path.** The generation passes have no failure path, so a detected change is always
  committed.
- **What the change detection compares.**
  - It compares the ground-albedo vector itself (Game.cpp:993).
  - It also compares the multiple-scattering factor and the terrain switch (Game.cpp:994-995).
  - It compares neither the fast-sky, the aerial-perspective nor the coloured-transmittance
    switch.
  - The previous values of the switches are recorded inside `render` (Game.cpp:788-896), after
    `update` has run. A method switch made with the T key (Game.cpp:578-592) is therefore not
    detected (`Regeneration.SwitchMethodKeyUndetected`).

Two oddities of the code are reproduced as written:

- **Irradiance viewport.** The indirect-irradiance pass sets a viewport of irradiance-width ×
  irradiance-width. `LutPipeline.ExtentsFit` states that this matches the table iff the table is
  square.
- **R32 shader-resource format.** The shader-resource format chosen for `R32_TYPELESS` depth is
  `D32_FLOAT`, the depth-stencil format.

## Model

| member | source | states |
|---|---|---|
| LutPipeline.DrawPassWrites | Application/RenderWithLuts.cpp:185-219 | a draw writes exactly its render targets: target i receives the kernel's output for slot i, overwritten or added according to the bound blend state and slot; every other table is unchanged |
| LutPipeline.PrologueTables | Application/RenderWithLuts.cpp:19-121 | transmittance, direct irradiance, then single scattering at side order 1, entered with the default blend, leave the tables equal to the order-1 reference, whatever they held before apart from the density table |
| LutPipeline.IterationTables | Application/RenderWithLuts.cpp:133-262 | one loop iteration's density, indirect-irradiance and multiple-scattering draws transform the tables exactly as the one-order step of the reference recurrence |
| LutPipeline.OrderLoopEffect | Application/RenderWithLuts.cpp:129-263 | from the order k-1 reference, the loop over orders k..n produces the order-n reference, and leaves the state alone when k > n |
| LutPipeline.GenerateClosedForm | Application/RenderWithLuts.cpp:12-267 | for any requested order count n, the generation leaves the tables equal to the reference for max(n,1) orders and restores the default blend state; its invocation trace is the expected pass list |
| LutPipeline.PassCount | Application/RenderWithLuts.cpp:129-263 | the generation issues 3·max(n,1) draws; for n < 2 the order loop is empty and only the three prologue draws run |
| LutPipeline.PassOrder | Application/RenderWithLuts.cpp:133-262 | for every order k in 2..n, the draws at positions 3k−3, 3k−2 and 3k−1 are density at order k with overwrite, indirect irradiance at order k−1 with overwrite and add, and multiple scattering at order k with overwrite and add |
| LutPipeline.BindingDiscipline | Application/RenderWithLuts.cpp:140-258 | no generation pass samples a table it also renders to, and none binds a render target twice |
| LutPipeline.ReadAfterWrite | Application/RenderWithLuts.cpp:12-267 | every table a generation pass samples was written by an earlier pass of the same run; in particular each multiple-scattering pass reads the density written two draws before |
| LutPipeline.SingleWriters | Application/RenderWithLuts.cpp:27-121 | the transmittance table is written only by the first draw and the single-Mie table only by the third; no loop pass touches either |
| LutPipeline.ExtentsFit | Application/RenderWithLuts.cpp:22-258 | every pass's targets have one shape; layered passes draw one instance per scattering depth slice; every viewport matches its target's extent except the indirect-irradiance one, which matches iff the irradiance table is square |
| LutPipeline.LoopBlendsMatch | Application/RenderWithLuts.cpp:129-263 | the order loop's scheduled blend states are one per loop draw, and each gives that draw's write modes |
| LutPipeline.GenerationBlendsMatch | Application/RenderWithLuts.cpp:12-267 | entered with blending disabled, the generation's blend schedule has one state per draw: the prologue draws with the entry state, the density pass binds the default state, and the two accumulating passes bind the nop/add state, which gives each draw's write modes |
| LutPipeline.GenerationDiscipline | Application/RenderWithLuts.cpp:12-267 | on the allocated resources, the generation's trace has 3·max(n,1) draws, reads only what was written before, has no feedback binding, and exits with the default blend state |
| Regeneration.NewGame | Application/Game.cpp:16-24 | the constructed game has a live atmosphere (the Earth preset) different from the zeroed snapshot, the latch clear, four scattering orders and the T-key flag set |
| Regeneration.SwitchMethodKey | Application/Game.cpp:578-592 | the T key selects path tracing with factor 0 when its flag is set and ray marching with factor 1 otherwise, flips the flag, restarts the frame count, and changes nothing else |
| Regeneration.SwitchMethodKeyUndetected | Application/Game.cpp:578-1002 | after the T key, a frame presenting the switched values over an unchanged atmosphere detects no change and is flagged changed only through the latch; the same values set on the panel are detected iff they change the method or the factor |
| Regeneration.SwitchMethodKeyAlternates | Application/Game.cpp:578-592 | from the constructed game the first press selects path tracing and the second ray marching; two presses restore the flag, and consecutive presses select different methods |
| Regeneration.GenerateLuts | Application/Game.cpp:1033-1037 | the game's call of the generation leaves its tables equal to the reference for max(n,1) orders |
| Regeneration.RenderFrame | Application/Game.cpp:991-1040 | from the state at the entry of render, a frame is treated as changed iff the latch was set or a change against that state is detected; afterwards the latch is set iff the frame changed and the method is not Bruneton's |
| Regeneration.FrameCommitsSnapshot | Application/Game.cpp:991-1002 | a detected change commits the live atmosphere to the snapshot and restarts the frame counter at 1 after the increment; otherwise the snapshot is kept and the counter advances modulo 2^32 |
| Regeneration.FrameRegenerates | Application/Game.cpp:1031-1040 | a changed Bruneton frame replaces the tables by the reference for the frame's order count and records the inputs; any other frame leaves tables and inputs unchanged |
| Regeneration.FirstFrameDetectsChange | Application/Game.cpp:16-19 | because the constructor zeroes the snapshot, the first frame is flagged changed unless its atmosphere is all zero |
| Regeneration.SteadyFrameDetectsNothing | Application/Game.cpp:991-1002 | after a frame, repeating its input detects no change, and the next frame is changed iff the latch is set |
| Regeneration.LatchHoldsWithoutBruneton | Application/Game.cpp:1007-1040 | once set, the latch stays set over any run of frames that never select the Bruneton method |
| Regeneration.SwitchToBrunetonRegenerates | Application/Game.cpp:1007-1040 | a change latched under another method is acted on at the first Bruneton frame: that frame is changed, schedules the generation pass, and clears the latch |
| Regeneration.RenderFramePreservesFresh | Application/Game.cpp:991-1040 | every frame preserves freshness: a regeneration is pending, or the tables were generated from the saved snapshot and the current order count |
| Regeneration.FirstFrameFresh | Application/Game.cpp:16-19 | the first frame establishes freshness whenever its atmosphere is not all zero |
| Regeneration.BrunetonFrameUsesCurrentTables | Application/Game.cpp:1031-1037 | from a fresh state, a Bruneton frame renders with tables generated from exactly its own atmosphere and order count, and clears the latch |
| Regeneration.RunFramesPreservesFresh | Application/Game.cpp:991-1040 | freshness holds after every frame of any run that starts fresh |
| Regeneration.SwitchMethodKeyPreservesFresh | Application/Game.cpp:578-592 | a T-key press keeps freshness, as it touches neither the snapshot, the latch, the order count nor the tables |
| Regeneration.RunEventsPreservesFresh | Application/Game.cpp:547-1040 | freshness holds after every step of any run of frames and T-key presses that starts fresh |
| Regeneration.BrunetonTablesNeverStaleWithKeys | Application/Game.cpp:547-1040 | after construction and any sequence of frames and T-key presses, every Bruneton frame uses tables generated from its own atmosphere and order count |
| Regeneration.BrunetonTablesNeverStale | Application/Game.cpp:991-1040 | after construction and any sequence of frames, every Bruneton frame uses tables generated from its own atmosphere and order count |
| SkyRender.MultiScatIndex | Application/RenderSky.cpp:103 | the multiple-scattering variant index is 1 iff the multiple-scattering factor is positive, else 0 |
| SkyRender.PathTracingKeyFor | Application/RenderSky.cpp:127-171 | the path-tracing key lies in the loaded array iff the transmittance permutation is in range; its transmittance index is the permutation; its ground-GI index is 1 iff some albedo component is non-zero; its shadow index is 1 iff the shadow map is on; its multiple-scattering index is 1 iff the factor is positive |
| SkyRender.RayMarchingKeyFor | Application/RenderSky.cpp:216-241 | the ray-marching key is always in range and never a pruned combination; fast aerial perspective follows its switch, coloured transmittance is used iff requested and aerial perspective is off, fast sky and shadow map follow their switches, and the multiple-scattering index is 1 iff the factor is positive |
| SkyRender.SelectedShadersLoaded | Application/Game.cpp:1007-1041 | with the permutation in range, every shader any sky pass of the frame binds is one that loadShaders loads |
| SkyRender.OutOfRangePermutationIsUnloaded | Application/RenderSky.cpp:171 | under path tracing with an out-of-range transmittance permutation, the selected shader is outside the loaded set |
| SkyRender.SelectedShadersPresent | Application/Game.cpp:1007-1041 | when both vertex shaders compile, the first load completes and every shader bound by the frame's sky passes has a live shader object in its slot |
| SkyRender.RayMarchingBlend | Application/RenderSky.cpp:225-232 | the ray-marching draw uses the luminance-transmittance blend iff coloured transmittance is on and aerial perspective is off, else premultiplied alpha |
| SkyRender.MultiScatVariantsIgnoreOtherSwitches | Application/RenderSky.cpp:86-123 | the sky-view and camera-volume passes depend on the switches only through whether the multiple-scattering factor is positive |
| SkyRender.SkyBlendDiscipline | Application/Game.cpp:950-1041 | every sky pass is entered with the default blend state; each of its draws runs with the state it binds, or, before the pass binds any state (the transmittance, sky-view and camera-volume draws, and the first three draws of the precomputation), with the default; the section exits with the default state |
| SkyRender.GenerationScheduled | Application/Game.cpp:1031-1037 | the generation pass is among the frame's sky passes iff the method is Bruneton's and the frame is changed |
| SkyRender.DefaultSelection | Application/Game.h:301-335 | the initial switches select ray marching with key (fast sky, fast aerial perspective, no coloured transmittance, multiple scattering, no shadow map), all of whose shaders are loaded |
| Settings.DefaultToggles | Application/Game.h:301-340 | the initial transmittance permutation is in range and at least one scattering order is requested |
| Variants.StringNumber | Application/Game.cpp:33-45 | 0..3 become the one-digit decimal string; any other value becomes "-1" |
| Variants.PathTracingKeyAt | Application/Game.cpp:102-123 | every index of the path-tracing array decodes to an in-range key that encodes back to the index |
| Variants.PathTracingKeyRoundTrip | Application/Game.cpp:102-123 | every in-range path-tracing key has an index in the array and decodes back from it |
| Variants.RayMarchingKeyAt | Application/Game.cpp:125-133 | every index of the ray-marching array decodes to an in-range key that encodes back to the index |
| Variants.RayMarchingKeyRoundTrip | Application/Game.cpp:125-133 | every in-range ray-marching key has an index in the array and decodes back from it |
| Variants.NextRayMarchingKey | Application/Game.cpp:125-134 | one step of the five nested loops advances the key's index by one and stays in range until the end key |
| Variants.RayMarchingKeysMembers | Application/Game.cpp:125-154 | the loaded ray-marching keys are exactly the in-range keys that are not pruned |
| Variants.RayMarchingLoopClosedForm | Application/Game.cpp:125-154 | the nested loops with their skip visit exactly the 24 unpruned keys, in index order |
| Variants.FixedPositionRoundTrip | Application/Game.cpp:65-100 | the fixed reloads form a numbered list of 19 slots with a position for each |
| Variants.LoadAtPosition | Application/Game.cpp:65-162 | each statement position of loadShaders names a slot whose position is that statement |
| Variants.LoadPositionAt | Application/Game.cpp:65-162 | a slot has a load position iff loadShaders loads it, and the statement at that position loads it |
| Variants.LoadOrderSlots | Application/Game.cpp:65-162 | loadShaders fills distinct slots, exactly the loaded ones, and only its first two use the mandatory reload |
| Variants.LoadOrderVertexShaders | Application/Game.cpp:65-66 | the two vertex shaders are loaded first and are the only mandatory reloads |
| Variants.ReleasePositionRoundTrip | Application/Game.cpp:172-241 | release positions and released slots are in bijection |
| Variants.ReleaseOrderSlots | Application/Game.cpp:172-241 | releaseShaders empties distinct slots, exactly the released ones |
| Variants.ReleasedNeverLoaded | Application/Game.cpp:218-233 | the slots released but never loaded are exactly the pruned ray-marching combinations |
| Variants.UninitialisedTable | Application/Game.h:105-112 | a table of never-initialised pointer members holds an indeterminate value in every slot |
| Variants.NullTable | Application/Game.h:105-112 | the corrected table holds a null pointer in every slot |
| Variants.LoadOne | Application/Game.cpp:49-66 | a slot's load exits the process iff it is a mandatory first load that fails; a first load or a lazy load installs a fresh shader and disposes of the previous pointer; a later mandatory reload only marks the existing shader dirty |
| Variants.LoadAllExits | Application/Game.cpp:49-162 | a sequence of loads exits iff it is the first load and some slot in it is a failing mandatory load |
| Variants.LoadShaders | Application/Game.cpp:31-170 | loadShaders exits only on the first load; otherwise it reports success and one disposal per loaded slot |
| Variants.LoadShadersExits | Application/Game.cpp:49-66 | loadShaders exits iff it is the first load and one of the two vertex shaders fails to compile |
| Variants.LoadShadersAssigns | Application/Game.cpp:65-162 | a later load, or a first load whose two vertex shaders compile, completes; afterwards every loaded slot holds a shader object and every other slot is unchanged |
| Variants.LoadShadersInstalls | Application/Game.cpp:49-162 | such a load completes, and a loaded slot's shader is dirty unless it is a mandatory first load; a mandatory first load holds the compiled bytecode; a lazy slot holds an uncompiled shader; a mandatory reload keeps the old shader and marks it dirty |
| Variants.ReleaseShaders | Application/Game.cpp:172-241 | releaseShaders disposes of each released slot's pointer in statement order, as resetPtr does |
| Variants.ReleaseShadersTable | Application/Game.cpp:172-241 | after release every released slot is null and every other slot is unchanged |
| Variants.ReleaseTwiceIsNoOp | Application/Game.cpp:172-241 | releasing a second time changes nothing and disposes of nothing |
| Variants.ReleaseHitsIndeterminate | Application/Game.cpp:218-233 | releasing a table where a released slot is indeterminate deletes an indeterminate pointer |
| Variants.FirstLoadDisposals | DX11Base/Dx11Device.h:616-635 | when both vertex shaders compile, the first load completes and passes every statement's previous pointer through resetPtr, whatever it held |
| Variants.UninitialisedPointersAreDeleted | Application/WinMain.cpp:55-56 | with never-initialised pointer members and compiling vertex shaders, the first load applies resetPtr to an indeterminate pointer in every slot, a pruned slot stays indeterminate, and the following release deletes an indeterminate pointer |
| Variants.NullPointersFirstLoad | Application/Game.h:105-112 | with null-initialised pointers and compiling vertex shaders, the first load disposes of nothing, and exactly the loaded slots hold shaders while the others stay null |
| Variants.ReleaseLoadedTable | Application/Game.cpp:172-241 | releasing a table whose loaded slots hold shaders and whose others are null deletes exactly the loaded shaders, never an indeterminate pointer, and leaves every slot null |
| Variants.NullPointersRelease | Application/Game.cpp:172-241 | with null-initialised pointers and compiling vertex shaders, load then release deletes exactly the loaded shaders and nothing indeterminate, leaving every slot null |
| Shaders.DefineArray | DX11Base/Dx11Device.cpp:778-796 | the define array holds one entry per macro, in order, followed by the single null terminator |
| Shaders.CompileShader | DX11Base/Dx11Device.cpp:770-833 | compilation fails without calling the compiler when there are more than 63 macros; with at most 63 the result is the compiler's answer for the file, entry point, stage profile and terminated define array |
| Shaders.NewShaderBase | DX11Base/Dx11Device.cpp:835-845 | a shader base keeps its source and starts dirty, with the typed class's device pointer not yet initialised; a lazy one is not compiled, an eager one holds the compiler's result |
| Shaders.NewShader | DX11Base/Dx11Device.cpp:899-907 | after construction a shader is dirty iff it holds no bytecode, and a lazy shader holds none; a compiled shader's device pointer holds the object created from its bytecode, an uncompiled one's stays indeterminate |
| Shaders.NewShaderNullDevice | DX11Base/Dx11Device.cpp:899-907 | the same constructor with a null-initialised device pointer: an uncompiled shader's device pointer is null |
| Shaders.CompiledShadersMatch | DX11Base/Dx11Device.cpp:899-907 | as written, a new shader's device pointer agrees with its bytecode iff it compiled |
| Shaders.NullDeviceShadersMatch | DX11Base/Dx11Device.cpp:899-921 | with a null-initialised device pointer, every new shader's device pointer agrees with its bytecode; markDirty and setShader keep that agreement, and setShader then never binds or releases an indeterminate pointer |
| Shaders.MarkDirty | DX11Base/Dx11Device.h:371-392 | marking dirty sets the flag and keeps the source, bytecode and device pointer |
| Shaders.RecompileIfNeeded | DX11Base/Dx11Device.cpp:852-864 | afterwards the shader is clean; it recompiled iff it was dirty and compilation succeeded, in which case it holds the new bytecode and otherwise keeps the old; the device pointer is left alone |
| Shaders.RecompileTwiceIsNoOp | DX11Base/Dx11Device.cpp:852-864 | a second recompilation does nothing, whatever the compiler |
| Shaders.SetShader | DX11Base/Dx11Device.cpp:912-921 | binding a shader recompiles it if needed; on a successful recompilation it resets the previous device pointer and binds the object created from the new bytecode; otherwise it binds the device pointer it already held, whatever that is, and releases nothing |
| Shaders.Reload | DX11Base/Dx11Device.h:616-635 | reload exits iff exit-on-failure is set, the shader is eager and compilation fails; on success it installs the new shader and resets the previous pointer; on failure it keeps the previous shader |
| Shaders.LazyReloadInstallsDirtyShader | DX11Base/Dx11Device.h:616-635 | a lazy reload always succeeds and installs an uncompiled dirty shader with an indeterminate device pointer |
| Shaders.LazyFirstSetShaderHitsIndeterminate | DX11Base/Dx11Device.cpp:899-921 | the first setShader of a lazily reloaded shader releases an indeterminate device pointer when compilation succeeds, and binds it when compilation fails |
| Shaders.NullDeviceLazyFirstSetShader | DX11Base/Dx11Device.cpp:899-921 | with a null-initialised device pointer, that first setShader releases nothing and binds the new object, or a null shader when compilation fails |
| LutConfig.InitialisedMembers | Application/SkyAtmosphereCommon.h:27-53 | before derivation the three scattering extents hold the 0xDEADBEEF sentinel |
| LutConfig.UpdateDerivedData | Application/SkyAtmosphereCommon.h:55-60 | derivation keeps the base sizes and makes the scattering extents consistent with them (width = nu·mu_s, height = mu, depth = r), with no wrap-around below 2^32 |
| LutConfig.DerivedDependsOnlyOnBase | Application/SkyAtmosphereCommon.h:55-60 | two records with the same base sizes derive the same record |
| LutConfig.UpdateDerivedDataIdempotent | Application/SkyAtmosphereCommon.h:55-60 | deriving twice is deriving once |
| LutConfig.NewLookUpTablesInfo | Application/SkyAtmosphereCommon.h:27-62 | a constructed record has no sentinel left and gives tables of 256×64, 64×16 and 256×128×32 |
| LutTables.AllocateLuts | Application/SkyAtmosphereCommon.cpp:62-76 | allocation creates the three durable tables with the record's extents, the table format, and render-target and shader-resource binding |
| LutTables.AllocateTemps | Application/SkyAtmosphereCommon.cpp:87-99 | allocation creates the delta-irradiance table with the irradiance extent and three scattering-sized delta tables with the same descriptor |
| LutTables.SimultaneousTargetsShareExtents | Application/SkyAtmosphereCommon.cpp:62-99 | each temporary table has the extent of the durable table it is rendered alongside |
| LutTables.ReleaseLuts | Application/SkyAtmosphereCommon.cpp:78-83 | release nulls the three durable tables and deletes exactly those that were held, three after an allocation |
| LutTables.ReleaseTemps | Application/SkyAtmosphereCommon.cpp:101-107 | release nulls the four temporary tables and deletes exactly those that were held |
| LutTables.ReleaseTwiceIsNoOp | Application/SkyAtmosphereCommon.cpp:78-107 | a second release deletes nothing and leaves the tables null |
| Atmosphere.SetupEarthAtmosphere | Application/SkyAtmosphereCommon.cpp:11-51 | the Earth preset has radii 6360 and 6460 km, zero albedo, Mie extinction at least Mie scattering, Rayleigh and Mie scale heights 8 and 1.2 km, and is not the zeroed record |
| Atmosphere.ScaleHeightRoundTrip | Application/Game.cpp:840-841 | in the real-number model, the panel's non-zero scale height and the record's exponential scale (-1/h) are inverse conversions |
| Atmosphere.MaxZero3 | Application/Game.cpp:707 | the clamp is non-negative componentwise and is the identity exactly on non-negative vectors |
| Atmosphere.MieAbsorption | Application/Game.cpp:707 | the Mie absorption passed to the kernels is non-negative, and equals extinction minus scattering iff extinction dominates scattering in every channel |
| Atmosphere.EarthMieAbsorptionUnclamped | Application/SkyAtmosphereCommon.cpp:39-41 | for the Earth preset the clamp does nothing and the absorption is 0.000444 per channel |
| BlendStates.ModeOf | Application/Game.cpp:386-408 | a blend state adds into a target iff it is the additive state, or the nop/add state on slot 1; it overwrites iff it is the default state, or the nop/add state on slot 0; it leaves a target untouched iff it is the nop/add state on slot 2 or above, whose write mask is zero |
| DeviceHelpers.DepthStencilViewFormat | DX11Base/Dx11Device.cpp:256-272 | a depth-stencil view format exists iff the texture format is one of the three typeless depth formats, and is then typed and different from it |
| DeviceHelpers.DepthShaderResourceFormat | DX11Base/Dx11Device.cpp:273-289 | a shader-resource view format for depth exists iff the format is typeless depth, and is then typed |
| DeviceHelpers.R32DepthViewsCoincide | DX11Base/Dx11Device.cpp:256-289 | for 32-bit depth the shader-resource and depth-stencil formats coincide; for 16- and 24-bit depth they differ |
| DeviceHelpers.DefaultBindFlags | DX11Base/Dx11Device.cpp:405-420 | default textures are always shader resources, render targets iff requested, unordered-access iff requested, and nothing else |
| DeviceHelpers.InitDefault2D | DX11Base/Dx11Device.cpp:405-420 | a default 2D descriptor has the given extent and format, one mip, one array slice, one sample and the default bind flags |
| DeviceHelpers.InitDefault3D | DX11Base/Dx11Device.cpp:509-522 | a default 3D descriptor has the given extent and format, one mip and the default bind flags |
| DeviceHelpers.InitDepthStencilBuffer | DX11Base/Dx11Device.cpp:388-403 | a depth buffer has the given extent, one mip, one array slice and one sample, the R24G8 typeless depth format, bound as depth stencil and shader resource, unordered-access iff requested, never a render target |
| DeviceHelpers.Texture2DViewFormatIsTyped | DX11Base/Dx11Device.cpp:326-344 | the texture constructor's view format is never typeless, and is known whenever the texture format is |
| DeviceHelpers.ConstantBufferDesc | DX11Base/Dx11Device.h:237-241 | a constant buffer of a 16-byte-multiple size is dynamic, CPU-writable and bound only as a constant buffer |
| DeviceHelpers.DivRoundUp | DX11Base/Dx11Device.cpp:1290-1293 | for a non-negative numerator and positive divisor the result is the ceiling of the quotient |
| DeviceHelpers.TruncDiv | DX11Base/Dx11Device.cpp:1290-1293 | C's integer division agrees with floor division on non-negative operands and never grows the magnitude |
| DeviceHelpers.ResetPtr | DX11Base/Dx11Device.h:595-613 | reset always leaves a null pointer, disposes of nothing iff the pointer was null, deletes the target of a live pointer, and deletes an indeterminate value iff the pointer was indeterminate |
| DeviceHelpers.ResetPtrIdempotent | DX11Base/Dx11Device.h:605-613 | resetting a reset pointer does nothing |

## Findings

| source | as written | input that shows it | evidently intended | confidence | as-written member | corrected member |
|---|---|---|---|---|---|---|
| DX11Base/Dx11Device.h:402-452 | the typed shaders' device pointers (`mPixelShader` and the others) have no initialiser. A lazily built shader returns from its constructor before creating the device object (Dx11Device.cpp:902). Its first `setShader` then calls `resetComPtr` on the indeterminate pointer after a successful compilation (916-917), or binds it after a failed one (921). Every shader but the two vertex shaders is built lazily (Game.cpp:67-161). | any lazy shader, e.g. the first `setShader` of `RenderTransmittanceLutPS` | the device pointers start null, so the first use releases nothing and a failed compilation binds a null shader | not executed | Shaders.LazyFirstSetShaderHitsIndeterminate | Shaders.NullDeviceLazyFirstSetShader |
| Application/Game.h:105-112 | the shader pointer members have no initialiser, and the constructor does not set them; `Game game;` in WinMain.cpp:55 leaves them indeterminate. The first `loadShaders(true)` passes each one to `resetPtr`, which tests and deletes it. `releaseShaders` also resets the 8 pruned ray-marching slots, which no load ever assigns. | the program's own start-up: `Game game; game.initialise(); … game.shutdown();` | every shader pointer starts null, so the first load deletes nothing and release deletes only loaded shaders | not executed | Variants.UninitialisedPointersAreDeleted | Variants.NullPointersRelease |

`Variants.NullPointersFirstLoad` proves the first half of the corrected behaviour: the first
load disposes of nothing. `Variants.NullPointersRelease` proves the second half: release deletes
exactly the loaded shaders and never an indeterminate pointer.

For the device pointers, `Shaders.NullDeviceShadersMatch` proves the corrected invariant: the
pointer agrees with the compiled bytecode, and `setShader` never binds or releases an
indeterminate pointer.

## Left out

- The HLSL kernels are not modelled. Each is an uninterpreted term, so the model proves what the
  passes compute in terms of the kernels, not what the kernels compute.
- Direct3D calls are not modelled: resource and view creation, samplers, constant-buffer uploads
  other than the side scattering order, input binding and unbinding, and GPU timers. Creation
  failures appear in the source only as debug asserts.
- Creation and release of the input layout (`mLayout`) is not modelled, because it is a device
  object with no variant logic.
- `ShouldClearPathTracedBuffer` and the path-traced accumulation buffer are not modelled,
  because they control presentation, not tables or shaders.
- The key binding that triggers shader reload (Game.cpp:611) is not modelled as input handling.
  The reload itself is `Variants.LoadShaders` with `first` false.
- The UI conversions other than the Mie/Rayleigh scale height are not modelled: colour
  normalisation, angle conversion and ozone layer widths. The settings panel's values enter
  `RenderFrame` as the frame's input.
- Saving and loading state, screenshots, window management and camera input are not modelled,
  because they are I/O.
- Terrain and shadow-map draws, the post-process and the camera-volume generation's inner draws
  are not modelled. Only their shader and blend selection is modelled (`SkyRender.SkyPasses`).
- Floating-point arithmetic is not modelled. Reals stand for floats, and the `memcmp` comparison
  is structural equality, so NaN, signed zero and padding bytes are not represented.
- The alternative table sizes in the `#else` branch of `#if 1` (SkyAtmosphereCommon.h:37-47) are
  not modelled, because that branch is never compiled.
- The 16-bit table format, used when `SKYHIGHQUALITY` is not defined (SkyAtmosphereCommon.cpp:55-60),
  is not modelled. The header defines the switch, so the 32-bit format is the one modelled.
- `GetStringNumber` asserts in debug builds on out-of-range input. The model gives only the
  release-build result "-1". Likewise, `getDepthStencilViewFormatFromTypeless` and
  `getDepthShaderResourceFormatFromTypeless` assert in debug builds on a format that is not
  typeless depth (Dx11Device.cpp:270, 287). `DeviceHelpers.DepthStencilViewFormat` and
  `DeviceHelpers.DepthShaderResourceFormat` give only the release-build result, the unknown
  format.
- The typed shader destructors also reset the device pointer (Dx11Device.cpp:877, 910 and the
  others). So deleting a lazy shader that was never used releases an indeterminate pointer as
  well. The model records the deletion of the shader object, not what its destructor does.
- Settings.DefaultToggles: its contract states only that the initial permutation is in range and
  at least one order is requested. The remaining initial values are stated by
  `SkyRender.DefaultSelection` and by the definition itself.
- Variants.LoadShaders: the `success` flag of `loadShaders` is modelled, but its contract states
  only that it is true on return. No caller reads it.
- DeviceHelpers.DivRoundUp: the precondition excludes the operand values whose sum overflows
  32 bits or whose division is undefined in C, because the source has undefined behaviour there.
  The contract states the ceiling only for a non-negative numerator and a positive divisor.
- Atmosphere.ScaleHeightRoundTrip: holds for reals only. The program's `-1.0f / x` conversions
  round in 32-bit floating point, so its round trip can lose precision, which the model does not
  represent.
- Regeneration.SwitchMethodKey: only the T key is modelled among the inputs of `update`. The
  mouse drags that move the camera or the sun (Game.cpp:553-570) also restart the frame count,
  and they are not modelled.
- DeviceHelpers.ConstantBufferDesc: the precondition that the size is a multiple of 16 bytes
  stands for a debug-build assert (Dx11Device.h:239). A release build builds the descriptor for
  any size, and the model does not state that case.
- DeviceHelpers.TruncDiv: states only the agreement with floor division on non-negative operands
  and the magnitude bound, not truncation for negative operands, because nothing in the model
  divides negative values.

=== FILE: atmosphere.dfy ===
/** The physical description of the atmosphere (`AtmosphereInfo`), its Earth preset, and the
    two derived quantities the renderer computes from it before handing it to the kernels.
    Values are exact reals standing in for the source's single-precision floats. */
module Atmosphere {

  datatype Vec3 = Vec3(x: real, y: real, z: real)

  /** One layer of a density profile: `exp_term * exp(exp_scale * h) + linear_term * h +
      constant_term`, valid up to altitude `width`. */
  datatype DensityProfileLayer = DensityProfileLayer(
    width: real, expTerm: real, expScale: real, linearTerm: real, constantTerm: real)

  /** A two-layer density profile (the lower layer applies below its width). */
  datatype DensityProfile = DensityProfile(layer0: DensityProfileLayer, layer1: DensityProfileLayer)

  datatype AtmosphereInfo = AtmosphereInfo(
    solarIrradiance: Vec3,
    sunAngularRadius: real,
    bottomRadius: real,
    topRadius: real,
    rayleighDensity: DensityProfile,
    rayleighScattering: Vec3,
    mieDensity: DensityProfile,
    mieScattering: Vec3,
    mieExtinction: Vec3,
    miePhaseFunctionG: real,
    absorptionDensity: DensityProfile,
    absorptionExtinction: Vec3,
    groundAlbedo: Vec3,
    muSMin: real)

  const Zero3: Vec3 := Vec3(0.0, 0.0, 0.0)
  const ZeroLayer: DensityProfileLayer := DensityProfileLayer(0.0, 0.0, 0.0, 0.0, 0.0)

  /** The all-zero snapshot the game constructor writes into the saved copy. */
  function Zeroed(): AtmosphereInfo
  {
    AtmosphereInfo(Zero3, 0.0, 0.0, 0.0, DensityProfile(ZeroLayer, ZeroLayer), Zero3,
      DensityProfile(ZeroLayer, ZeroLayer), Zero3, Zero3, 0.0,
      DensityProfile(ZeroLayer, ZeroLayer), Zero3, Zero3, 0.0)
  }

  const EarthBottomRadius: real := 6360.0
  const EarthTopRadius: real := 6460.0
  const EarthRayleighScaleHeight: real := 8.0
  const EarthMieScaleHeight: real := 1.2

  /** The exponential term of an exponential profile layer with the given scale height. */
  function ExpScaleFromScaleHeight(h: real): real
    requires h != 0.0
  {
    -1.0 / h
  }

  /** The conversion the settings panel applies to show a layer's scale height. */
  function ScaleHeightFromExpScale(e: real): real
    requires e != 0.0
  {
    -1.0 / e
  }

  /** The two scale-height conversions are inverse to each other, in both directions. */
  lemma ScaleHeightRoundTrip(h: real, e: real)
    requires h != 0.0 && e != 0.0
    ensures ExpScaleFromScaleHeight(h) != 0.0 && ScaleHeightFromExpScale(ExpScaleFromScaleHeight(h)) == h
    ensures ScaleHeightFromExpScale(e) != 0.0 && ExpScaleFromScaleHeight(ScaleHeightFromExpScale(e)) == e
  {
  }

  /** `SetupEarthAtmosphere` (lengths in kilometres). The minimum sun cosine is cos(120 deg),
      written exactly as -1/2. */
  function SetupEarthAtmosphere(): (a: AtmosphereInfo)
    ensures 0.0 < a.bottomRadius < a.topRadius
    ensures a.topRadius - a.bottomRadius == 100.0
    ensures a.groundAlbedo == Zero3
    ensures a.mieExtinction.x >= a.mieScattering.x && a.mieExtinction.y >= a.mieScattering.y
    ensures a.mieExtinction.z >= a.mieScattering.z
    ensures a.rayleighDensity.layer1.expScale != 0.0 && a.mieDensity.layer1.expScale != 0.0
    ensures ScaleHeightFromExpScale(a.rayleighDensity.layer1.expScale) == EarthRayleighScaleHeight
    ensures ScaleHeightFromExpScale(a.mieDensity.layer1.expScale) == EarthMieScaleHeight
    ensures a != Zeroed()
  {
    AtmosphereInfo(
      solarIrradiance := Vec3(1.0, 1.0, 1.0),
      sunAngularRadius := 0.004675,
      bottomRadius := EarthBottomRadius,
      topRadius := EarthTopRadius,
      rayleighDensity := DensityProfile(ZeroLayer,
        DensityProfileLayer(0.0, 1.0, ExpScaleFromScaleHeight(EarthRayleighScaleHeight), 0.0, 0.0)),
      rayleighScattering := Vec3(0.005802, 0.013558, 0.033100),
      mieDensity := DensityProfile(ZeroLayer,
        DensityProfileLayer(0.0, 1.0, ExpScaleFromScaleHeight(EarthMieScaleHeight), 0.0, 0.0)),
      mieScattering := Vec3(0.003996, 0.003996, 0.003996),
      mieExtinction := Vec3(0.004440, 0.004440, 0.004440),
      miePhaseFunctionG := 0.8,
      absorptionDensity := DensityProfile(
        DensityProfileLayer(25.0, 0.0, 0.0, 1.0 / 15.0, -2.0 / 3.0),
        DensityProfileLayer(0.0, 0.0, 0.0, -1.0 / 15.0, 8.0 / 3.0)),
      absorptionExtinction := Vec3(0.000650, 0.001881, 0.000085),
      groundAlbedo := Zero3,
      muSMin := -0.5)
  }

  function Sub3(a: Vec3, b: Vec3): Vec3
  {
    Vec3(a.x - b.x, a.y - b.y, a.z - b.z)
  }

  function MaxZero(v: real): real
  {
    if v < 0.0 then 0.0 else v
  }

  /** Component-wise clamp to non-negative values. */
  function MaxZero3(v: Vec3): (r: Vec3)
    ensures r.x >= 0.0 && r.y >= 0.0 && r.z >= 0.0
    ensures (v.x >= 0.0 && v.y >= 0.0 && v.z >= 0.0) <==> r == v
  {
    Vec3(MaxZero(v.x), MaxZero(v.y), MaxZero(v.z))
  }

  /** The Mie absorption written into the kernels' constants: extinction minus scattering,
      floored at zero. When extinction dominates scattering the floor changes nothing. */
  function MieAbsorption(a: AtmosphereInfo): (r: Vec3)
    ensures r.x >= 0.0 && r.y >= 0.0 && r.z >= 0.0
    ensures a.mieExtinction.x >= a.mieScattering.x && a.mieExtinction.y >= a.mieScattering.y
              && a.mieExtinction.z >= a.mieScattering.z
            <==> r == Sub3(a.mieExtinction, a.mieScattering)
  {
    MaxZero3(Sub3(a.mieExtinction, a.mieScattering))
  }

  /** For the Earth preset the clamp leaves the difference unchanged. */
  lemma EarthMieAbsorptionUnclamped()
    ensures MieAbsorption(SetupEarthAtmosphere()) == Vec3(0.000444, 0.000444, 0.000444)
  {
    var a := SetupEarthAtmosphere();
    assert Sub3(a.mieExtinction, a.mieScattering) == Vec3(0.000444, 0.000444, 0.000444);
  }
}

=== FILE: blend_states.dfy ===
/** The output-merger blend states the renderer creates, and what each does to a render target
    slot: overwrite it, add to it, composite over it, or leave it untouched. */
module BlendStates {

  datatype BlendState =
    | DefaultBlend                  // blending disabled on every target
    | Blend0Nop1Add                 // target 0 overwritten, target 1 accumulated
    | BlendAddRGBA                  // every target accumulated
    | BlendPreMultAlpha             // premultiplied-alpha "over", destination alpha kept
    | BlendLuminanceTransmittance   // dual source: luminance plus destination times transmittance

  /** How a draw writes one render-target slot; `Masked` is a slot whose write mask is zero,
      so the draw leaves it as it was. */
  datatype WriteMode = Overwrite | Add | PremultipliedOver | DualSourceTransmit | Masked

  /** The write mode a blend state applies to render-target slot `slot`. Only `Blend0Nop1Add`
      enables independent blending; every other state applies its target-0 description to all
      slots. `Blend0Nop1Add` starts from the all-zero description, which disables blending
      and writes nothing, then gives targets 0 and 1 a full write mask; targets 2 to 7 keep
      the zero mask. */
  function ModeOf(b: BlendState, slot: nat): (m: WriteMode)
    ensures m == Add <==> b == BlendAddRGBA || (b == Blend0Nop1Add && slot == 1)
    ensures m == Overwrite <==> b == DefaultBlend || (b == Blend0Nop1Add && slot == 0)
    ensures m == Masked <==> b == Blend0Nop1Add && slot >= 2
  {
    match b
    case DefaultBlend => Overwrite
    case Blend0Nop1Add => if slot == 0 then Overwrite else if slot == 1 then Add else Masked
    case BlendAddRGBA => Add
    case BlendPreMultAlpha => PremultipliedOver
    case BlendLuminanceTransmittance => DualSourceTransmit
  }

  /** The write modes of the first `count` slots, in slot order. */
  function Modes(b: BlendState, count: nat): (ms: seq<WriteMode>)
    ensures |ms| == count
    ensures forall i :: 0 <= i < count ==> ms[i] == ModeOf(b, i)
  {
    if count == 0 then [] else Modes(b, count - 1) + [ModeOf(b, count - 1)]
  }

  /** The write modes of the one-, two- and three-target draws of the precomputation. */
  lemma SmallModes()
    ensures Modes(DefaultBlend, 1) == [Overwrite]
    ensures Modes(DefaultBlend, 2) == [Overwrite, Overwrite]
    ensures Modes(DefaultBlend, 3) == [Overwrite, Overwrite, Overwrite]
    ensures Modes(Blend0Nop1Add, 2) == [Overwrite, Add]
    ensures Modes(Blend0Nop1Add, 3) == [Overwrite, Add, Masked]
  {
  }
}

=== FILE: device_helpers.dfy ===
/** Pure helpers of the Direct3D 11 wrapper layer: machine integer ranges, pixel formats and the
    depth-format mappings, texture and constant-buffer descriptors, integer rounding, and the
    owning-pointer reset idiom. Device calls themselves are not modelled. */
module DeviceHelpers {

  /** The unsigned 32-bit range of descriptor extents and counts. */
  type uint32 = x: int | 0 <= x < 0x1_0000_0000

  /** The signed 32-bit range of `int32`. */
  type int32 = x: int | -0x8000_0000 <= x < 0x8000_0000

  // ---------------------------------------------------------------------------------------------
  // Pixel formats
  // ---------------------------------------------------------------------------------------------

  /** The DXGI formats the renderer names, including every format its typeless test lists. */
  datatype Format =
    | Unknown
    | R32G32B32A32Typeless | R32G32B32A32Float
    | R32G32B32Typeless | R32G32B32Float
    | R16G16B16A16Typeless | R16G16B16A16Float
    | R32G32Typeless
    | R32G8X24Typeless | R32FloatX8X24Typeless | X32TypelessG8X24Uint
    | R10G10B10A2Typeless | R11G11B10Float
    | R8G8B8A8Typeless | R16G16Typeless
    | R32Typeless | D32Float
    | R24G8Typeless | D24UnormS8Uint | R24UnormX8Typeless | X24TypelessG8Uint
    | R8G8Typeless | R16Typeless | D16Unorm | R16Unorm | R8Typeless
    | BC1Typeless | BC2Typeless | BC3Typeless | BC4Typeless | BC5Typeless
    | B8G8R8A8Typeless | B8G8R8X8Typeless | BC6HTypeless | BC7Typeless

  /** The three typeless formats a depth buffer may be created with. */
  predicate IsDepthTypeless(f: Format)
  {
    f == R16Typeless || f == R24G8Typeless || f == R32Typeless
  }

  /** Formats the renderer treats as typeless. Two formats whose names contain "TYPELESS"
      (R24_UNORM_X8 and X24_G8_UINT) are deliberately not in the list: they are the typed
      shader-resource views of a 24-bit depth buffer. */
  predicate IsFormatTypeless(f: Format)
  {
    match f
    case R32G32B32A32Typeless | R32G32B32Typeless | R16G16B16A16Typeless | R32G32Typeless
      | R32G8X24Typeless | R32FloatX8X24Typeless | X32TypelessG8X24Uint | R10G10B10A2Typeless
      | R8G8B8A8Typeless | R16G16Typeless | R32Typeless | R24G8Typeless | R8G8Typeless
      | R16Typeless | R8Typeless | BC1Typeless | BC2Typeless | BC3Typeless | BC4Typeless
      | BC5Typeless | B8G8R8A8Typeless | B8G8R8X8Typeless | BC6HTypeless | BC7Typeless => true
    case _ => false
  }

  /** The depth-stencil view format of a typeless depth buffer; Unknown for anything else. */
  function DepthStencilViewFormat(f: Format): (r: Format)
    ensures IsDepthTypeless(f) <==> r != Unknown
    ensures r != Unknown ==> !IsFormatTypeless(r) && r != f
  {
    match f
    case R16Typeless => D16Unorm
    case R24G8Typeless => D24UnormS8Uint
    case R32Typeless => D32Float
    case _ => Unknown
  }

  /** The shader-resource view format of a typeless depth buffer; Unknown for anything else.
      For R32_TYPELESS the renderer answers D32_FLOAT, the depth-stencil format, rather than
      the colour format R32_FLOAT; that answer is reproduced here. */
  function DepthShaderResourceFormat(f: Format): (r: Format)
    ensures IsDepthTypeless(f) <==> r != Unknown
    ensures r != Unknown ==> !IsFormatTypeless(r)
  {
    match f
    case R16Typeless => R16Unorm
    case R24G8Typeless => R24UnormX8Typeless
    case R32Typeless => D32Float
    case _ => Unknown
  }

  /** For 32-bit depth the shader-resource format coincides with the depth-stencil format,
      unlike the 16- and 24-bit cases. */
  lemma R32DepthViewsCoincide()
    ensures DepthShaderResourceFormat(R32Typeless) == DepthStencilViewFormat(R32Typeless)
    ensures DepthShaderResourceFormat(R16Typeless) != DepthStencilViewFormat(R16Typeless)
    ensures DepthShaderResourceFormat(R24G8Typeless) != DepthStencilViewFormat(R24G8Typeless)
  {
  }

  // ---------------------------------------------------------------------------------------------
  // Bind flags and texture descriptors
  // ---------------------------------------------------------------------------------------------

  const BIND_CONSTANT_BUFFER: bv32 := 0x4
  const BIND_SHADER_RESOURCE: bv32 := 0x8
  const BIND_RENDER_TARGET: bv32 := 0x20
  const BIND_DEPTH_STENCIL: bv32 := 0x40
  const BIND_UNORDERED_ACCESS: bv32 := 0x80

  predicate HasBind(flags: bv32, bit: bv32)
  {
    flags & bit != 0
  }

  datatype Texture2DDesc = Texture2DDesc(
    width: uint32, height: uint32, mipLevels: nat, arraySize: nat,
    format: Format, sampleCount: nat, bindFlags: bv32)

  datatype Texture3DDesc = Texture3DDesc(
    width: uint32, height: uint32, depth: uint32, mipLevels: nat,
    format: Format, bindFlags: bv32)

  /** The bind flags of a default texture: always shader-readable, optionally render target
      and unordered access. */
  function DefaultBindFlags(renderTarget: bool, uav: bool): (r: bv32)
    ensures HasBind(r, BIND_SHADER_RESOURCE)
    ensures HasBind(r, BIND_RENDER_TARGET) <==> renderTarget
    ensures HasBind(r, BIND_UNORDERED_ACCESS) <==> uav
    ensures !HasBind(r, BIND_DEPTH_STENCIL) && !HasBind(r, BIND_CONSTANT_BUFFER)
    ensures r & !(BIND_SHADER_RESOURCE | BIND_RENDER_TARGET | BIND_UNORDERED_ACCESS) == 0
  {
    BIND_SHADER_RESOURCE
      | (if renderTarget then BIND_RENDER_TARGET else 0)
      | (if uav then BIND_UNORDERED_ACCESS else 0)
  }

  /** `Texture2D::initDefault`: one mip, one array slice, one sample, the given extents. */
  function InitDefault2D(format: Format, width: uint32, height: uint32, renderTarget: bool, uav: bool)
    : (d: Texture2DDesc)
    ensures d.width == width && d.height == height && d.format == format
    ensures d.mipLevels == 1 && d.arraySize == 1 && d.sampleCount == 1
    ensures HasBind(d.bindFlags, BIND_SHADER_RESOURCE)
    ensures HasBind(d.bindFlags, BIND_RENDER_TARGET) <==> renderTarget
    ensures HasBind(d.bindFlags, BIND_UNORDERED_ACCESS) <==> uav
    ensures !HasBind(d.bindFlags, BIND_DEPTH_STENCIL)
  {
    Texture2DDesc(width, height, 1, 1, format, 1, DefaultBindFlags(renderTarget, uav))
  }

  /** `Texture3D::initDefault`: one mip, the given extents. */
  function InitDefault3D(format: Format, width: uint32, height: uint32, depth: uint32, renderTarget: bool, uav: bool)
    : (d: Texture3DDesc)
    ensures d.width == width && d.height == height && d.depth == depth && d.format == format
    ensures d.mipLevels == 1
    ensures HasBind(d.bindFlags, BIND_SHADER_RESOURCE)
    ensures HasBind(d.bindFlags, BIND_RENDER_TARGET) <==> renderTarget
    ensures HasBind(d.bindFlags, BIND_UNORDERED_ACCESS) <==> uav
    ensures !HasBind(d.bindFlags, BIND_DEPTH_STENCIL)
  {
    Texture3DDesc(width, height, depth, 1, format, DefaultBindFlags(renderTarget, uav))
  }

  /** `Texture2D::initDepthStencilBuffer`: a 24/8 typeless buffer readable by shaders and
      bindable as depth-stencil. */
  function InitDepthStencilBuffer(width: uint32, height: uint32, uav: bool): (d: Texture2DDesc)
    ensures d.width == width && d.height == height && d.mipLevels == 1 && d.arraySize == 1
    ensures IsDepthTypeless(d.format) && d.format == R24G8Typeless && d.sampleCount == 1
    ensures HasBind(d.bindFlags, BIND_DEPTH_STENCIL) && HasBind(d.bindFlags, BIND_SHADER_RESOURCE)
    ensures HasBind(d.bindFlags, BIND_UNORDERED_ACCESS) <==> uav
    ensures !HasBind(d.bindFlags, BIND_RENDER_TARGET)
  {
    Texture2DDesc(width, height, 1, 1, R24G8Typeless, 1,
      BIND_SHADER_RESOURCE | BIND_DEPTH_STENCIL | (if uav then BIND_UNORDERED_ACCESS else 0))
  }

  /** The format the `Texture2D` constructor uses for its shader-resource, unordered-access and
      render-target views: the depth shader-resource format when the texture is a depth
      buffer, its own format otherwise. */
  function Texture2DViewFormat(d: Texture2DDesc): Format
  {
    if HasBind(d.bindFlags, BIND_DEPTH_STENCIL) then DepthShaderResourceFormat(d.format) else d.format
  }

  /** The constructor asserts that the view format is not typeless. That holds for every
      depth buffer created with a depth typeless format and for every default texture whose
      format is typed. */
  lemma Texture2DViewFormatIsTyped(d: Texture2DDesc)
    requires HasBind(d.bindFlags, BIND_DEPTH_STENCIL) ==> IsDepthTypeless(d.format)
    requires !HasBind(d.bindFlags, BIND_DEPTH_STENCIL) ==> !IsFormatTypeless(d.format)
    ensures !IsFormatTypeless(Texture2DViewFormat(d))
    ensures Texture2DViewFormat(d) != Unknown || d.format == Unknown
  {
  }

  // ---------------------------------------------------------------------------------------------
  // Constant buffers
  // ---------------------------------------------------------------------------------------------

  datatype Usage = UsageDefault | UsageDynamic

  datatype BufferDesc = BufferDesc(byteWidth: uint32, usage: Usage, bindFlags: bv32, cpuWritable: bool)

  /** The descriptor of `ConstantBuffer<T>`: a dynamic, CPU-writable constant buffer of
      `sizeof(T)` bytes. The class asserts that the size is a multiple of 16 bytes, the
      register granularity of constant buffers. */
  function ConstantBufferDesc(byteSize: uint32): (d: BufferDesc)
    requires byteSize % 16 == 0
    ensures d.byteWidth == byteSize && d.byteWidth % 16 == 0
    ensures d.usage == UsageDynamic && d.cpuWritable
    ensures HasBind(d.bindFlags, BIND_CONSTANT_BUFFER) && !HasBind(d.bindFlags, BIND_SHADER_RESOURCE)
  {
    BufferDesc(byteSize, UsageDynamic, BIND_CONSTANT_BUFFER, true)
  }

  // ---------------------------------------------------------------------------------------------
  // Integer helpers
  // ---------------------------------------------------------------------------------------------

  function Abs(x: int): nat
  {
    if x < 0 then -x else x
  }

  lemma QuotientBound(a: nat, b: nat)
    requires b >= 1
    ensures a / b <= a
  {
    var q := a / b;
    assert q * b + a % b == a;
    assert q <= q * b;
  }

  /** C integer division: the quotient is truncated toward zero. */
  function TruncDiv(a: int, b: int): (q: int)
    requires b != 0
    ensures a >= 0 && b > 0 ==> q == a / b
    ensures Abs(q) <= Abs(a)
  {
    var m := Abs(a) / Abs(b);
    QuotientBound(Abs(a), Abs(b));
    if (a < 0) != (b < 0) then -m else m
  }

  /** `divRoundUp(numer, denum)`, computed as `(numer + denum - 1) / denum` on `int32`. The
      requires clauses exclude what C leaves undefined: division by zero, overflow of the sum,
      and the one overflowing quotient. For a non-negative numerator and positive denominator
      the result is the ceiling of the exact quotient. */
  function DivRoundUp(numer: int32, denum: int32): (r: int32)
    requires denum != 0
    requires -0x8000_0000 <= numer + denum - 1 < 0x8000_0000
    requires !(numer + denum - 1 == -0x8000_0000 && denum == -1)
    ensures numer >= 0 && denum > 0 ==> r * denum >= numer && (r - 1) * denum < numer
    ensures numer >= 0 && denum > 0 ==> r >= 0
  {
    var s := numer + denum - 1;
    var q := TruncDiv(s, denum);
    if numer >= 0 && denum > 0 then
      assert q == s / denum;
      assert s == q * denum + s % denum;
      q
    else
      q
  }

  // ---------------------------------------------------------------------------------------------
  // Owning pointers
  // ---------------------------------------------------------------------------------------------

  /** A raw owning pointer: null, pointing at a live object, or never initialised. */
  datatype Ptr<T> = Null | Points(target: T) | Indeterminate

  /** What resetting a pointer did to the object it held. `DisposedIndeterminate` records the
      undefined behaviour of testing and deleting an uninitialised pointer. */
  datatype Disposal<T> = Untouched | Disposed(obj: T) | DisposedIndeterminate

  /** `resetPtr` / `resetComPtr`: delete (or `Release()`) the object when the pointer is
      non-null, then leave the pointer null. */
  function ResetPtr<T>(p: Ptr<T>): (r: (Ptr<T>, Disposal<T>))
    ensures r.0 == Null
    ensures r.1 == Untouched <==> p == Null
    ensures p.Points? ==> r.1 == Disposed(p.target)
    ensures r.1 == DisposedIndeterminate <==> p == Indeterminate
  {
    match p
    case Null => (Null, Untouched)
    case Points(o) => (Null, Disposed(o))
    case Indeterminate => (Null, DisposedIndeterminate)
  }

  /** Resetting twice: the second reset touches nothing. */
  lemma ResetPtrIdempotent<T>(p: Ptr<T>)
    ensures ResetPtr(ResetPtr(p).0) == (Null, Untouched)
  {
  }
}

=== FILE: lut_config.dfy ===
/** `LookUpTablesInfo`: the base sizes of the precomputed tables and the extents of the
    flattened 4-D scattering table derived from them. */
module LutConfig {
  import opened DeviceHelpers

  /** The marker the derived extents hold before they are first computed. */
  const SENTINEL: uint32 := 0xDEAD_BEEF

  datatype LookUpTablesInfo = LookUpTablesInfo(
    transmittanceWidth: uint32,
    transmittanceHeight: uint32,
    scatteringRSize: uint32,
    scatteringMuSize: uint32,
    scatteringMuSSize: uint32,
    scatteringNuSize: uint32,
    irradianceWidth: uint32,
    irradianceHeight: uint32,
    // derived from the four scattering sizes
    scatteringWidth: uint32,
    scatteringHeight: uint32,
    scatteringDepth: uint32)

  /** The derived extents as `updateDerivedData` should leave them: the Nu and MuS axes are
      tiled side by side along the width (an unsigned 32-bit product), Mu runs along the
      height and R along the depth. */
  predicate DerivedConsistent(i: LookUpTablesInfo)
  {
    && i.scatteringWidth == (i.scatteringNuSize * i.scatteringMuSSize) % 0x1_0000_0000
    && i.scatteringHeight == i.scatteringMuSize
    && i.scatteringDepth == i.scatteringRSize
  }

  /** Two configurations with the same base sizes. */
  predicate SameBaseSizes(a: LookUpTablesInfo, b: LookUpTablesInfo)
  {
    && a.transmittanceWidth == b.transmittanceWidth
    && a.transmittanceHeight == b.transmittanceHeight
    && a.scatteringRSize == b.scatteringRSize
    && a.scatteringMuSize == b.scatteringMuSize
    && a.scatteringMuSSize == b.scatteringMuSSize
    && a.scatteringNuSize == b.scatteringNuSize
    && a.irradianceWidth == b.irradianceWidth
    && a.irradianceHeight == b.irradianceHeight
  }

  /** The member initialisers, before the constructor body runs. */
  function InitialisedMembers(): (i: LookUpTablesInfo)
    ensures i.scatteringWidth == SENTINEL && i.scatteringHeight == SENTINEL && i.scatteringDepth == SENTINEL
  {
    LookUpTablesInfo(256, 64, 32, 128, 32, 8, 64, 16, SENTINEL, SENTINEL, SENTINEL)
  }

  /** An unsigned product below 2^32 does not wrap. */
  lemma NoWrapBelowRange(p: int)
    requires p >= 0
    ensures p < 0x1_0000_0000 ==> p % 0x1_0000_0000 == p
  {
  }

  /** `updateDerivedData`: recompute the three derived extents, leaving the base sizes alone. */
  function UpdateDerivedData(i: LookUpTablesInfo): (r: LookUpTablesInfo)
    ensures SameBaseSizes(r, i)
    ensures DerivedConsistent(r)
    ensures var p := i.scatteringNuSize * i.scatteringMuSSize; p < 0x1_0000_0000 ==> r.scatteringWidth == p
  {
    var p := i.scatteringNuSize * i.scatteringMuSSize;
    NoWrapBelowRange(p);
    i.(scatteringWidth := p % 0x1_0000_0000,
       scatteringHeight := i.scatteringMuSize,
       scatteringDepth := i.scatteringRSize)
  }

  /** The derived extents depend on the base sizes alone. */
  lemma DerivedDependsOnlyOnBase(a: LookUpTablesInfo, b: LookUpTablesInfo)
    requires SameBaseSizes(a, b)
    ensures UpdateDerivedData(a) == UpdateDerivedData(b)
  {
  }

  /** Recomputing the derived extents a second time changes nothing. */
  lemma UpdateDerivedDataIdempotent(i: LookUpTablesInfo)
    ensures UpdateDerivedData(UpdateDerivedData(i)) == UpdateDerivedData(i)
  {
  }

  /** The constructor: member initialisers followed by `updateDerivedData`, so the sentinel is
      never observable and the shipped sizes give transmittance 256x64, irradiance 64x16 and
      scattering 256x128x32. */
  function NewLookUpTablesInfo(): (i: LookUpTablesInfo)
    ensures DerivedConsistent(i)
    ensures SameBaseSizes(i, InitialisedMembers())
    ensures i.scatteringWidth != SENTINEL && i.scatteringHeight != SENTINEL && i.scatteringDepth != SENTINEL
    ensures i.transmittanceWidth == 256 && i.transmittanceHeight == 64
    ensures i.irradianceWidth == 64 && i.irradianceHeight == 16
    ensures i.scatteringWidth == 256 && i.scatteringHeight == 128 && i.scatteringDepth == 32
  {
    UpdateDerivedData(InitialisedMembers())
  }
}

=== FILE: lut_pipeline.dfy ===
/** `generateSkyAtmosphereLUTs`: the precomputation of the transmittance, irradiance and
    scattering tables, following the Bruneton 2017 algorithm. Each pass is a record (program,
    render targets, sampled tables, side-constant binding, draw shape, viewport); the GPU
    kernels are uninterpreted, so a table's content is the symbolic term of the kernels and
    blends that produced it. The pass list runs over an abstract device state holding the
    seven tables, the bound blend state and the side-constant scattering order. */
module LutPipeline {
  import opened Wrappers
  import opened LutConfig
  import opened LutTables
  import opened BlendStates

  datatype Table =
    | Transmittance | Irradiance | Scattering
    | DeltaIrradiance | DeltaRayleigh | DeltaMie | DeltaScatteringDensity

  /** The pixel shaders of the precomputation. */
  datatype Program =
    | TransmittanceLut | DirectIrradianceLut | SingleScatteringLut
    | ScatteringDensityLut | IndirectIrradianceLut | MultipleScatteringLut

  /** Abstract table content. `Undefined` is a freshly allocated texture; `Kernel` is what
      `program` writes to render-target slot `slot`, given the side-constant scattering order
      (when that buffer is bound) and the contents of the sampled tables; `Sum` is additive
      blending; `Composite` the other blend equations. */
  datatype Content =
    | Undefined
    | Kernel(program: Program, slot: nat, order: Option<int>, inputs: seq<Content>)
    | Sum(acc: Content, add: Content)
    | Composite(mode: WriteMode, dst: Content, src: Content)

  /** The content of every table: a total map from table name to content. */
  datatype TableContents = TableContents(
    transmittance: Content, irradiance: Content, scattering: Content,
    deltaIrradiance: Content, deltaRayleigh: Content, deltaMie: Content,
    deltaScatteringDensity: Content)

  function At(c: TableContents, t: Table): Content
  {
    match t
    case Transmittance => c.transmittance
    case Irradiance => c.irradiance
    case Scattering => c.scattering
    case DeltaIrradiance => c.deltaIrradiance
    case DeltaRayleigh => c.deltaRayleigh
    case DeltaMie => c.deltaMie
    case DeltaScatteringDensity => c.deltaScatteringDensity
  }

  /** `Draw(3, 0)` of a full-screen triangle, or `DrawInstanced(3, n)` through the layer
      geometry shader, one instance per depth slice. */
  datatype Shape = FullScreen | Layered(instances: nat)

  datatype Viewport = Viewport(width: nat, height: nat)

  datatype Pass = Pass(
    program: Program, targets: seq<Table>, inputs: seq<Table>,
    sideBound: bool, shape: Shape, viewport: Viewport)

  /** One device command of the generation: an update of the side constants, a blend-state
      change, or a draw. */
  datatype Step = SetSideOrder(order: int) | SetBlend(blend: BlendState) | Draw(pass: Pass)

  /** The device state the generation reads and writes. */
  datatype Gpu = Gpu(tables: TableContents, blend: BlendState, sideOrder: int)

  /** The position of a table among a pass's render targets. */
  function SlotOf(targets: seq<Table>, t: Table): (i: nat)
    requires t in targets
    ensures i < |targets| && targets[i] == t
    ensures forall j :: 0 <= j < i ==> targets[j] != t
  {
    if targets[0] == t then 0 else 1 + SlotOf(targets[1..], t)
  }

  /** The contents of the sampled tables, in binding order. */
  function Read(c: TableContents, inputs: seq<Table>): (r: seq<Content>)
    ensures |r| == |inputs|
    ensures forall i :: 0 <= i < |inputs| ==> r[i] == At(c, inputs[i])
  {
    if |inputs| == 0 then [] else [At(c, inputs[0])] + Read(c, inputs[1..])
  }

  function Blend(m: WriteMode, dst: Content, src: Content): Content
  {
    match m
    case Overwrite => src
    case Add => Sum(dst, src)
    case PremultipliedOver => Composite(m, dst, src)
    case DualSourceTransmit => Composite(m, dst, src)
    case Masked => dst
  }

  /** The scattering order a pass's kernel sees: the side constants when that buffer is bound. */
  function OrderSeen(g: Gpu, p: Pass): Option<int>
  {
    if p.sideBound then Some(g.sideOrder) else None
  }

  /** The content table `t` holds after `p` is drawn in state `g`. */
  function Output(g: Gpu, p: Pass, t: Table): Content
  {
    if t in p.targets then
      var slot := SlotOf(p.targets, t);
      Blend(ModeOf(g.blend, slot), At(g.tables, t),
            Kernel(p.program, slot, OrderSeen(g, p), Read(g.tables, p.inputs)))
    else At(g.tables, t)
  }

  predicate Distinct(ts: seq<Table>)
  {
    forall i, j :: 0 <= i < j < |ts| ==> ts[i] != ts[j]
  }

  /** A draw: every table receives its `Output`. Kernels sample the tables as they were
      before the draw. */
  function DrawPass(g: Gpu, p: Pass): (r: Gpu)
    ensures r.blend == g.blend && r.sideOrder == g.sideOrder
    ensures forall t :: At(r.tables, t) == Output(g, p, t)
  {
    Gpu(TableContents(Output(g, p, Transmittance), Output(g, p, Irradiance), Output(g, p, Scattering),
                      Output(g, p, DeltaIrradiance), Output(g, p, DeltaRayleigh), Output(g, p, DeltaMie),
                      Output(g, p, DeltaScatteringDensity)),
        g.blend, g.sideOrder)
  }

  /** Every render target of a draw receives its slot's kernel output, combined with its old
      content by the slot's write mode; every other table is left alone. */
  lemma DrawPassWrites(g: Gpu, p: Pass)
    requires Distinct(p.targets)
    ensures forall t :: t !in p.targets ==> At(DrawPass(g, p).tables, t) == At(g.tables, t)
    ensures forall i :: 0 <= i < |p.targets| ==>
      At(DrawPass(g, p).tables, p.targets[i])
        == Blend(ModeOf(g.blend, i), At(g.tables, p.targets[i]),
                 Kernel(p.program, i, OrderSeen(g, p), Read(g.tables, p.inputs)))
  {
    forall i | 0 <= i < |p.targets|
      ensures SlotOf(p.targets, p.targets[i]) == i
    {
    }
  }

  function Exec(g: Gpu, s: Step): Gpu
  {
    match s
    case SetSideOrder(k) => g.(sideOrder := k)
    case SetBlend(b) => g.(blend := b)
    case Draw(p) => DrawPass(g, p)
  }

  function Run(g: Gpu, steps: seq<Step>): Gpu
    decreases |steps|
  {
    if |steps| == 0 then g else Run(Exec(g, steps[0]), steps[1..])
  }

  /** What one draw did: its pass, the scattering order its kernel saw and each target's write
      mode. */
  datatype Invocation = Invocation(pass: Pass, order: Option<int>, modes: seq<WriteMode>)

  function Invoke(g: Gpu, p: Pass): Invocation
  {
    Invocation(p, OrderSeen(g, p), Modes(g.blend, |p.targets|))
  }

  /** The draws of a step list, in order. */
  function Trace(g: Gpu, steps: seq<Step>): seq<Invocation>
    decreases |steps|
  {
    if |steps| == 0 then []
    else (if steps[0].Draw? then [Invoke(g, steps[0].pass)] else []) + Trace(Exec(g, steps[0]), steps[1..])
  }

  lemma {:induction false} RunAppend(g: Gpu, a: seq<Step>, b: seq<Step>)
    ensures Run(g, a + b) == Run(Run(g, a), b)
    ensures Trace(g, a + b) == Trace(g, a) + Trace(Run(g, a), b)
    decreases |a|
  {
    if |a| == 0 {
      assert a + b == b;
    } else {
      assert (a + b)[0] == a[0];
      assert (a + b)[1..] == a[1..] + b;
      RunAppend(Exec(g, a[0]), a[1..], b);
    }
  }

  // ---------------------------------------------------------------------------------------
  // The pass list of `generateSkyAtmosphereLUTs`.

  /** What the generation reads from its owner: the table sizes and the allocated tables,
      whose descriptors give the layered passes their instance counts. */
  datatype Resources = Resources(info: LookUpTablesInfo, luts: LookUpTables, temps: TempLookUpTables)
  {
    predicate Ready()
    {
      luts.Allocated() && temps.Allocated()
    }
  }

  function TransmittancePass(r: Resources): Pass
  {
    Pass(TransmittanceLut, [Transmittance], [], false, FullScreen,
         Viewport(r.info.transmittanceWidth, r.info.transmittanceHeight))
  }

  function DirectIrradiancePass(r: Resources): Pass
  {
    Pass(DirectIrradianceLut, [DeltaIrradiance, Irradiance], [Transmittance], false, FullScreen,
         Viewport(r.info.irradianceWidth, r.info.irradianceHeight))
  }

  function SingleScatteringPass(r: Resources): Pass
    requires r.Ready()
  {
    Pass(SingleScatteringLut, [DeltaRayleigh, DeltaMie, Scattering], [Transmittance], true,
         Layered(r.luts.scattering.target.depth),
         Viewport(r.info.scatteringWidth, r.info.scatteringHeight))
  }

  /** The delta-multiple-scattering input is the delta Rayleigh table, bound a second time. */
  function ScatteringDensityPass(r: Resources): Pass
    requires r.Ready()
  {
    Pass(ScatteringDensityLut, [DeltaScatteringDensity],
         [Transmittance, DeltaIrradiance, DeltaRayleigh, DeltaMie, DeltaRayleigh], true,
         Layered(r.temps.deltaScatteringDensity.target.depth),
         Viewport(r.info.scatteringWidth, r.info.scatteringHeight))
  }

  /** The viewport height is the irradiance table's width, as written in the source. */
  function IndirectIrradiancePass(r: Resources): Pass
  {
    Pass(IndirectIrradianceLut, [DeltaIrradiance, Irradiance],
         [DeltaRayleigh, DeltaMie, DeltaRayleigh], true, FullScreen,
         Viewport(r.info.irradianceWidth, r.info.irradianceWidth))
  }

  function MultipleScatteringPass(r: Resources): Pass
    requires r.Ready()
  {
    Pass(MultipleScatteringLut, [DeltaRayleigh, Scattering],
         [Transmittance, DeltaScatteringDensity], true,
         Layered(r.luts.scattering.target.depth),
         Viewport(r.info.scatteringWidth, r.info.scatteringHeight))
  }

  /** A sub-pass of the order loop: side constants updated, blend state bound, then the draw. */
  function SubPass(order: int, b: BlendState, p: Pass): seq<Step>
  {
    [SetSideOrder(order), SetBlend(b), Draw(p)]
  }

  /** The three passes before the loop; the first two leave the blend state as it was. */
  function Prologue(r: Resources): seq<Step>
    requires r.Ready()
  {
    [Draw(TransmittancePass(r))]
      + ([Draw(DirectIrradiancePass(r))] + ([SetSideOrder(1)] + [Draw(SingleScatteringPass(r))]))
  }

  /** One iteration of the order loop, for scattering order `k`. */
  function Iteration(k: int, r: Resources): seq<Step>
    requires r.Ready()
  {
    SubPass(k, DefaultBlend, ScatteringDensityPass(r))
      + SubPass(k - 1, Blend0Nop1Add, IndirectIrradiancePass(r))
      + SubPass(k, Blend0Nop1Add, MultipleScatteringPass(r))
  }

  /** Iterations `k` to `n`. */
  function OrderLoop(k: int, n: int, r: Resources): seq<Step>
    requires r.Ready()
    decreases n - k + 1
  {
    if k > n then [] else Iteration(k, r) + OrderLoop(k + 1, n, r)
  }

  /** `generateSkyAtmosphereLUTs` with `NumScatteringOrder == n`. */
  function Generate(n: int, r: Resources): seq<Step>
    requires r.Ready()
  {
    Prologue(r) + OrderLoop(2, n, r) + [SetBlend(DefaultBlend)]
  }

  // ---------------------------------------------------------------------------------------
  // Reference: the per-order terms of the precomputation, written as recurrences.

  function TransmittanceTerm(): Content
  {
    Kernel(TransmittanceLut, 0, None, [])
  }

  function SingleMieTerm(): Content
  {
    Kernel(SingleScatteringLut, 1, Some(1), [TransmittanceTerm()])
  }

  /** Delta Rayleigh after order `k`: single Rayleigh scattering, then the order-k multiple
      scattering. */
  function DeltaRayleighTerm(k: nat): Content
    requires k >= 1
    decreases k, 1
  {
    if k == 1 then Kernel(SingleScatteringLut, 0, Some(1), [TransmittanceTerm()])
    else Kernel(MultipleScatteringLut, 0, Some(k), [TransmittanceTerm(), DensityTerm(k)])
  }

  /** The order-k scattering density, from the order k-1 deltas. */
  function DensityTerm(k: nat): Content
    requires k >= 2
    decreases k, 0
  {
    Kernel(ScatteringDensityLut, 0, Some(k),
      [TransmittanceTerm(), DeltaIrradianceTerm(k - 1), DeltaRayleighTerm(k - 1), SingleMieTerm(),
       DeltaRayleighTerm(k - 1)])
  }

  /** Delta irradiance after order `k`: direct irradiance, then indirect irradiance from the
      order k-1 scattering (its kernel sees order k-1). */
  function DeltaIrradianceTerm(k: nat): Content
    requires k >= 1
    decreases k, 2
  {
    if k == 1 then Kernel(DirectIrradianceLut, 0, None, [TransmittanceTerm()])
    else IndirectKernel(k, 0)
  }

  function IndirectKernel(k: nat, slot: nat): Content
    requires k >= 2
    decreases k - 1, 3
  {
    Kernel(IndirectIrradianceLut, slot, Some(k - 1),
      [DeltaRayleighTerm(k - 1), SingleMieTerm(), DeltaRayleighTerm(k - 1)])
  }

  /** What order k (k >= 2) adds to the irradiance table. */
  function IrradianceGain(k: nat): Content
    requires k >= 2
  {
    IndirectKernel(k, 1)
  }

  /** What order k (k >= 2) adds to the scattering table. */
  function ScatteringGain(k: nat): Content
    requires k >= 2
  {
    Kernel(MultipleScatteringLut, 1, Some(k), [TransmittanceTerm(), DensityTerm(k)])
  }

  /** The gains of orders 2..m, in order. */
  function IrradianceGains(m: nat): (gs: seq<Content>)
    requires m >= 1
    ensures |gs| == m - 1
    ensures forall i :: 0 <= i < m - 1 ==> gs[i] == IrradianceGain(i + 2)
  {
    seq(m - 1, i requires 0 <= i < m - 1 => IrradianceGain(i + 2))
  }

  function ScatteringGains(m: nat): (gs: seq<Content>)
    requires m >= 1
    ensures |gs| == m - 1
    ensures forall i :: 0 <= i < m - 1 ==> gs[i] == ScatteringGain(i + 2)
  {
    seq(m - 1, i requires 0 <= i < m - 1 => ScatteringGain(i + 2))
  }

  /** `base` followed by additive blending of every gain, in order. */
  function Accumulate(base: Content, gains: seq<Content>): Content
  {
    if |gains| == 0 then base else Sum(Accumulate(base, gains[..|gains| - 1]), gains[|gains| - 1])
  }

  /** The tables after `m` orders: transmittance and single Mie as first written, irradiance =
      direct + the sum of the indirect gains of orders 2..m, scattering = single + the sum of
      the multiple-scattering gains of orders 2..m, and the deltas of order m. The density
      table keeps its prior content when no order loop ran. */
  function Reference(m: nat, priorDensity: Content): TableContents
    requires m >= 1
  {
    TableContents(
      TransmittanceTerm(),
      Accumulate(Kernel(DirectIrradianceLut, 1, None, [TransmittanceTerm()]), IrradianceGains(m)),
      Accumulate(Kernel(SingleScatteringLut, 2, Some(1), [TransmittanceTerm()]), ScatteringGains(m)),
      DeltaIrradianceTerm(m),
      DeltaRayleighTerm(m),
      SingleMieTerm(),
      if m == 1 then priorDensity else DensityTerm(m))
  }

  function Max1(n: int): nat
  {
    if n < 1 then 1 else n
  }

  // ---------------------------------------------------------------------------------------
  // Execution of the pass list.

  /** `c` with table `t` replaced by `v`. */
  function With(c: TableContents, t: Table, v: Content): (r: TableContents)
    ensures At(r, t) == v
    ensures forall u :: u != t ==> At(r, u) == At(c, u)
  {
    match t
    case Transmittance => c.(transmittance := v)
    case Irradiance => c.(irradiance := v)
    case Scattering => c.(scattering := v)
    case DeltaIrradiance => c.(deltaIrradiance := v)
    case DeltaRayleigh => c.(deltaRayleigh := v)
    case DeltaMie => c.(deltaMie := v)
    case DeltaScatteringDensity => c.(deltaScatteringDensity := v)
  }

  /** Two table contents that agree on every table are equal. */
  lemma TablesExt(x: TableContents, y: TableContents)
    requires forall t :: At(x, t) == At(y, t)
    ensures x == y
  {
    assert At(x, Transmittance) == At(y, Transmittance) && At(x, Irradiance) == At(y, Irradiance);
    assert At(x, Scattering) == At(y, Scattering) && At(x, DeltaIrradiance) == At(y, DeltaIrradiance);
    assert At(x, DeltaRayleigh) == At(y, DeltaRayleigh) && At(x, DeltaMie) == At(y, DeltaMie);
    assert At(x, DeltaScatteringDensity) == At(y, DeltaScatteringDensity);
  }

  lemma RunStep(g: Gpu, s: Step, rest: seq<Step>)
    ensures Run(g, [s] + rest) == Run(Exec(g, s), rest)
    ensures Trace(g, [s] + rest) == (if s.Draw? then [Invoke(g, s.pass)] else []) + Trace(Exec(g, s), rest)
  {
    assert ([s] + rest)[0] == s;
    assert ([s] + rest)[1..] == rest;
  }

  lemma SubPassEffect(g: Gpu, order: int, b: BlendState, p: Pass)
    ensures Run(g, SubPass(order, b, p)) == DrawPass(Gpu(g.tables, b, order), p)
    ensures Trace(g, SubPass(order, b, p)) == [Invoke(Gpu(g.tables, b, order), p)]
  {
    var g1 := g.(sideOrder := order);
    var g2 := g1.(blend := b);
    assert g2 == Gpu(g.tables, b, order);
    RunStep(g, SetSideOrder(order), [SetBlend(b), Draw(p)]);
    RunStep(g1, SetBlend(b), [Draw(p)]);
    RunStep(g2, Draw(p), []);
  }

  /** The single-target, two-target and three-target draws, written as table updates. */
  lemma DrawOne(g: Gpu, p: Pass)
    requires |p.targets| == 1
    ensures DrawPass(g, p) == Gpu(With(g.tables, p.targets[0], Output(g, p, p.targets[0])), g.blend, g.sideOrder)
  {
    var w := With(g.tables, p.targets[0], Output(g, p, p.targets[0]));
    forall t ensures At(DrawPass(g, p).tables, t) == At(w, t) {
      if t != p.targets[0] {
        assert t !in p.targets;
      }
    }
    TablesExt(DrawPass(g, p).tables, w);
  }

  lemma DrawTwo(g: Gpu, p: Pass)
    requires |p.targets| == 2
    ensures DrawPass(g, p) == Gpu(With(With(g.tables, p.targets[0], Output(g, p, p.targets[0])),
                                       p.targets[1], Output(g, p, p.targets[1])), g.blend, g.sideOrder)
  {
    var w := With(With(g.tables, p.targets[0], Output(g, p, p.targets[0])),
                  p.targets[1], Output(g, p, p.targets[1]));
    forall t ensures At(DrawPass(g, p).tables, t) == At(w, t) {
      if t != p.targets[0] && t != p.targets[1] {
        assert t !in p.targets;
      }
    }
    TablesExt(DrawPass(g, p).tables, w);
  }

  lemma DrawThree(g: Gpu, p: Pass)
    requires |p.targets| == 3
    ensures DrawPass(g, p) ==
      Gpu(With(With(With(g.tables, p.targets[0], Output(g, p, p.targets[0])),
                    p.targets[1], Output(g, p, p.targets[1])),
               p.targets[2], Output(g, p, p.targets[2])), g.blend, g.sideOrder)
  {
    var w := With(With(With(g.tables, p.targets[0], Output(g, p, p.targets[0])),
                       p.targets[1], Output(g, p, p.targets[1])),
                  p.targets[2], Output(g, p, p.targets[2]));
    forall t ensures At(DrawPass(g, p).tables, t) == At(w, t) {
      if t != p.targets[0] && t != p.targets[1] && t != p.targets[2] {
        assert t !in p.targets;
      }
    }
    TablesExt(DrawPass(g, p).tables, w);
  }

  /** With no blending bound on entry, the prologue writes transmittance, direct irradiance
      and single scattering by overwriting, whatever the tables held. */
  lemma PrologueEffect(g: Gpu, r: Resources)
    requires r.Ready() && g.blend == DefaultBlend
    ensures Run(g, Prologue(r)) == Gpu(Reference(1, g.tables.deltaScatteringDensity), DefaultBlend, 1)
    ensures Trace(g, Prologue(r)) ==
      [Invocation(TransmittancePass(r), None, [Overwrite]),
       Invocation(DirectIrradiancePass(r), None, [Overwrite, Overwrite]),
       Invocation(SingleScatteringPass(r), Some(1), [Overwrite, Overwrite, Overwrite])]
  {
    var p1, p2, p3 := TransmittancePass(r), DirectIrradiancePass(r), SingleScatteringPass(r);
    PrologueSteps(g, r);
    PrologueTables(g, r);
    SmallModes();
  }

  /** The prologue's steps executed one after the other. */
  lemma PrologueSteps(g: Gpu, r: Resources)
    requires r.Ready()
    ensures Run(g, Prologue(r)) ==
      DrawPass(DrawPass(DrawPass(g, TransmittancePass(r)), DirectIrradiancePass(r)).(sideOrder := 1),
               SingleScatteringPass(r))
    ensures Trace(g, Prologue(r)) ==
      [Invoke(g, TransmittancePass(r)),
       Invoke(DrawPass(g, TransmittancePass(r)), DirectIrradiancePass(r)),
       Invoke(DrawPass(DrawPass(g, TransmittancePass(r)), DirectIrradiancePass(r)).(sideOrder := 1),
              SingleScatteringPass(r))]
  {
    var p1, p2, p3 := TransmittancePass(r), DirectIrradiancePass(r), SingleScatteringPass(r);
    var g1 := DrawPass(g, p1);
    var tail := [Draw(p2)] + ([SetSideOrder(1)] + [Draw(p3)]);
    RunStep(g, Draw(p1), tail);
    TailSteps(g1, p2, p3);
  }

  /** The last three steps of the prologue. */
  lemma TailSteps(g1: Gpu, p2: Pass, p3: Pass)
    ensures Run(g1, [Draw(p2)] + ([SetSideOrder(1)] + [Draw(p3)])) == DrawPass(DrawPass(g1, p2).(sideOrder := 1), p3)
    ensures Trace(g1, [Draw(p2)] + ([SetSideOrder(1)] + [Draw(p3)])) ==
      [Invoke(g1, p2), Invoke(DrawPass(g1, p2).(sideOrder := 1), p3)]
  {
    var g2 := DrawPass(g1, p2);
    var g3 := g2.(sideOrder := 1);
    RunStep(g1, Draw(p2), [SetSideOrder(1)] + [Draw(p3)]);
    RunStep(g2, SetSideOrder(1), [Draw(p3)]);
    RunStep(g3, Draw(p3), []);
    assert [Draw(p3)] + [] == [Draw(p3)];
  }

  lemma PrologueTables(g: Gpu, r: Resources)
    requires r.Ready() && g.blend == DefaultBlend
    ensures DrawPass(DrawPass(DrawPass(g, TransmittancePass(r)), DirectIrradiancePass(r)).(sideOrder := 1),
                     SingleScatteringPass(r))
            == Gpu(Reference(1, g.tables.deltaScatteringDensity), DefaultBlend, 1)
  {
    var p1, p2, p3 := TransmittancePass(r), DirectIrradiancePass(r), SingleScatteringPass(r);
    var g1 := DrawPass(g, p1);
    var g2 := DrawPass(g1, p2);
    var g3 := g2.(sideOrder := 1);
    DrawOne(g, p1);
    var t := TransmittanceTerm();
    assert Output(g, p1, Transmittance) == t;
    assert g1.tables == g.tables.(transmittance := t);
    DrawTwo(g1, p2);
    assert Output(g1, p2, DeltaIrradiance) == Kernel(DirectIrradianceLut, 0, None, [t]);
    assert Output(g1, p2, Irradiance) == Kernel(DirectIrradianceLut, 1, None, [t]);
    DrawThree(g3, p3);
    assert Output(g3, p3, DeltaRayleigh) == Kernel(SingleScatteringLut, 0, Some(1), [t]);
    assert Output(g3, p3, DeltaMie) == Kernel(SingleScatteringLut, 1, Some(1), [t]);
    assert Output(g3, p3, Scattering) == Kernel(SingleScatteringLut, 2, Some(1), [t]);
    ReferenceOne(g.tables.deltaScatteringDensity);
  }

  lemma ReferenceOne(d: Content)
    ensures Reference(1, d) ==
      TableContents(TransmittanceTerm(), Kernel(DirectIrradianceLut, 1, None, [TransmittanceTerm()]),
        Kernel(SingleScatteringLut, 2, Some(1), [TransmittanceTerm()]),
        Kernel(DirectIrradianceLut, 0, None, [TransmittanceTerm()]),
        Kernel(SingleScatteringLut, 0, Some(1), [TransmittanceTerm()]), SingleMieTerm(), d)
  {
  }

  lemma GainsStep(k: nat)
    requires k >= 2
    ensures IrradianceGains(k) == IrradianceGains(k - 1) + [IrradianceGain(k)]
    ensures ScatteringGains(k) == ScatteringGains(k - 1) + [ScatteringGain(k)]
  {
  }

  /** Accumulating one more order's gain is one more additive blend. */
  lemma AccumulateStep(base: Content, gains: seq<Content>, g: Content)
    ensures Accumulate(base, gains + [g]) == Sum(Accumulate(base, gains), g)
  {
    assert (gains + [g])[..|gains|] == gains;
  }

  /** The order-k tables in terms of the order k-1 tables. */
  lemma ReferenceStep(k: nat, d: Content)
    requires k >= 2
    ensures Reference(k, d) ==
      TableContents(
        TransmittanceTerm(),
        Sum(Reference(k - 1, d).irradiance, IrradianceGain(k)),
        Sum(Reference(k - 1, d).scattering, ScatteringGain(k)),
        DeltaIrradianceTerm(k), DeltaRayleighTerm(k), SingleMieTerm(), DensityTerm(k))
  {
    GainsStep(k);
    AccumulateStep(Kernel(DirectIrradianceLut, 1, None, [TransmittanceTerm()]), IrradianceGains(k - 1), IrradianceGain(k));
    AccumulateStep(Kernel(SingleScatteringLut, 2, Some(1), [TransmittanceTerm()]), ScatteringGains(k - 1), ScatteringGain(k));
  }

  /** One iteration, whatever the tables hold: density overwritten, delta irradiance and
      delta Rayleigh overwritten, irradiance and scattering accumulated; it leaves
      `Blend0Nop1Add` bound and the side order at `k`. */
  lemma IterationRun(g: Gpu, k: int, r: Resources)
    requires r.Ready()
    ensures Run(g, Iteration(k, r)) == Gpu(AfterIteration(g.tables, k), Blend0Nop1Add, k)
    ensures Trace(g, Iteration(k, r)) ==
      [Invocation(ScatteringDensityPass(r), Some(k), [Overwrite]),
       Invocation(IndirectIrradiancePass(r), Some(k - 1), [Overwrite, Add]),
       Invocation(MultipleScatteringPass(r), Some(k), [Overwrite, Add])]
  {
    var p1, p2, p3 := ScatteringDensityPass(r), IndirectIrradiancePass(r), MultipleScatteringPass(r);
    IterationSteps(g, k, r);
    IterationTables(g.tables, k, r);
    SmallModes();
  }

  /** The three sub-passes of an iteration executed one after the other. */
  lemma IterationSteps(g: Gpu, k: int, r: Resources)
    requires r.Ready()
    ensures
      var g1 := DrawPass(Gpu(g.tables, DefaultBlend, k), ScatteringDensityPass(r));
      var g2 := DrawPass(Gpu(g1.tables, Blend0Nop1Add, k - 1), IndirectIrradiancePass(r));
      && Run(g, Iteration(k, r)) == DrawPass(Gpu(g2.tables, Blend0Nop1Add, k), MultipleScatteringPass(r))
      && Trace(g, Iteration(k, r)) ==
        [Invoke(Gpu(g.tables, DefaultBlend, k), ScatteringDensityPass(r)),
         Invoke(Gpu(g1.tables, Blend0Nop1Add, k - 1), IndirectIrradiancePass(r)),
         Invoke(Gpu(g2.tables, Blend0Nop1Add, k), MultipleScatteringPass(r))]
  {
    var p1, p2, p3 := ScatteringDensityPass(r), IndirectIrradiancePass(r), MultipleScatteringPass(r);
    var a := SubPass(k, DefaultBlend, p1);
    var b := SubPass(k - 1, Blend0Nop1Add, p2);
    var c := SubPass(k, Blend0Nop1Add, p3);
    assert Iteration(k, r) == a + b + c;
    RunAppend(g, a + b, c);
    RunAppend(g, a, b);
    SubPassEffect(g, k, DefaultBlend, p1);
    var g1 := Run(g, a);
    SubPassEffect(g1, k - 1, Blend0Nop1Add, p2);
    var g2 := Run(g1, b);
    SubPassEffect(g2, k, Blend0Nop1Add, p3);
  }

  /** One iteration turns the order k-1 tables into the order k tables. */
  lemma IterationEffect(g: Gpu, k: nat, d: Content, r: Resources)
    requires r.Ready() && k >= 2 && g.tables == Reference(k - 1, d)
    ensures Run(g, Iteration(k, r)) == Gpu(Reference(k, d), Blend0Nop1Add, k)
    ensures Trace(g, Iteration(k, r)) ==
      [Invocation(ScatteringDensityPass(r), Some(k), [Overwrite]),
       Invocation(IndirectIrradiancePass(r), Some(k - 1), [Overwrite, Add]),
       Invocation(MultipleScatteringPass(r), Some(k), [Overwrite, Add])]
  {
    IterationRun(g, k, r);
    ReferenceIteration(k, d);
  }

  /** The tables after one iteration of order `k`, in terms of the tables before it. */
  function AfterIteration(c: TableContents, k: int): TableContents
  {
    var density := Kernel(ScatteringDensityLut, 0, Some(k),
      [c.transmittance, c.deltaIrradiance, c.deltaRayleigh, c.deltaMie, c.deltaRayleigh]);
    var indirect := [c.deltaRayleigh, c.deltaMie, c.deltaRayleigh];
    var multiple := [c.transmittance, density];
    TableContents(
      c.transmittance,
      Sum(c.irradiance, Kernel(IndirectIrradianceLut, 1, Some(k - 1), indirect)),
      Sum(c.scattering, Kernel(MultipleScatteringLut, 1, Some(k), multiple)),
      Kernel(IndirectIrradianceLut, 0, Some(k - 1), indirect),
      Kernel(MultipleScatteringLut, 0, Some(k), multiple),
      c.deltaMie,
      density)
  }

  lemma DensityDraw(c: TableContents, k: int, r: Resources)
    requires r.Ready()
    ensures DrawPass(Gpu(c, DefaultBlend, k), ScatteringDensityPass(r)).tables
      == c.(deltaScatteringDensity := AfterIteration(c, k).deltaScatteringDensity)
  {
    var p1 := ScatteringDensityPass(r);
    var h0 := Gpu(c, DefaultBlend, k);
    DrawOne(h0, p1);
    assert Read(c, p1.inputs) == [c.transmittance, c.deltaIrradiance, c.deltaRayleigh, c.deltaMie, c.deltaRayleigh];
    assert SlotOf(p1.targets, DeltaScatteringDensity) == 0;
    assert Output(h0, p1, DeltaScatteringDensity) == AfterIteration(c, k).deltaScatteringDensity;
  }

  lemma IndirectDraw(c: TableContents, k: int, r: Resources)
    ensures DrawPass(Gpu(c, Blend0Nop1Add, k - 1), IndirectIrradiancePass(r)).tables
      == c.(deltaIrradiance := AfterIteration(c, k).deltaIrradiance, irradiance := AfterIteration(c, k).irradiance)
  {
    var p2 := IndirectIrradiancePass(r);
    var e1 := Gpu(c, Blend0Nop1Add, k - 1);
    DrawTwo(e1, p2);
    assert Read(c, p2.inputs) == [c.deltaRayleigh, c.deltaMie, c.deltaRayleigh];
    assert SlotOf(p2.targets, DeltaIrradiance) == 0;
    assert SlotOf(p2.targets, Irradiance) == 1;
    assert Output(e1, p2, DeltaIrradiance) == AfterIteration(c, k).deltaIrradiance;
    assert Output(e1, p2, Irradiance) == AfterIteration(c, k).irradiance;
  }

  lemma MultipleDraw(c: TableContents, k: int, r: Resources)
    requires r.Ready()
    ensures DrawPass(Gpu(c, Blend0Nop1Add, k), MultipleScatteringPass(r)).tables
      == c.(deltaRayleigh := Kernel(MultipleScatteringLut, 0, Some(k), [c.transmittance, c.deltaScatteringDensity]),
            scattering := Sum(c.scattering, Kernel(MultipleScatteringLut, 1, Some(k), [c.transmittance, c.deltaScatteringDensity])))
  {
    var p3 := MultipleScatteringPass(r);
    var e2 := Gpu(c, Blend0Nop1Add, k);
    DrawTwo(e2, p3);
    assert Read(c, p3.inputs) == [c.transmittance, c.deltaScatteringDensity];
    assert SlotOf(p3.targets, DeltaRayleigh) == 0;
    assert SlotOf(p3.targets, Scattering) == 1;
  }

  lemma IterationTables(c: TableContents, k: int, r: Resources)
    requires r.Ready()
    ensures
      var h1 := DrawPass(Gpu(c, DefaultBlend, k), ScatteringDensityPass(r));
      var h2 := DrawPass(Gpu(h1.tables, Blend0Nop1Add, k - 1), IndirectIrradiancePass(r));
      var h3 := DrawPass(Gpu(h2.tables, Blend0Nop1Add, k), MultipleScatteringPass(r));
      h3.tables == AfterIteration(c, k)
  {
    var h1 := DrawPass(Gpu(c, DefaultBlend, k), ScatteringDensityPass(r));
    var h2 := DrawPass(Gpu(h1.tables, Blend0Nop1Add, k - 1), IndirectIrradiancePass(r));
    DensityDraw(c, k, r);
    IndirectDraw(h1.tables, k, r);
    MultipleDraw(h2.tables, k, r);
  }

  /** The reference tables follow the same one-iteration step. */
  lemma ReferenceIteration(k: nat, d: Content)
    requires k >= 2
    ensures AfterIteration(Reference(k - 1, d), k) == Reference(k, d)
  {
    ReferenceStep(k, d);
  }

  /** The draws the order loop performs from order `k` on, with the orders and write modes
      each sees. */
  function LoopInvocations(k: int, n: int, r: Resources): seq<Invocation>
    requires r.Ready()
    decreases n - k + 1
  {
    if k > n then []
    else [Invocation(ScatteringDensityPass(r), Some(k), [Overwrite]),
          Invocation(IndirectIrradiancePass(r), Some(k - 1), [Overwrite, Add]),
          Invocation(MultipleScatteringPass(r), Some(k), [Overwrite, Add])]
         + LoopInvocations(k + 1, n, r)
  }

  /** The draws of a whole generation, in order: transmittance, direct irradiance, single
      scattering, then density, indirect irradiance and multiple scattering for k = 2..n. */
  function ExpectedInvocations(n: int, r: Resources): seq<Invocation>
    requires r.Ready()
  {
    [Invocation(TransmittancePass(r), None, [Overwrite]),
     Invocation(DirectIrradiancePass(r), None, [Overwrite, Overwrite]),
     Invocation(SingleScatteringPass(r), Some(1), [Overwrite, Overwrite, Overwrite])]
    + LoopInvocations(2, n, r)
  }

  lemma {:induction false} OrderLoopEffect(g: Gpu, k: nat, n: int, d: Content, r: Resources)
    requires r.Ready() && k >= 2 && g.tables == Reference(k - 1, d)
    ensures k <= n ==> Run(g, OrderLoop(k, n, r)) == Gpu(Reference(n, d), Blend0Nop1Add, n)
    ensures k > n ==> Run(g, OrderLoop(k, n, r)) == g
    ensures Trace(g, OrderLoop(k, n, r)) == LoopInvocations(k, n, r)
    decreases n - k + 1
  {
    if k <= n {
      RunAppend(g, Iteration(k, r), OrderLoop(k + 1, n, r));
      IterationEffect(g, k, d, r);
      OrderLoopEffect(Run(g, Iteration(k, r)), k + 1, n, d, r);
    }
  }

  /** The closed form: with no blending bound on entry, a generation with `n` scattering orders
      leaves the tables of `max(n, 1)` orders, the side order at `max(n, 1)` and blending
      disabled, and performs exactly the expected draws. Nothing the tables held before
      matters, except the density table's content when `n < 2`. */
  lemma GenerateClosedForm(g: Gpu, n: int, r: Resources)
    requires r.Ready() && g.blend == DefaultBlend
    ensures Run(g, Generate(n, r)) == Gpu(Reference(Max1(n), g.tables.deltaScatteringDensity), DefaultBlend, Max1(n))
    ensures Trace(g, Generate(n, r)) == ExpectedInvocations(n, r)
  {
    var p, l, e := Prologue(r), OrderLoop(2, n, r), [SetBlend(DefaultBlend)];
    RunAppend(g, p + l, e);
    RunAppend(g, p, l);
    PrologueEffect(g, r);
    OrderLoopEffect(Run(g, p), 2, n, g.tables.deltaScatteringDensity, r);
    assert Trace(Run(g, p + l), e) == [];
  }

  // ---------------------------------------------------------------------------------------
  // Properties of the pass list.

  lemma {:induction false} LoopLength(k: int, n: int, r: Resources)
    requires r.Ready()
    ensures |LoopInvocations(k, n, r)| == if k > n then 0 else 3 * (n - k + 1)
    decreases n - k + 1
  {
    if k <= n {
      LoopLength(k + 1, n, r);
    }
  }

  /** A generation with `n` orders draws `3 * max(n, 1)` times; for `n < 2` the order loop
      draws nothing. */
  lemma PassCount(n: int, r: Resources)
    requires r.Ready()
    ensures |ExpectedInvocations(n, r)| == 3 * Max1(n)
    ensures n < 2 ==> OrderLoop(2, n, r) == []
  {
    LoopLength(2, n, r);
  }

  /** The three draws of order `k` sit at offsets 3(k-k0) .. 3(k-k0)+2 of the loop from `k0`. */
  lemma {:induction false} LoopAt(k0: int, n: int, k: int, r: Resources)
    requires r.Ready() && k0 <= k <= n
    ensures |LoopInvocations(k0, n, r)| >= 3 * (k - k0) + 3
    ensures LoopInvocations(k0, n, r)[3 * (k - k0)] == Invocation(ScatteringDensityPass(r), Some(k), [Overwrite])
    ensures LoopInvocations(k0, n, r)[3 * (k - k0) + 1] == Invocation(IndirectIrradiancePass(r), Some(k - 1), [Overwrite, Add])
    ensures LoopInvocations(k0, n, r)[3 * (k - k0) + 2] == Invocation(MultipleScatteringPass(r), Some(k), [Overwrite, Add])
    decreases k - k0
  {
    if k0 < k {
      LoopAt(k0 + 1, n, k, r);
    }
  }

  /** The fixed order: transmittance, direct irradiance and single scattering (order 1), then
      for every k in 2..n the density pass at order k, indirect irradiance at order k-1 and
      multiple scattering at order k; the latter two accumulate into their second target. */
  lemma PassOrder(n: int, k: int, r: Resources)
    requires r.Ready() && 2 <= k <= n
    ensures |ExpectedInvocations(n, r)| >= 3 * k
    ensures ExpectedInvocations(n, r)[3 * k - 3] == Invocation(ScatteringDensityPass(r), Some(k), [Overwrite])
    ensures ExpectedInvocations(n, r)[3 * k - 2] == Invocation(IndirectIrradiancePass(r), Some(k - 1), [Overwrite, Add])
    ensures ExpectedInvocations(n, r)[3 * k - 1] == Invocation(MultipleScatteringPass(r), Some(k), [Overwrite, Add])
  {
    LoopAt(2, n, k, r);
  }

  predicate LoopPass(p: Pass, r: Resources)
    requires r.Ready()
  {
    p == ScatteringDensityPass(r) || p == IndirectIrradiancePass(r) || p == MultipleScatteringPass(r)
  }

  lemma {:induction false} LoopPasses(k: int, n: int, r: Resources)
    requires r.Ready()
    ensures forall i :: 0 <= i < |LoopInvocations(k, n, r)| ==> LoopPass(LoopInvocations(k, n, r)[i].pass, r)
    decreases n - k + 1
  {
    if k <= n {
      LoopPasses(k + 1, n, r);
    }
  }

  /** In the loop, every multiple-scattering draw comes two draws after a density draw. */
  lemma {:induction false} DensityPrecedesMultiple(k: int, n: int, r: Resources)
    requires r.Ready()
    ensures forall m :: 0 <= m < |LoopInvocations(k, n, r)| && LoopInvocations(k, n, r)[m].pass == MultipleScatteringPass(r) ==>
              m >= 2 && LoopInvocations(k, n, r)[m - 2].pass == ScatteringDensityPass(r)
    decreases n - k + 1
  {
    if k <= n {
      DensityPrecedesMultiple(k + 1, n, r);
      var l, l' := LoopInvocations(k, n, r), LoopInvocations(k + 1, n, r);
      forall m | 0 <= m < |l| && l[m].pass == MultipleScatteringPass(r)
        ensures m >= 2 && l[m - 2].pass == ScatteringDensityPass(r)
      {
        if m >= 3 {
          assert l[m] == l'[m - 3];
          if m >= 5 {
            assert l[m - 2] == l'[m - 5];
          }
        }
      }
    }
  }

  /** No draw binds a table both as render target and as shader input, and no draw binds a
      table twice as render target. */
  predicate NoFeedback(p: Pass)
  {
    Distinct(p.targets)
    && forall i, j :: 0 <= i < |p.inputs| && 0 <= j < |p.targets| ==> p.inputs[i] != p.targets[j]
  }

  lemma BindingDiscipline(n: int, r: Resources)
    requires r.Ready()
    ensures forall i :: 0 <= i < |ExpectedInvocations(n, r)| ==> NoFeedback(ExpectedInvocations(n, r)[i].pass)
  {
    LoopPasses(2, n, r);
    var e := ExpectedInvocations(n, r);
    forall i | 0 <= i < |e|
      ensures NoFeedback(e[i].pass)
    {
      if i >= 3 {
        assert e[i] == LoopInvocations(2, n, r)[i - 3];
      }
    }
  }

  /** Every table a draw samples was written by an earlier draw of the same generation. */
  predicate ReadsFollowWrites(tr: seq<Invocation>)
  {
    forall i, t :: 0 <= i < |tr| && t in tr[i].pass.inputs ==>
      exists j :: 0 <= j < i && t in tr[j].pass.targets
  }

  lemma ReadAfterWrite(n: int, r: Resources)
    requires r.Ready()
    ensures ReadsFollowWrites(ExpectedInvocations(n, r))
  {
    var e, l := ExpectedInvocations(n, r), LoopInvocations(2, n, r);
    LoopPasses(2, n, r);
    DensityPrecedesMultiple(2, n, r);
    forall i, t | 0 <= i < |e| && t in e[i].pass.inputs
      ensures exists j :: 0 <= j < i && t in e[j].pass.targets
    {
      assert Transmittance in e[0].pass.targets;
      assert DeltaIrradiance in e[1].pass.targets;
      assert DeltaRayleigh in e[2].pass.targets && DeltaMie in e[2].pass.targets;
      if i >= 3 {
        assert e[i] == l[i - 3];
        if t == DeltaScatteringDensity {
          assert l[i - 3].pass == MultipleScatteringPass(r);
          assert e[i - 2] == l[i - 5];
          assert t in e[i - 2].pass.targets;
        }
      }
    }
  }

  /** Transmittance is written only by the first draw and delta Mie only by the third (single
      scattering); later draws only sample them. */
  lemma SingleWriters(n: int, r: Resources)
    requires r.Ready()
    ensures forall i :: 0 <= i < |ExpectedInvocations(n, r)| ==>
      (Transmittance in ExpectedInvocations(n, r)[i].pass.targets <==> i == 0)
    ensures forall i :: 0 <= i < |ExpectedInvocations(n, r)| ==>
      (DeltaMie in ExpectedInvocations(n, r)[i].pass.targets <==> i == 2)
  {
    LoopPasses(2, n, r);
    var e := ExpectedInvocations(n, r);
    forall i | 0 <= i < |e|
      ensures (Transmittance in e[i].pass.targets <==> i == 0) && (DeltaMie in e[i].pass.targets <==> i == 2)
    {
      if i >= 3 {
        assert e[i] == LoopInvocations(2, n, r)[i - 3];
      }
    }
  }

  datatype Extent = Extent(width: nat, height: nat, depth: nat)

  /** The extent of each table as allocated. */
  function TableExtent(r: Resources, t: Table): Extent
    requires r.Ready()
  {
    match t
    case Transmittance => Extent(r.luts.transmittance.target.width, r.luts.transmittance.target.height, 1)
    case Irradiance => Extent(r.luts.irradiance.target.width, r.luts.irradiance.target.height, 1)
    case Scattering =>
      Extent(r.luts.scattering.target.width, r.luts.scattering.target.height, r.luts.scattering.target.depth)
    case DeltaIrradiance =>
      Extent(r.temps.deltaIrradiance.target.width, r.temps.deltaIrradiance.target.height, 1)
    case DeltaRayleigh => Extent(r.temps.deltaRayleighScattering.target.width,
      r.temps.deltaRayleighScattering.target.height, r.temps.deltaRayleighScattering.target.depth)
    case DeltaMie => Extent(r.temps.deltaMieScattering.target.width,
      r.temps.deltaMieScattering.target.height, r.temps.deltaMieScattering.target.depth)
    case DeltaScatteringDensity => Extent(r.temps.deltaScatteringDensity.target.width,
      r.temps.deltaScatteringDensity.target.height, r.temps.deltaScatteringDensity.target.depth)
  }

  /** The tables as `Allocate` creates them from `info`. */
  function Allocated(info: LookUpTablesInfo): (r: Resources)
    ensures r.Ready()
  {
    Resources(info, AllocateLuts(info), AllocateTemps(info))
  }

  /** A pass draws into targets of one common extent, a layered pass instances once per depth
      slice of its targets, and a full-screen pass draws into 2-D tables. */
  predicate ShapeFits(r: Resources, p: Pass)
    requires r.Ready()
  {
    |p.targets| >= 1
    && (forall i :: 0 <= i < |p.targets| ==> TableExtent(r, p.targets[i]) == TableExtent(r, p.targets[0]))
    && match p.shape
       case Layered(m) => m == TableExtent(r, p.targets[0]).depth
       case FullScreen => TableExtent(r, p.targets[0]).depth == 1
  }

  predicate ViewportMatches(r: Resources, p: Pass)
    requires r.Ready() && |p.targets| >= 1
  {
    p.viewport.width == TableExtent(r, p.targets[0]).width
    && p.viewport.height == TableExtent(r, p.targets[0]).height
  }

  /** With the tables allocated from `info`, every draw fits its targets: layered draws
      instance `scatteringDepth` times, and every viewport matches its targets except the
      indirect-irradiance one, whose height is the irradiance width. That viewport matches
      exactly when the irradiance table is square and covers it exactly when it is at least as
      wide as high. */
  lemma ExtentsFit(n: int, info: LookUpTablesInfo)
    ensures var r := Allocated(info);
      forall i :: 0 <= i < |ExpectedInvocations(n, r)| ==>
        var p := ExpectedInvocations(n, r)[i].pass;
        && ShapeFits(r, p)
        && (p.shape.Layered? ==> p.shape.instances == info.scatteringDepth)
        && (p != IndirectIrradiancePass(r) ==> ViewportMatches(r, p))
    ensures var r := Allocated(info); var p := IndirectIrradiancePass(r);
      && p.viewport.width == TableExtent(r, Irradiance).width
      && (ViewportMatches(r, p) <==> info.irradianceWidth == info.irradianceHeight)
      && (p.viewport.height >= TableExtent(r, Irradiance).height <==> info.irradianceWidth >= info.irradianceHeight)
  {
    var r := Allocated(info);
    LoopPasses(2, n, r);
    var e := ExpectedInvocations(n, r);
    forall i | 0 <= i < |e|
      ensures ShapeFits(r, e[i].pass)
      ensures e[i].pass.shape.Layered? ==> e[i].pass.shape.instances == info.scatteringDepth
      ensures e[i].pass != IndirectIrradiancePass(r) ==> ViewportMatches(r, e[i].pass)
    {
      if i >= 3 {
        assert e[i] == LoopInvocations(2, n, r)[i - 3];
      }
    }
  }

  /** The blend state each draw of the order loop binds from order `k` on: the density pass
      the default state, the two accumulating passes the nop/add state. */
  function LoopBlends(k: int, n: int): seq<Option<BlendState>>
    decreases n - k + 1
  {
    if k > n then []
    else [Some(DefaultBlend), Some(Blend0Nop1Add), Some(Blend0Nop1Add)] + LoopBlends(k + 1, n)
  }

  /** The blend state each draw of a generation runs with, in draw order: None for the three
      prologue draws, which bind nothing and draw with whatever state the generation was
      entered with, then the state each loop draw binds. */
  function GenerationBlends(n: int): seq<Option<BlendState>>
  {
    [None, None, None] + LoopBlends(2, n)
  }

  lemma {:induction false} LoopBlendsMatch(k: int, n: int, r: Resources)
    requires r.Ready()
    ensures |LoopBlends(k, n)| == |LoopInvocations(k, n, r)|
    ensures forall i :: 0 <= i < |LoopBlends(k, n)| ==>
      LoopInvocations(k, n, r)[i].modes
        == Modes(LoopBlends(k, n)[i].GetOr(DefaultBlend), |LoopInvocations(k, n, r)[i].pass.targets|)
    decreases n - k + 1
  {
    if k <= n {
      LoopBlendsMatch(k + 1, n, r);
      SmallModes();
    }
  }

  /** The blend schedule agrees with the draws: entered with blending disabled, the i-th draw
      of a generation writes its targets with the modes of the i-th scheduled state, so the
      prologue overwrites every target and each loop draw after the density pass overwrites
      its first target and accumulates into its second. */
  lemma GenerationBlendsMatch(g: Gpu, n: int, r: Resources)
    requires r.Ready() && g.blend == DefaultBlend
    ensures |GenerationBlends(n)| == |Trace(g, Generate(n, r))|
    ensures forall i :: 0 <= i < |GenerationBlends(n)| ==>
      Trace(g, Generate(n, r))[i].modes
        == Modes(GenerationBlends(n)[i].GetOr(g.blend), |Trace(g, Generate(n, r))[i].pass.targets|)
  {
    GenerateClosedForm(g, n, r);
    LoopBlendsMatch(2, n, r);
    SmallModes();
    var e := ExpectedInvocations(n, r);
    forall i | 0 <= i < |GenerationBlends(n)|
      ensures e[i].modes == Modes(GenerationBlends(n)[i].GetOr(DefaultBlend), |e[i].pass.targets|)
    {
      if i >= 3 {
        assert e[i] == LoopInvocations(2, n, r)[i - 3];
        assert GenerationBlends(n)[i] == LoopBlends(2, n)[i - 3];
      }
    }
  }

  /** Summary of the discipline of one generation, stated on the draws actually performed
      from a state with blending disabled. */
  lemma GenerationDiscipline(g: Gpu, n: int, r: Resources)
    requires r.Ready() && g.blend == DefaultBlend
    ensures |Trace(g, Generate(n, r))| == 3 * Max1(n)
    ensures ReadsFollowWrites(Trace(g, Generate(n, r)))
    ensures forall i :: 0 <= i < |Trace(g, Generate(n, r))| ==> NoFeedback(Trace(g, Generate(n, r))[i].pass)
    ensures Run(g, Generate(n, r)).blend == DefaultBlend
  {
    GenerateClosedForm(g, n, r);
    PassCount(n, r);
    ReadAfterWrite(n, r);
    BindingDiscipline(n, r);
  }
}

=== FILE: lut_tables.dfy ===
/** `LookUpTables` (the durable transmittance, irradiance and scattering tables) and
    `TempLookUpTables` (the delta tables of one regeneration): allocation extents and release. */
module LutTables {
  import opened DeviceHelpers
  import opened LutConfig

  /** The table format under the high-quality configuration the renderer is built with. */
  const LUT_FORMAT: Format := R32G32B32A32Float

  datatype LookUpTables = LookUpTables(
    transmittance: Ptr<Texture2DDesc>,
    scattering: Ptr<Texture3DDesc>,
    irradiance: Ptr<Texture2DDesc>)
  {
    predicate Allocated()
    {
      transmittance.Points? && scattering.Points? && irradiance.Points?
    }
  }

  datatype TempLookUpTables = TempLookUpTables(
    deltaIrradiance: Ptr<Texture2DDesc>,
    deltaMieScattering: Ptr<Texture3DDesc>,
    deltaRayleighScattering: Ptr<Texture3DDesc>,
    deltaScatteringDensity: Ptr<Texture3DDesc>)
  {
    predicate Allocated()
    {
      deltaIrradiance.Points? && deltaMieScattering.Points?
        && deltaRayleighScattering.Points? && deltaScatteringDensity.Points?
    }
  }

  /** A 2-D table both writable as a render target and readable by shaders. */
  predicate Bindable2D(d: Texture2DDesc)
  {
    HasBind(d.bindFlags, BIND_RENDER_TARGET) && HasBind(d.bindFlags, BIND_SHADER_RESOURCE)
  }

  predicate Bindable3D(d: Texture3DDesc)
  {
    HasBind(d.bindFlags, BIND_RENDER_TARGET) && HasBind(d.bindFlags, BIND_SHADER_RESOURCE)
  }

  /** `LookUpTables::Allocate`: transmittance and irradiance at their configured extents,
      scattering at the derived width x height x depth, all render-target and shader readable. */
  function AllocateLuts(info: LookUpTablesInfo): (t: LookUpTables)
    ensures t.Allocated()
    ensures t.transmittance.target.width == info.transmittanceWidth
    ensures t.transmittance.target.height == info.transmittanceHeight
    ensures t.irradiance.target.width == info.irradianceWidth
    ensures t.irradiance.target.height == info.irradianceHeight
    ensures t.scattering.target.width == info.scatteringWidth
    ensures t.scattering.target.height == info.scatteringHeight
    ensures t.scattering.target.depth == info.scatteringDepth
    ensures Bindable2D(t.transmittance.target) && Bindable2D(t.irradiance.target)
    ensures Bindable3D(t.scattering.target)
    ensures t.transmittance.target.format == LUT_FORMAT && t.scattering.target.format == LUT_FORMAT
    ensures t.irradiance.target.format == LUT_FORMAT
  {
    LookUpTables(
      Points(InitDefault2D(LUT_FORMAT, info.transmittanceWidth, info.transmittanceHeight, true, true)),
      Points(InitDefault3D(LUT_FORMAT, info.scatteringWidth, info.scatteringHeight, info.scatteringDepth, true, true)),
      Points(InitDefault2D(LUT_FORMAT, info.irradianceWidth, info.irradianceHeight, true, true)))
  }

  /** `TempLookUpTables::Allocate`: delta irradiance at the irradiance extents and the three
      delta 3-D tables at the scattering extents (one descriptor shared by all three). */
  function AllocateTemps(info: LookUpTablesInfo): (t: TempLookUpTables)
    ensures t.Allocated()
    ensures t.deltaIrradiance.target.width == info.irradianceWidth
    ensures t.deltaIrradiance.target.height == info.irradianceHeight
    ensures t.deltaMieScattering.target == t.deltaRayleighScattering.target == t.deltaScatteringDensity.target
    ensures t.deltaRayleighScattering.target.width == info.scatteringWidth
    ensures t.deltaRayleighScattering.target.height == info.scatteringHeight
    ensures t.deltaRayleighScattering.target.depth == info.scatteringDepth
    ensures Bindable2D(t.deltaIrradiance.target) && Bindable3D(t.deltaRayleighScattering.target)
  {
    var d3 := InitDefault3D(LUT_FORMAT, info.scatteringWidth, info.scatteringHeight, info.scatteringDepth, true, true);
    TempLookUpTables(
      Points(InitDefault2D(LUT_FORMAT, info.irradianceWidth, info.irradianceHeight, true, true)),
      Points(d3), Points(d3), Points(d3))
  }

  /** Tables that one draw binds together as render targets share their extents: delta
      irradiance with irradiance, and every delta 3-D table with scattering. */
  lemma SimultaneousTargetsShareExtents(info: LookUpTablesInfo)
    ensures var l, t := AllocateLuts(info), AllocateTemps(info);
      && t.deltaIrradiance.target.width == l.irradiance.target.width
      && t.deltaIrradiance.target.height == l.irradiance.target.height
      && t.deltaRayleighScattering.target.width == l.scattering.target.width
      && t.deltaRayleighScattering.target.height == l.scattering.target.height
      && t.deltaRayleighScattering.target.depth == l.scattering.target.depth
      && t.deltaMieScattering.target.depth == l.scattering.target.depth
      && t.deltaScatteringDensity.target.depth == l.scattering.target.depth
  {
  }

  function Owned<T>(p: Ptr<T>): nat
  {
    if p.Points? then 1 else 0
  }

  /** `LookUpTables::Release`: every pointer reset; the count says how many tables were
      deleted. */
  function ReleaseLuts(t: LookUpTables): (r: (LookUpTables, nat))
    ensures r.0 == LookUpTables(Null, Null, Null)
    ensures r.1 == Owned(t.transmittance) + Owned(t.irradiance) + Owned(t.scattering)
    ensures t.Allocated() ==> r.1 == 3
  {
    var (tr, d0) := ResetPtr(t.transmittance);
    var (ir, d1) := ResetPtr(t.irradiance);
    var (sc, d2) := ResetPtr(t.scattering);
    (LookUpTables(tr, sc, ir),
     (if d0.Disposed? then 1 else 0) + (if d1.Disposed? then 1 else 0) + (if d2.Disposed? then 1 else 0))
  }

  /** `TempLookUpTables::Release`. */
  function ReleaseTemps(t: TempLookUpTables): (r: (TempLookUpTables, nat))
    ensures r.0 == TempLookUpTables(Null, Null, Null, Null)
    ensures r.1 == Owned(t.deltaIrradiance) + Owned(t.deltaMieScattering)
                   + Owned(t.deltaRayleighScattering) + Owned(t.deltaScatteringDensity)
  {
    var (a, d0) := ResetPtr(t.deltaIrradiance);
    var (b, d1) := ResetPtr(t.deltaMieScattering);
    var (c, d2) := ResetPtr(t.deltaRayleighScattering);
    var (d, d3) := ResetPtr(t.deltaScatteringDensity);
    (TempLookUpTables(a, b, c, d),
     (if d0.Disposed? then 1 else 0) + (if d1.Disposed? then 1 else 0)
       + (if d2.Disposed? then 1 else 0) + (if d3.Disposed? then 1 else 0))
  }

  /** A second release deletes nothing and leaves every pointer null. */
  lemma ReleaseTwiceIsNoOp(l: LookUpTables, t: TempLookUpTables)
    ensures ReleaseLuts(ReleaseLuts(l).0) == (ReleaseLuts(l).0, 0)
    ensures ReleaseTemps(ReleaseTemps(t).0) == (ReleaseTemps(t).0, 0)
  {
  }
}

=== FILE: regeneration.dfy ===
/** The per-frame change detection of `render` and the decision to regenerate the look-up
    tables: a state machine over the live and saved atmosphere, the switches, the
    `forceGenLut` latch, the frame counter and the tables themselves. */
module Regeneration {
  import opened Wrappers
  import opened Atmosphere
  import opened BlendStates
  import opened Settings
  import opened LutConfig
  import opened LutPipeline
  import opened SkyRender

  /** What the tables were last generated from: the atmosphere the kernels read from the
      constant buffer, and the number of scattering orders. */
  datatype LutInputs = LutInputs(atmosphere: AtmosphereInfo, numScatteringOrder: int)

  /** The part of the game object the change detection reads and writes; `methodSwitch` is
      the flag the T key alternates on. */
  datatype GameState = GameState(
    live: AtmosphereInfo,
    saved: AtmosphereInfo,
    toggles: Toggles,
    methodSwitch: bool,
    forceGenLut: bool,
    frameId: int,
    luts: TableContents,
    lutInputs: Option<LutInputs>)

  /** What the user changed in one frame: the switches after the settings panel, and the
      atmosphere converted from the panel's values (ground albedo included). */
  datatype FrameInput = FrameInput(toggles: Toggles, live: AtmosphereInfo)

  const UINT32_MODULUS: int := 0x1_0000_0000

  /** The constructed game: the saved snapshot zeroed, the live atmosphere the Earth preset,
      the initial switches, the T-key flag set, the latch clear, the tables allocated but
      never written. */
  function NewGame(initialLuts: TableContents): (g: GameState)
    ensures g.live != g.saved
    ensures !g.forceGenLut && g.toggles.numScatteringOrder == DEFAULT_NUM_SCATTERING_ORDER
    ensures g.methodSwitch
  {
    GameState(SetupEarthAtmosphere(), Zeroed(), DefaultToggles(), true, false, 0, initialLuts, None)
  }

  /** The T key, handled by `update` before `render`: it selects the path tracer without the
      multiple-scattering approximation when the flag is set, and the ray marcher with the
      full approximation otherwise; then it flips the flag and restarts the frame count.
      Nothing else changes. */
  function SwitchMethodKey(s: GameState): (r: GameState)
    ensures s.methodSwitch ==> r.toggles.renderMethod == PathTracing && r.toggles.multiScatteringFactor == 0.0
    ensures !s.methodSwitch ==> r.toggles.renderMethod == Raymarching && r.toggles.multiScatteringFactor == 1.0
    ensures r.methodSwitch == !s.methodSwitch && r.frameId == 0
    ensures r.toggles.(renderMethod := s.toggles.renderMethod, multiScatteringFactor := s.toggles.multiScatteringFactor) == s.toggles
    ensures r.(toggles := s.toggles, methodSwitch := s.methodSwitch, frameId := s.frameId) == s
  {
    var t := if s.methodSwitch then s.toggles.(renderMethod := PathTracing, multiScatteringFactor := 0.0)
             else s.toggles.(renderMethod := Raymarching, multiScatteringFactor := 1.0);
    s.(toggles := t, methodSwitch := !s.methodSwitch, frameId := 0)
  }

  /** The comparison of `render`, made in the state `s` as `render` is entered (so after
      `update` has handled the keys): the live atmosphere against the saved snapshot, and the
      method, order count, ground albedo, transmittance permutation, shadow switch,
      multiple-scattering factor and terrain switch against their values at entry, that is
      against what the panel changed. The fast-sky, aerial-perspective and
      coloured-transmittance switches are not compared. */
  predicate ChangeDetected(s: GameState, i: FrameInput)
  {
    i.live != s.saved
    || i.toggles.renderMethod != s.toggles.renderMethod
    || i.toggles.numScatteringOrder != s.toggles.numScatteringOrder
    || i.live.groundAlbedo != s.live.groundAlbedo
    || i.toggles.transPermutation != s.toggles.transPermutation
    || i.toggles.shadow != s.toggles.shadow
    || i.toggles.multiScatteringFactor != s.toggles.multiScatteringFactor
    || i.toggles.renderTerrain != s.toggles.renderTerrain
  }

  /** The game's look-up-table resources. */
  function GameResources(): (r: Resources)
    ensures r.Ready()
  {
    Allocated(NewLookUpTablesInfo())
  }

  /** `generateSkyAtmosphereLUTs` on the game's tables, entered with blending disabled. */
  function GenerateLuts(luts: TableContents, n: int): (r: TableContents)
    ensures r == Reference(Max1(n), luts.deltaScatteringDensity)
  {
    GenerateClosedForm(Gpu(luts, DefaultBlend, 0), n, GameResources());
    Run(Gpu(luts, DefaultBlend, 0), Generate(n, GameResources())).tables
  }

  /** The outcome of a frame: the new state, the change flag the sky section saw, and the
      sky passes it ran. */
  datatype FrameResult = FrameResult(state: GameState, changed: bool, passes: seq<SkyPass>)

  /** One frame of `render` from the state at its entry, change detection and sky section.
      A detected change sets the
      latch, commits the snapshot and restarts the frame count, whatever the method; only the
      Bruneton branch regenerates, and only there is the latch cleared. The counter is a
      32-bit unsigned integer incremented at the end of the frame. */
  function RenderFrame(s: GameState, i: FrameInput): (r: FrameResult)
    ensures r.changed <==> s.forceGenLut || ChangeDetected(s, i)
    ensures r.state.forceGenLut <==> r.changed && i.toggles.renderMethod != Bruneton2017
  {
    var detected := ChangeDetected(s, i);
    var force := s.forceGenLut || detected;
    var changed := force;
    var saved := if detected then i.live else s.saved;
    var frame := if detected then 0 else s.frameId;
    var regenerate := i.toggles.renderMethod == Bruneton2017 && changed;
    var luts := if regenerate then GenerateLuts(s.luts, i.toggles.numScatteringOrder) else s.luts;
    var inputs := if regenerate then Some(LutInputs(i.live, i.toggles.numScatteringOrder)) else s.lutInputs;
    FrameResult(
      GameState(i.live, saved, i.toggles, s.methodSwitch, force && !regenerate, (frame + 1) % UINT32_MODULUS, luts, inputs),
      changed,
      SkyPasses(i.toggles, i.live.groundAlbedo, changed))
  }

  /** A frame adopts the panel's atmosphere and switches; a detected change commits the
      snapshot and restarts the frame count, and otherwise the snapshot is kept. */
  lemma FrameCommitsSnapshot(s: GameState, i: FrameInput)
    ensures RenderFrame(s, i).state.live == i.live && RenderFrame(s, i).state.toggles == i.toggles
    ensures ChangeDetected(s, i) ==> RenderFrame(s, i).state.saved == i.live && RenderFrame(s, i).state.frameId == 1
    ensures !ChangeDetected(s, i) ==> RenderFrame(s, i).state.saved == s.saved
    ensures !ChangeDetected(s, i) ==> RenderFrame(s, i).state.frameId == (s.frameId + 1) % UINT32_MODULUS
  {
  }

  /** A changed frame under the Bruneton method regenerates the tables, which then hold the
      reference precomputation for the frame's number of orders; any other frame leaves the
      tables alone. */
  lemma FrameRegenerates(s: GameState, i: FrameInput)
    ensures i.toggles.renderMethod == Bruneton2017 && RenderFrame(s, i).changed ==>
      RenderFrame(s, i).state.luts == Reference(Max1(i.toggles.numScatteringOrder), s.luts.deltaScatteringDensity)
      && RenderFrame(s, i).state.lutInputs == Some(LutInputs(i.live, i.toggles.numScatteringOrder))
    ensures !(i.toggles.renderMethod == Bruneton2017 && RenderFrame(s, i).changed) ==>
      RenderFrame(s, i).state.luts == s.luts && RenderFrame(s, i).state.lutInputs == s.lutInputs
  {
  }

  /** The states after each of a sequence of frames. */
  function RunFrames(s: GameState, ins: seq<FrameInput>): GameState
    decreases |ins|
  {
    if |ins| == 0 then s else RunFrames(RenderFrame(s, ins[0]).state, ins[1..])
  }

  /** The constructor leaves the snapshot zeroed, so the first frame detects a change unless
      the live atmosphere is all zero. */
  lemma FirstFrameDetectsChange(initialLuts: TableContents, i: FrameInput)
    requires i.live != Zeroed()
    ensures RenderFrame(NewGame(initialLuts), i).changed
  {
  }

  /** After a frame, presenting the same atmosphere and switches again detects nothing: the
      commit made the snapshot equal to the live atmosphere. The next frame is flagged changed
      only through the latch. */
  lemma SteadyFrameDetectsNothing(s: GameState, i: FrameInput)
    ensures !ChangeDetected(RenderFrame(s, i).state, i)
    ensures RenderFrame(RenderFrame(s, i).state, i).changed <==> RenderFrame(s, i).state.forceGenLut
  {
  }

  /** A method switch made with the T key is not seen as a change: `update` edits the
      switches before `render` records their entry values, so a frame that presents the
      switched values and leaves the atmosphere alone is flagged changed only through the
      latch. The same switch made on the panel is detected whenever it changes the method or
      the factor. */
  lemma SwitchMethodKeyUndetected(s: GameState, i: FrameInput)
    requires i.toggles == SwitchMethodKey(s).toggles
    requires i.live == s.saved && i.live.groundAlbedo == s.live.groundAlbedo
    ensures !ChangeDetected(SwitchMethodKey(s), i)
    ensures RenderFrame(SwitchMethodKey(s), i).changed <==> s.forceGenLut
    ensures ChangeDetected(s, i) <==>
      i.toggles.renderMethod != s.toggles.renderMethod
      || i.toggles.multiScatteringFactor != s.toggles.multiScatteringFactor
  {
  }

  /** The T key alternates: from the constructed game the first press selects the path
      tracer, the second the ray marcher, and two presses restore the flag. */
  lemma SwitchMethodKeyAlternates(s: GameState, initialLuts: TableContents)
    ensures SwitchMethodKey(NewGame(initialLuts)).toggles.renderMethod == PathTracing
    ensures SwitchMethodKey(SwitchMethodKey(NewGame(initialLuts))).toggles.renderMethod == Raymarching
    ensures SwitchMethodKey(SwitchMethodKey(s)).methodSwitch == s.methodSwitch
    ensures SwitchMethodKey(SwitchMethodKey(s)).toggles.renderMethod != SwitchMethodKey(s).toggles.renderMethod
  {
  }

  /** Under any method but Bruneton's the latch, once set, stays set. */
  lemma {:induction false} LatchHoldsWithoutBruneton(s: GameState, ins: seq<FrameInput>)
    requires s.forceGenLut
    requires forall j :: 0 <= j < |ins| ==> ins[j].toggles.renderMethod != Bruneton2017
    ensures RunFrames(s, ins).forceGenLut
    decreases |ins|
  {
    if |ins| > 0 {
      assert forall j :: 0 <= j < |ins[1..]| ==> ins[1..][j] == ins[j + 1];
      LatchHoldsWithoutBruneton(RenderFrame(s, ins[0]).state, ins[1..]);
    }
  }

  /** A change seen under another method is therefore acted on at the first later frame that
      uses the Bruneton method: the precomputation runs there and the latch clears. */
  lemma SwitchToBrunetonRegenerates(s: GameState, ins: seq<FrameInput>, i: FrameInput)
    requires s.forceGenLut
    requires forall j :: 0 <= j < |ins| ==> ins[j].toggles.renderMethod != Bruneton2017
    requires i.toggles.renderMethod == Bruneton2017
    ensures RenderFrame(RunFrames(s, ins), i).changed
    ensures LutGenerationPass(i.toggles.numScatteringOrder) in RenderFrame(RunFrames(s, ins), i).passes
    ensures !RenderFrame(RunFrames(s, ins), i).state.forceGenLut
  {
    LatchHoldsWithoutBruneton(s, ins);
    GenerationScheduled(i.toggles, i.live.groundAlbedo, true);
  }

  /** The freshness invariant: either a regeneration is pending, or the tables were
      generated from the saved snapshot and the current number of orders. */
  predicate Fresh(s: GameState)
  {
    s.forceGenLut || s.lutInputs == Some(LutInputs(s.saved, s.toggles.numScatteringOrder))
  }

  /** Every frame preserves freshness. */
  lemma RenderFramePreservesFresh(s: GameState, i: FrameInput)
    requires Fresh(s)
    ensures Fresh(RenderFrame(s, i).state)
  {
  }

  /** The first frame establishes freshness whenever it detects the zeroed snapshot. */
  lemma FirstFrameFresh(initialLuts: TableContents, i: FrameInput)
    requires i.live != Zeroed()
    ensures Fresh(RenderFrame(NewGame(initialLuts), i).state)
  {
  }

  /** From a fresh state, a frame drawn with the Bruneton method uses tables generated from
      exactly the atmosphere and number of orders of that frame. */
  lemma BrunetonFrameUsesCurrentTables(s: GameState, i: FrameInput)
    requires Fresh(s)
    requires i.toggles.renderMethod == Bruneton2017
    ensures RenderFrame(s, i).state.lutInputs == Some(LutInputs(i.live, i.toggles.numScatteringOrder))
    ensures !RenderFrame(s, i).state.forceGenLut
  {
  }

  /** Over any run of frames from a fresh state, freshness holds after every frame. */
  lemma {:induction false} RunFramesPreservesFresh(s: GameState, ins: seq<FrameInput>)
    requires Fresh(s)
    ensures Fresh(RunFrames(s, ins))
    decreases |ins|
  {
    if |ins| > 0 {
      RenderFramePreservesFresh(s, ins[0]);
      RunFramesPreservesFresh(RenderFrame(s, ins[0]).state, ins[1..]);
    }
  }

  /** The T key touches neither the snapshot, the latch, the order count nor the tables, so
      it preserves freshness. */
  lemma SwitchMethodKeyPreservesFresh(s: GameState)
    requires Fresh(s)
    ensures Fresh(SwitchMethodKey(s))
  {
  }

  /** What happens between two states of the game: a frame, or a T-key press handled by
      `update` before the next frame. */
  datatype Event = Frame(input: FrameInput) | MethodKey

  function Step(s: GameState, e: Event): GameState
  {
    match e
    case Frame(i) => RenderFrame(s, i).state
    case MethodKey => SwitchMethodKey(s)
  }

  /** The states after each of a sequence of frames and key presses. */
  function RunEvents(s: GameState, es: seq<Event>): GameState
    decreases |es|
  {
    if |es| == 0 then s else RunEvents(Step(s, es[0]), es[1..])
  }

  /** Over any run of frames and key presses from a fresh state, freshness holds after every
      step. */
  lemma {:induction false} RunEventsPreservesFresh(s: GameState, es: seq<Event>)
    requires Fresh(s)
    ensures Fresh(RunEvents(s, es))
    decreases |es|
  {
    if |es| > 0 {
      match es[0] {
        case Frame(i) => RenderFramePreservesFresh(s, i);
        case MethodKey => SwitchMethodKeyPreservesFresh(s);
      }
      RunEventsPreservesFresh(Step(s, es[0]), es[1..]);
    }
  }

  /** The end-to-end statement: from the constructed game, after a first frame whose
      atmosphere is not all zero and any further frames, every Bruneton frame renders with
      tables generated from its own atmosphere and number of orders. */
  lemma BrunetonTablesNeverStale(initialLuts: TableContents, first: FrameInput, ins: seq<FrameInput>, i: FrameInput)
    requires first.live != Zeroed()
    requires i.toggles.renderMethod == Bruneton2017
    ensures RenderFrame(RunFrames(RenderFrame(NewGame(initialLuts), first).state, ins), i).state.lutInputs
      == Some(LutInputs(i.live, i.toggles.numScatteringOrder))
  {
    FirstFrameFresh(initialLuts, first);
    RunFramesPreservesFresh(RenderFrame(NewGame(initialLuts), first).state, ins);
    BrunetonFrameUsesCurrentTables(RunFrames(RenderFrame(NewGame(initialLuts), first).state, ins), i);
  }

  /** The same with T-key presses anywhere in the run: every Bruneton frame still renders
      with tables generated from its own atmosphere and number of orders. */
  lemma BrunetonTablesNeverStaleWithKeys(initialLuts: TableContents, first: FrameInput, es: seq<Event>, i: FrameInput)
    requires first.live != Zeroed()
    requires i.toggles.renderMethod == Bruneton2017
    ensures RenderFrame(RunEvents(RenderFrame(NewGame(initialLuts), first).state, es), i).state.lutInputs
      == Some(LutInputs(i.live, i.toggles.numScatteringOrder))
  {
    FirstFrameFresh(initialLuts, first);
    RunEventsPreservesFresh(RenderFrame(NewGame(initialLuts), first).state, es);
    BrunetonFrameUsesCurrentTables(RunEvents(RenderFrame(NewGame(initialLuts), first).state, es), i);
  }
}

=== FILE: settings.dfy ===
/** The renderer's user-facing switches: the permutation axes of the sky shaders, the
    rendering method, and the defaults the game starts from. */
module Settings {

  // Cardinalities of the permutation axes; each axis value is an index into the
  // corresponding dimension of a shader-variant array.
  const TRANSMITTANCE_METHOD_COUNT: int := 3     // delta tracking, ratio tracking, look-up table
  const GROUND_GI_COUNT: int := 2
  const SHADOWMAP_COUNT: int := 2
  const MULTI_SCAT_APPROX_COUNT: int := 2
  const COLORED_TRANSMITTANCE_COUNT: int := 2
  const FAST_SKY_COUNT: int := 2
  const FAST_AERIAL_PERSPECTIVE_COUNT: int := 2

  const TRANSMITTANCE_METHOD_DELTA_TRACKING: int := 0
  const TRANSMITTANCE_METHOD_RATIO_TRACKING: int := 1
  const TRANSMITTANCE_METHOD_LUT: int := 2

  /** The three rendering methods, in the order of their numeric values 0, 1, 2. */
  datatype Method = Bruneton2017 | PathTracing | Raymarching

  const METHOD_COUNT: int := 3

  /** The switches the settings panel edits and the renderer reads each frame. The transmittance
      permutation is a plain integer, as in the program: only the panel's list box keeps it in
      range. The multiple-scattering factor is a real standing in for a float. */
  datatype Toggles = Toggles(
    renderMethod: Method,
    numScatteringOrder: int,
    transPermutation: int,
    shadow: bool,
    multiScatteringFactor: real,
    renderTerrain: bool,
    fastSky: bool,
    aerialPerspective: bool,
    coloredTransmittance: bool)

  const DEFAULT_NUM_SCATTERING_ORDER: int := 4

  /** The switches of a freshly constructed game. */
  function DefaultToggles(): (t: Toggles)
    ensures 0 <= t.transPermutation < TRANSMITTANCE_METHOD_COUNT
    ensures t.numScatteringOrder >= 1
  {
    Toggles(
      renderMethod := Raymarching,
      numScatteringOrder := DEFAULT_NUM_SCATTERING_ORDER,
      transPermutation := TRANSMITTANCE_METHOD_LUT,
      shadow := false,
      multiScatteringFactor := 1.0,
      renderTerrain := true,
      fastSky := true,
      aerialPerspective := true,
      coloredTransmittance := false)
  }
}

=== FILE: shaders.dfy ===
/** The shader object lifecycle of the device layer: compilation through an oracle compiler,
    lazy construction, the dirty flag, recompilation on use, and the `reload` template that
    installs a new shader object in a slot. A shader object is the pair (compiled buffer,
    dirty flag) together with the source it compiles from. */
module Shaders {
  import opened Wrappers
  import opened DeviceHelpers

  datatype Stage = Vertex | Pixel | Geometry | Compute | Hull | Domain

  /** The shader-model 5 profile each typed shader passes to the compiler. */
  function Profile(s: Stage): string
  {
    match s
    case Vertex => "vs_5_0"
    case Pixel => "ps_5_0"
    case Geometry => "gs_5_0"
    case Compute => "cs_5_0"
    case Hull => "hs_5_0"
    case Domain => "ds_5_0"
  }

  /** A preprocessor definition passed to the compiler. */
  datatype Macro = Macro(name: string, definition: string)

  /** One slot of the compiler's define array: a definition or the null terminator. */
  datatype DefineEntry = Define(name: string, definition: string) | Terminator

  /** Opaque compiled bytecode. */
  datatype Bytecode = Bytecode(id: nat)

  /** What a shader object is compiled from. */
  datatype ShaderSource = ShaderSource(file: string, entry: string, stage: Stage, macros: seq<Macro>)

  /** One call of the HLSL compiler. */
  datatype CompileRequest = CompileRequest(file: string, entry: string, profile: string, defines: seq<DefineEntry>)

  /** The HLSL compiler, an oracle that accepts or rejects each request. Source files change on
      disk between calls, so every operation that compiles takes the oracle as a parameter. */
  type Compiler = CompileRequest -> Option<Bytecode>

  /** Capacity of the define array, terminator included. */
  const MAX_SHADER_MACRO: nat := 64

  /** The define array handed to the compiler: the macros in order, then a null terminator. */
  function DefineArray(macros: seq<Macro>): (a: seq<DefineEntry>)
    ensures |a| == |macros| + 1
    ensures a[|macros|] == Terminator
    ensures forall m :: 0 <= m < |macros| ==> a[m] == Define(macros[m].name, macros[m].definition)
    ensures forall m :: 0 <= m < |macros| ==> a[m] != Terminator
  {
    if |macros| == 0 then [Terminator]
    else [Define(macros[0].name, macros[0].definition)] + DefineArray(macros[1..])
  }

  /** `compileShader`: more than 63 macros are refused without calling the compiler (the
      array also needs room for its terminator); otherwise the compiler's answer. */
  function CompileShader(c: Compiler, src: ShaderSource): (r: Option<Bytecode>)
    ensures |src.macros| > MAX_SHADER_MACRO - 1 ==> r == None
    ensures |src.macros| <= MAX_SHADER_MACRO - 1 ==>
      r == c(CompileRequest(src.file, src.entry, Profile(src.stage), DefineArray(src.macros)))
    ensures r.Some? ==> |DefineArray(src.macros)| <= MAX_SHADER_MACRO
  {
    if |src.macros| > MAX_SHADER_MACRO - 1 then None
    else c(CompileRequest(src.file, src.entry, Profile(src.stage), DefineArray(src.macros)))
  }

  /** A shader object: its source, its compiled buffer (absent when never or unsuccessfully
      compiled), the device object of the typed class (`mPixelShader` and the like, written
      as the bytecode it was created from) and whether it must be recompiled before its next
      use. */
  datatype Shader = Shader(source: ShaderSource, buffer: Option<Bytecode>, device: Ptr<Bytecode>, dirty: bool)

  /** `compilationSuccessful`: a compiled buffer is present. */
  predicate CompilationSuccessful(s: Shader)
  {
    s.buffer.Some?
  }

  /** The `ShaderBase` constructor: compiles immediately unless lazy; always dirty. The typed
      class's device pointer has no initialiser, so it is indeterminate at this point. */
  function NewShaderBase(src: ShaderSource, lazy: bool, c: Compiler): (s: Shader)
    ensures s.source == src && s.dirty && s.device == Indeterminate
    ensures lazy ==> !CompilationSuccessful(s)
    ensures !lazy ==> s.buffer == CompileShader(c, src)
  {
    Shader(src, if lazy then None else CompileShader(c, src), Indeterminate, true)
  }

  /** The body of the typed constructors, with the device pointer starting as `unset`: only
      when compilation succeeded is the device object created and the dirty flag cleared. */
  function BuildShader(src: ShaderSource, lazy: bool, c: Compiler, unset: Ptr<Bytecode>): Shader
  {
    var b := NewShaderBase(src, lazy, c);
    if CompilationSuccessful(b) then b.(device := Points(b.buffer.value), dirty := false)
    else b.(device := unset)
  }

  /** The typed constructors (vertex, pixel, geometry, compute, ...) as written. A new shader
      is dirty exactly when it holds no compiled buffer; it then returns before creating its
      device object, whose pointer stays indeterminate. */
  function NewShader(src: ShaderSource, lazy: bool, c: Compiler): (s: Shader)
    ensures s.source == src
    ensures s.dirty <==> !CompilationSuccessful(s)
    ensures lazy ==> s.dirty && s.buffer == None
    ensures !lazy ==> s.buffer == CompileShader(c, src)
    ensures CompilationSuccessful(s) ==> s.device == Points(s.buffer.value)
    ensures !CompilationSuccessful(s) ==> s.device == Indeterminate
  {
    BuildShader(src, lazy, c, Indeterminate)
  }

  /** The typed constructors with the device pointer initialised to null. */
  function NewShaderNullDevice(src: ShaderSource, lazy: bool, c: Compiler): (s: Shader)
    ensures s.source == src
    ensures s.dirty <==> !CompilationSuccessful(s)
    ensures lazy ==> s.dirty && s.buffer == None
    ensures !lazy ==> s.buffer == CompileShader(c, src)
    ensures CompilationSuccessful(s) ==> s.device == Points(s.buffer.value)
    ensures !CompilationSuccessful(s) ==> s.device == Null
  {
    BuildShader(src, lazy, c, Null)
  }

  /** The device pointer agrees with the compiled buffer: it holds the object created from
      the buffer when there is one, and is null otherwise. */
  predicate DeviceMatches(s: Shader)
  {
    if s.buffer.Some? then s.device == Points(s.buffer.value) else s.device == Null
  }

  /** `markDirty`: only the dirty flag changes. */
  function MarkDirty(s: Shader): (r: Shader)
    ensures r.dirty
    ensures r.source == s.source && r.buffer == s.buffer && r.device == s.device
  {
    s.(dirty := true)
  }

  /** `recompileShaderIfNeeded`: a dirty shader is recompiled from its stored source; a new
      buffer replaces the old one only on success, and the flag is cleared whatever happened.
      The boolean reports whether a new buffer was installed. The device object is the typed
      class's business and is left alone. */
  function RecompileIfNeeded(s: Shader, c: Compiler): (r: (Shader, bool))
    ensures !r.0.dirty && r.0.source == s.source && r.0.device == s.device
    ensures r.1 <==> s.dirty && CompileShader(c, s.source).Some?
    ensures r.1 ==> r.0.buffer == CompileShader(c, s.source)
    ensures !r.1 ==> r.0.buffer == s.buffer
  {
    if s.dirty && CompileShader(c, s.source).Some? then
      (s.(buffer := CompileShader(c, s.source), dirty := false), true)
    else
      (s.(dirty := false), false)
  }

  /** A second recompilation straight after the first reports nothing new and changes
      nothing, whatever the compiler now answers. */
  lemma RecompileTwiceIsNoOp(s: Shader, c: Compiler, c': Compiler)
    ensures RecompileIfNeeded(RecompileIfNeeded(s, c).0, c') == (RecompileIfNeeded(s, c).0, false)
  {
  }

  /** The outcome of `setShader`: the shader afterwards, the device pointer handed to the
      pipeline stage, and what happened to the previous device object. */
  datatype Binding = Binding(shader: Shader, bound: Ptr<Bytecode>, previous: Disposal<Bytecode>)

  /** `setShader`: recompile if needed; on a new buffer, reset the device pointer and create
      the device object from the buffer; then bind the device pointer, whatever it holds. */
  function SetShader(s: Shader, c: Compiler): (r: Binding)
    ensures !r.shader.dirty && r.shader.source == s.source
    ensures r.bound == r.shader.device
    ensures s.dirty && CompileShader(c, s.source).Some? ==>
      r.shader.buffer == CompileShader(c, s.source)
      && r.bound == Points(CompileShader(c, s.source).value)
      && r.previous == ResetPtr(s.device).1
    ensures !(s.dirty && CompileShader(c, s.source).Some?) ==>
      r.shader.buffer == s.buffer && r.bound == s.device && r.previous == Untouched
  {
    var (s', renewed) := RecompileIfNeeded(s, c);
    if renewed then
      var s'' := s'.(device := Points(s'.buffer.value));
      Binding(s'', s''.device, ResetPtr(s.device).1)
    else
      Binding(s', s'.device, Untouched)
  }

  /** An eager shader that compiled is consistent from construction, whatever the device
      pointer's initialiser; only a shader built without a buffer depends on it. */
  lemma CompiledShadersMatch(src: ShaderSource, lazy: bool, c: Compiler)
    ensures CompilationSuccessful(NewShader(src, lazy, c)) ==> DeviceMatches(NewShader(src, lazy, c))
    ensures !CompilationSuccessful(NewShader(src, lazy, c)) ==> !DeviceMatches(NewShader(src, lazy, c))
  {
  }

  /** With a null-initialised device pointer, every new shader is consistent, and
      `markDirty` and `setShader` keep it so; `setShader` then never binds or releases an
      indeterminate pointer. */
  lemma NullDeviceShadersMatch(src: ShaderSource, lazy: bool, s: Shader, c: Compiler)
    ensures DeviceMatches(NewShaderNullDevice(src, lazy, c))
    ensures DeviceMatches(s) ==> DeviceMatches(MarkDirty(s))
    ensures DeviceMatches(s) ==> DeviceMatches(SetShader(s, c).shader)
    ensures DeviceMatches(s) ==> SetShader(s, c).bound != Indeterminate
    ensures DeviceMatches(s) ==> SetShader(s, c).previous != DisposedIndeterminate
  {
  }

  /** The result of `reload`: the slot's new content, the returned flag and what happened to
      the slot's previous object, or termination of the process. */
  datatype ReloadOutcome =
    | Reloaded(slot: Ptr<Shader>, ok: bool, previous: Disposal<Shader>)
    | ExitProcess

  /** `reload`: build a new shader object; install it (deleting the previous one) when it
      compiled or is lazy; otherwise delete the new object, keep the previous one and report
      failure, or terminate the process when asked to. */
  function Reload(prev: Ptr<Shader>, src: ShaderSource, exitIfFail: bool, lazy: bool, c: Compiler)
    : (r: ReloadOutcome)
    ensures r.ExitProcess? <==> exitIfFail && !lazy && CompileShader(c, src).None?
    ensures r.Reloaded? ==> (r.ok <==> lazy || CompileShader(c, src).Some?)
    ensures r.Reloaded? && r.ok ==> r.slot == Points(NewShader(src, lazy, c)) && r.previous == ResetPtr(prev).1
    ensures r.Reloaded? && !r.ok ==> r.slot == prev && r.previous == Untouched
  {
    var n := NewShader(src, lazy, c);
    if CompilationSuccessful(n) || lazy then
      Reloaded(Points(n), true, ResetPtr(prev).1)
    else if exitIfFail then
      ExitProcess
    else
      Reloaded(prev, false, Untouched)
  }

  /** A lazily reloaded shader is always installed, dirty, uncompiled and with an
      indeterminate device pointer, so its first use compiles it; a lazy reload never
      terminates the process. */
  lemma LazyReloadInstallsDirtyShader(prev: Ptr<Shader>, src: ShaderSource, exitIfFail: bool, c: Compiler)
    ensures Reload(prev, src, exitIfFail, true, c)
      == Reloaded(Points(Shader(src, None, Indeterminate, true)), true, ResetPtr(prev).1)
  {
  }

  /** As written, the first `setShader` of a lazily reloaded shader releases its
      indeterminate device pointer when the compilation succeeds, and binds that pointer
      when it fails. */
  lemma LazyFirstSetShaderHitsIndeterminate(prev: Ptr<Shader>, src: ShaderSource, exitIfFail: bool, c: Compiler)
    ensures Reload(prev, src, exitIfFail, true, c).Reloaded?
    ensures CompileShader(c, src).Some? ==>
      SetShader(Reload(prev, src, exitIfFail, true, c).slot.target, c).previous == DisposedIndeterminate
    ensures CompileShader(c, src).None? ==>
      SetShader(Reload(prev, src, exitIfFail, true, c).slot.target, c).bound == Indeterminate
  {
    LazyReloadInstallsDirtyShader(prev, src, exitIfFail, c);
  }

  /** With the device pointer initialised to null, the first `setShader` of a lazy shader
      releases nothing; it binds the new device object when the compilation succeeds and a
      null shader when it fails. */
  lemma NullDeviceLazyFirstSetShader(src: ShaderSource, c: Compiler)
    ensures SetShader(NewShaderNullDevice(src, true, c), c).previous == Untouched
    ensures CompileShader(c, src).Some? ==>
      SetShader(NewShaderNullDevice(src, true, c), c).bound == Points(CompileShader(c, src).value)
    ensures CompileShader(c, src).None? ==> SetShader(NewShaderNullDevice(src, true, c), c).bound == Null
  {
  }
}

=== FILE: sky_render.dfy ===
/** The sky section of a frame: which passes run for the selected rendering method, which
    shader variant each pass binds (the key resolution of the sky renderers), and the blend
    state each pass draws with and leaves behind. */
module SkyRender {
  import opened Wrappers
  import opened Atmosphere
  import opened BlendStates
  import opened Settings
  import opened Variants
  import LutPipeline

  /** Ground global illumination is on when some albedo component is non-zero; both
      path-tracing passes compute it this way. */
  predicate GroundGiEnabled(albedo: Vec3)
  {
    albedo.x != 0.0 || albedo.y != 0.0 || albedo.z != 0.0
  }

  /** A boolean switch as an array index. */
  function Flag(b: bool): (i: int)
    ensures 0 <= i <= 1
    ensures i == 1 <==> b
  {
    if b then 1 else 0
  }

  /** The multiple-scattering axis: enabled when the factor is positive. */
  function MultiScatIndex(t: Toggles): (i: int)
    ensures 0 <= i < MULTI_SCAT_APPROX_COUNT
    ensures i == 1 <==> t.multiScatteringFactor > 0.0
  {
    Flag(t.multiScatteringFactor > 0.0)
  }

  /** `renderPathTracing`: the variant [transmittance permutation][ground GI][shadow map]
      [multiple scattering]. The transmittance index is used unchecked. */
  function PathTracingKeyFor(t: Toggles, albedo: Vec3): (k: PathTracingKey)
    ensures PathTracingInRange(k) <==> 0 <= t.transPermutation < TRANSMITTANCE_METHOD_COUNT
    ensures k.trans == t.transPermutation
    ensures k.ggi == 1 <==> GroundGiEnabled(albedo)
    ensures k.sm == 1 <==> t.shadow
    ensures k.ds == 1 <==> t.multiScatteringFactor > 0.0
  {
    PathTracingKey(t.transPermutation, Flag(GroundGiEnabled(albedo)), Flag(t.shadow), MultiScatIndex(t))
  }

  /** `renderRayMarching`: coloured transmittance is forced off whenever fast aerial
      perspective is on, so the selected variant is never a pruned one. */
  function RayMarchingKeyFor(t: Toggles): (k: RayMarchingKey)
    ensures RayMarchingInRange(k) && !Pruned(k)
    ensures k.fap == 1 <==> t.aerialPerspective
    ensures k.ct == 1 <==> t.coloredTransmittance && !t.aerialPerspective
    ensures k.ds == 1 <==> t.multiScatteringFactor > 0.0
    ensures k.fs == 1 <==> t.fastSky
    ensures k.sm == 1 <==> t.shadow
  {
    var fap := Flag(t.aerialPerspective);
    RayMarchingKey(MultiScatIndex(t), Flag(t.fastSky), Flag(t.coloredTransmittance && fap == 0), fap, Flag(t.shadow))
  }

  /** One sky pass: the shaders it binds, the blend state each of its draws runs with, in
      draw order (None: a draw before the pass binds any state, so with whatever was bound
      when the pass started; a compute dispatch has no entry), and the state it leaves bound
      (None: unchanged). */
  datatype SkyPass = SkyPass(shaders: seq<ShaderSlot>, drawBlends: seq<Option<BlendState>>, exitBlend: Option<BlendState>)

  function TransmittanceLutPass(): SkyPass
  {
    SkyPass([ScreenVertexShader, RenderTransmittanceLutPS], [None], None)
  }

  function NewMultiScattPass(): SkyPass
  {
    SkyPass([NewMultiScattCS], [], None)
  }

  /** The path tracer accumulates luminance and transmittance additively. */
  function PathTracingPass(t: Toggles, albedo: Vec3): SkyPass
  {
    SkyPass([ScreenVertexShader, RenderPathTracingPS(PathTracingKeyFor(t, albedo))],
      [Some(BlendAddRGBA)], Some(DefaultBlend))
  }

  function OverOpaquePass(): SkyPass
  {
    SkyPass([ScreenVertexShader, ApplySkyAtmosphereShader], [Some(BlendLuminanceTransmittance)], Some(DefaultBlend))
  }

  function SkyViewLutPass(t: Toggles): SkyPass
  {
    SkyPass([ScreenVertexShader, SkyViewLutPS(MultiScatIndex(t))], [None], None)
  }

  function CameraVolumeRayMarchPass(t: Toggles): SkyPass
  {
    SkyPass([ScreenVertexShader, LutGeometryShader, CameraVolumesRayMarchPS(MultiScatIndex(t))], [None], None)
  }

  /** The ray marcher composites with the dual-source blend when its variant outputs coloured
      transmittance, and with premultiplied alpha otherwise. */
  function RayMarchingPass(t: Toggles): SkyPass
  {
    var k := RayMarchingKeyFor(t);
    SkyPass([ScreenVertexShader, RenderRayMarchingPS(k)],
      [Some(if k.ct == 1 then BlendLuminanceTransmittance else BlendPreMultAlpha)], Some(DefaultBlend))
  }

  /** The look-up-table precomputation with `n` scattering orders: its draws follow the
      generation's own blend schedule (the prologue with the bound state, the order loop with
      the states it binds) and it leaves the default state bound. */
  function LutGenerationPass(n: int): SkyPass
  {
    SkyPass([ScreenVertexShader, LutGeometryShader,
      LutShader(LutPipeline.TransmittanceLut), LutShader(LutPipeline.DirectIrradianceLut),
      LutShader(LutPipeline.SingleScatteringLut), LutShader(LutPipeline.ScatteringDensityLut),
      LutShader(LutPipeline.IndirectIrradianceLut), LutShader(LutPipeline.MultipleScatteringLut)],
      LutPipeline.GenerationBlends(n), Some(DefaultBlend))
  }

  function CameraVolumesPass(): SkyPass
  {
    SkyPass([ScreenVertexShader, LutGeometryShader, CameraVolumesPS], [None], None)
  }

  function RenderWithLutsPass(): SkyPass
  {
    SkyPass([ScreenVertexShader, RenderWithLutPS], [Some(BlendPreMultAlpha)], Some(DefaultBlend))
  }

  /** The sky section of `render` for the frame's switches, ground albedo and change flag. */
  function SkyPasses(t: Toggles, albedo: Vec3, changed: bool): seq<SkyPass>
  {
    (if t.renderMethod != Bruneton2017 then [TransmittanceLutPass()] else [])
    + (if t.renderMethod == Raymarching || (t.renderMethod == PathTracing && t.multiScatteringFactor > 0.0)
       then [NewMultiScattPass()] else [])
    + match t.renderMethod
      case PathTracing => [PathTracingPass(t, albedo), OverOpaquePass()]
      case Raymarching =>
        (if t.fastSky then [SkyViewLutPass(t)] else []) + [CameraVolumeRayMarchPass(t), RayMarchingPass(t)]
      case Bruneton2017 =>
        (if changed then [LutGenerationPass(t.numScatteringOrder)] else []) + [CameraVolumesPass(), RenderWithLutsPass()]
  }

  /** The main selection theorem: with the transmittance permutation in range, every shader
      any sky pass binds is one `loadShaders` assigns. */
  lemma SelectedShadersLoaded(t: Toggles, albedo: Vec3, changed: bool)
    requires 0 <= t.transPermutation < TRANSMITTANCE_METHOD_COUNT
    ensures forall p, s :: p in SkyPasses(t, albedo, changed) && s in p.shaders ==> Loads(s)
  {
    var ps := SkyPasses(t, albedo, changed);
    forall p, s | p in ps && s in p.shaders ensures Loads(s) {
      if s.LutShader? {
        match s.program
        case TransmittanceLut =>
        case DirectIrradianceLut =>
        case SingleScatteringLut =>
        case ScatteringDensityLut =>
        case IndirectIrradianceLut =>
        case MultipleScatteringLut =>
      }
    }
  }

  /** Conversely, an out-of-range transmittance permutation makes the path tracer bind a
      variant no load assigns. */
  lemma OutOfRangePermutationIsUnloaded(t: Toggles, albedo: Vec3, changed: bool)
    requires t.renderMethod == PathTracing && !(0 <= t.transPermutation < TRANSMITTANCE_METHOD_COUNT)
    ensures exists p, s :: p in SkyPasses(t, albedo, changed) && s in p.shaders && !Loads(s)
  {
    var p := PathTracingPass(t, albedo);
    var s := p.shaders[1];
    assert p in SkyPasses(t, albedo, changed) && s in p.shaders && !Loads(s);
  }

  /** After a successful first load, every shader a sky pass binds is an object, never a
      null or unassigned pointer. */
  lemma SelectedShadersPresent(t: Toggles, albedo: Vec3, changed: bool, t0: ShaderTable, c: Shaders.Compiler)
    requires 0 <= t.transPermutation < TRANSMITTANCE_METHOD_COUNT
    requires VertexShadersCompile(c)
    ensures LoadShaders(true, t0, c).Loaded?
    ensures forall p, s :: p in SkyPasses(t, albedo, changed) && s in p.shaders ==>
      Get(LoadShaders(true, t0, c).table, s).Points?
  {
    SelectedShadersLoaded(t, albedo, changed);
    LoadShadersAssigns(true, t0, c);
  }

  /** The ray marcher binds the dual-source blend exactly when its variant has coloured
      transmittance, that is when coloured transmittance is requested and fast aerial
      perspective is off, and premultiplied alpha otherwise. */
  lemma RayMarchingBlend(t: Toggles)
    ensures RayMarchingPass(t).drawBlends == [Some(BlendLuminanceTransmittance)] <==>
      t.coloredTransmittance && !t.aerialPerspective
    ensures RayMarchingPass(t).drawBlends == [Some(BlendPreMultAlpha)] <==>
      !(t.coloredTransmittance && !t.aerialPerspective)
  {
  }

  /** The sky-view and camera-volume variants depend on the multiple-scattering factor
      alone: switches that agree on its sign select the same variants. */
  lemma MultiScatVariantsIgnoreOtherSwitches(t: Toggles, u: Toggles)
    requires (t.multiScatteringFactor > 0.0) == (u.multiScatteringFactor > 0.0)
    ensures SkyViewLutPass(t) == SkyViewLutPass(u)
    ensures CameraVolumeRayMarchPass(t) == CameraVolumeRayMarchPass(u)
  {
  }

  /** The blend state bound when each pass starts, from `entry` on. */
  function EntryBlends(entry: BlendState, ps: seq<SkyPass>): (bs: seq<BlendState>)
    ensures |bs| == |ps|
    ensures |ps| > 0 ==> bs[0] == entry
    decreases |ps|
  {
    if |ps| == 0 then [] else [entry] + EntryBlends(ps[0].exitBlend.GetOr(entry), ps[1..])
  }

  /** The blend state bound after the passes. */
  function ExitBlend(entry: BlendState, ps: seq<SkyPass>): BlendState
    decreases |ps|
  {
    if |ps| == 0 then entry else ExitBlend(ps[0].exitBlend.GetOr(entry), ps[1..])
  }

  /** A pass that changes the blend state restores the default before returning. */
  predicate Restores(p: SkyPass)
  {
    p.exitBlend == None || p.exitBlend == Some(DefaultBlend)
  }

  /** Passes that each restore the default, started in the default state, all start in the
      default state and leave it bound. */
  lemma {:induction false} RestoringPassesKeepDefault(ps: seq<SkyPass>)
    requires forall i :: 0 <= i < |ps| ==> Restores(ps[i])
    ensures forall i :: 0 <= i < |ps| ==> EntryBlends(DefaultBlend, ps)[i] == DefaultBlend
    ensures ExitBlend(DefaultBlend, ps) == DefaultBlend
    decreases |ps|
  {
    if |ps| > 0 {
      assert ps[0].exitBlend.GetOr(DefaultBlend) == DefaultBlend;
      assert forall i :: 0 <= i < |ps[1..]| ==> ps[1..][i] == ps[i + 1];
      RestoringPassesKeepDefault(ps[1..]);
    }
  }

  /** Every pass of the sky section restores the default blend state. As the frame binds the
      default state before the sky section and the shadow and terrain passes leave it bound,
      every sky pass, in particular the look-up-table precomputation, starts with blending
      disabled, and the section ends with blending disabled. A draw that binds its own state
      draws with it; every other draw, including the first three of the precomputation,
      draws with blending disabled. */
  lemma SkyBlendDiscipline(t: Toggles, albedo: Vec3, changed: bool)
    ensures forall i :: 0 <= i < |SkyPasses(t, albedo, changed)| ==>
      EntryBlends(DefaultBlend, SkyPasses(t, albedo, changed))[i] == DefaultBlend
    ensures forall i, j :: 0 <= i < |SkyPasses(t, albedo, changed)| && 0 <= j < |SkyPasses(t, albedo, changed)[i].drawBlends| ==>
      SkyPasses(t, albedo, changed)[i].drawBlends[j].GetOr(EntryBlends(DefaultBlend, SkyPasses(t, albedo, changed))[i])
        == SkyPasses(t, albedo, changed)[i].drawBlends[j].GetOr(DefaultBlend)
    ensures ExitBlend(DefaultBlend, SkyPasses(t, albedo, changed)) == DefaultBlend
  {
    var ps := SkyPasses(t, albedo, changed);
    forall i | 0 <= i < |ps| ensures Restores(ps[i]) {
      assert ps[i] in ps;
    }
    RestoringPassesKeepDefault(ps);
  }

  /** The precomputation runs in a frame exactly when the Bruneton method is selected and
      the frame is flagged as changed. */
  lemma GenerationScheduled(t: Toggles, albedo: Vec3, changed: bool)
    ensures LutGenerationPass(t.numScatteringOrder) in SkyPasses(t, albedo, changed) <==> t.renderMethod == Bruneton2017 && changed
  {
  }

  /** The game's initial switches select the ray marcher with variant
      [ds 1][fast sky 1][coloured 0][fast aerial perspective 1][shadow 0], a loaded one. */
  lemma DefaultSelection(albedo: Vec3, changed: bool)
    ensures DefaultToggles().renderMethod == Raymarching
    ensures RayMarchingKeyFor(DefaultToggles()) == RayMarchingKey(1, 1, 0, 1, 0)
    ensures forall p, s :: p in SkyPasses(DefaultToggles(), albedo, changed) && s in p.shaders ==> Loads(s)
  {
    SelectedShadersLoaded(DefaultToggles(), albedo, changed);
  }
}

=== FILE: variants.dfy ===
/** The shader objects the game owns and `loadShaders` / `releaseShaders`: the fixed shaders,
    the two permutation arrays of the sky renderers (path tracing indexed
    [trans][ggi][sm][ds], ray marching indexed [ds][fs][ct][fap][sm]) and the order in which
    they are loaded, reloaded and released. */
module Variants {
  import opened Wrappers
  import opened DeviceHelpers
  import opened Shaders
  import opened Settings
  import LutPipeline

  /** `GetStringNumber`: the decimal spelling of an axis value. Any other value fails an
      assertion in the program, after which "-1" is returned. */
  function StringNumber(i: int): (s: string)
    ensures 0 <= i <= 3 ==> |s| == 1 && s[0] as int - '0' as int == i
    ensures !(0 <= i <= 3) ==> s == "-1"
  {
    if i == 0 then "0"
    else if i == 1 then "1"
    else if i == 2 then "2"
    else if i == 3 then "3"
    else "-1"
  }

  // ---------------------------------------------------------------------------------------
  // Variant keys

  /** An index of `RenderPathTracingPS`. */
  datatype PathTracingKey = PathTracingKey(trans: int, ggi: int, sm: int, ds: int)

  predicate PathTracingInRange(k: PathTracingKey)
  {
    0 <= k.trans < TRANSMITTANCE_METHOD_COUNT && 0 <= k.ggi < GROUND_GI_COUNT
    && 0 <= k.sm < SHADOWMAP_COUNT && 0 <= k.ds < MULTI_SCAT_APPROX_COUNT
  }

  const PATH_TRACING_VARIANTS: int :=
    TRANSMITTANCE_METHOD_COUNT * GROUND_GI_COUNT * SHADOWMAP_COUNT * MULTI_SCAT_APPROX_COUNT

  /** The row-major position of a key in the array, which is also the iteration number of the
      loop nest that loads it (`trans` outermost, `ds` innermost). The strides are the
      products of the inner dimensions, 2 * 2 * 2, 2 * 2 and 2. */
  function PathTracingIndex(k: PathTracingKey): int
  {
    8 * k.trans + 4 * k.ggi + 2 * k.sm + k.ds
  }

  /** The key visited at iteration `i` of the path-tracing loop nest: the digits of `i` in
      the mixed radix of the array's dimensions. */
  function PathTracingKeyAt(i: int): (k: PathTracingKey)
    requires 0 <= i < PATH_TRACING_VARIANTS
    ensures PathTracingInRange(k) && PathTracingIndex(k) == i
  {
    var trans := if i >= 16 then 2 else if i >= 8 then 1 else 0;
    var ggi := if i - 8 * trans >= 4 then 1 else 0;
    var sm := if i - 8 * trans - 4 * ggi >= 2 then 1 else 0;
    PathTracingKey(trans, ggi, sm, i - 8 * trans - 4 * ggi - 2 * sm)
  }

  /** Distinct in-range keys have distinct positions. */
  lemma PathTracingIndexInjective(a: PathTracingKey, b: PathTracingKey)
    requires PathTracingInRange(a) && PathTracingInRange(b)
    requires PathTracingIndex(a) == PathTracingIndex(b)
    ensures a == b
  {
  }

  /** Every in-range key is visited, exactly at its row-major position. */
  lemma PathTracingKeyRoundTrip(k: PathTracingKey)
    requires PathTracingInRange(k)
    ensures 0 <= PathTracingIndex(k) < PATH_TRACING_VARIANTS
    ensures PathTracingKeyAt(PathTracingIndex(k)) == k
  {
    PathTracingIndexInjective(PathTracingKeyAt(PathTracingIndex(k)), k);
  }

  /** An index of `RenderRayMarchingPS`. */
  datatype RayMarchingKey = RayMarchingKey(ds: int, fs: int, ct: int, fap: int, sm: int)

  predicate RayMarchingInRange(k: RayMarchingKey)
  {
    0 <= k.ds < MULTI_SCAT_APPROX_COUNT && 0 <= k.fs < FAST_SKY_COUNT
    && 0 <= k.ct < COLORED_TRANSMITTANCE_COUNT && 0 <= k.fap < FAST_AERIAL_PERSPECTIVE_COUNT
    && 0 <= k.sm < SHADOWMAP_COUNT
  }

  /** The combination the loader skips: fast aerial perspective together with coloured
      transmittance. */
  predicate Pruned(k: RayMarchingKey)
  {
    k.fap == 1 && k.ct == 1
  }

  const RAY_MARCHING_SLOTS: int :=
    MULTI_SCAT_APPROX_COUNT * FAST_SKY_COUNT * COLORED_TRANSMITTANCE_COUNT
    * FAST_AERIAL_PERSPECTIVE_COUNT * SHADOWMAP_COUNT

  /** The row-major position of a key in the array; every dimension has two entries, so the
      strides are 16, 8, 4, 2 and 1. */
  function RayMarchingIndex(k: RayMarchingKey): int
  {
    16 * k.ds + 8 * k.fs + 4 * k.ct + 2 * k.fap + k.sm
  }

  /** The key visited at iteration `i` of the ray-marching loop nest, before the skip test:
      the binary digits of `i`. */
  function RayMarchingKeyAt(i: int): (k: RayMarchingKey)
    requires 0 <= i < RAY_MARCHING_SLOTS
    ensures RayMarchingInRange(k) && RayMarchingIndex(k) == i
  {
    var ds := if i >= 16 then 1 else 0;
    var fs := if i - 16 * ds >= 8 then 1 else 0;
    var ct := if i - 16 * ds - 8 * fs >= 4 then 1 else 0;
    var fap := if i - 16 * ds - 8 * fs - 4 * ct >= 2 then 1 else 0;
    RayMarchingKey(ds, fs, ct, fap, i - 16 * ds - 8 * fs - 4 * ct - 2 * fap)
  }

  /** Distinct in-range keys have distinct positions. */
  lemma RayMarchingIndexInjective(a: RayMarchingKey, b: RayMarchingKey)
    requires RayMarchingInRange(a) && RayMarchingInRange(b)
    requires RayMarchingIndex(a) == RayMarchingIndex(b)
    ensures a == b
  {
    assert a.ds == b.ds;
    assert a.fs == b.fs;
    assert a.ct == b.ct;
    assert a.fap == b.fap;
  }

  lemma RayMarchingKeyRoundTrip(k: RayMarchingKey)
    requires RayMarchingInRange(k)
    ensures 0 <= RayMarchingIndex(k) < RAY_MARCHING_SLOTS
    ensures RayMarchingKeyAt(RayMarchingIndex(k)) == k
  {
    RayMarchingIndexInjective(RayMarchingKeyAt(RayMarchingIndex(k)), k);
  }

  /** The loop indices at the first iteration. */
  const RAY_MARCHING_START: RayMarchingKey := RayMarchingKey(0, 0, 0, 0, 0)

  /** The value of the loop indices once the outermost loop has run out. */
  const RAY_MARCHING_END: RayMarchingKey := RayMarchingKey(MULTI_SCAT_APPROX_COUNT, 0, 0, 0, 0)

  /** One step of the loop nest: the innermost index advances, and an index that reaches its
      count resets to zero and carries into the next outer one. */
  function NextRayMarchingKey(k: RayMarchingKey): (n: RayMarchingKey)
    requires RayMarchingInRange(k)
    ensures RayMarchingIndex(n) == RayMarchingIndex(k) + 1
    ensures RayMarchingInRange(n) || n == RAY_MARCHING_END
  {
    if k.sm + 1 < SHADOWMAP_COUNT then k.(sm := k.sm + 1)
    else if k.fap + 1 < FAST_AERIAL_PERSPECTIVE_COUNT then k.(fap := k.fap + 1, sm := 0)
    else if k.ct + 1 < COLORED_TRANSMITTANCE_COUNT then k.(ct := k.ct + 1, fap := 0, sm := 0)
    else if k.fs + 1 < FAST_SKY_COUNT then k.(fs := k.fs + 1, ct := 0, fap := 0, sm := 0)
    else RayMarchingKey(k.ds + 1, 0, 0, 0, 0)
  }

  /** The keys the ray-marching loop nest loads from the indices `k` on, skipping the pruned
      combinations. */
  function RayMarchingLoop(k: RayMarchingKey): seq<RayMarchingKey>
    requires RayMarchingInRange(k) || k == RAY_MARCHING_END
    decreases RAY_MARCHING_SLOTS - RayMarchingIndex(k)
  {
    if k == RAY_MARCHING_END then []
    else if Pruned(k) then RayMarchingLoop(NextRayMarchingKey(k))
    else [k] + RayMarchingLoop(NextRayMarchingKey(k))
  }

  /** Position `j` of the loaded keys: each block of eight positions sharing (ds, fs) keeps
      its first six, the last two being the pruned ones. */
  function LoadedRayMarchingPosition(j: int): int
  {
    (j / 6) * 8 + j % 6
  }

  /** The number of ray-marching keys loaded: six of every eight. */
  const RAY_MARCHING_LOADED: int := 24

  /** The loaded ray-marching keys in closed form. */
  function RayMarchingKeys(): (ks: seq<RayMarchingKey>)
    ensures |ks| == RAY_MARCHING_LOADED
  {
    seq(RAY_MARCHING_LOADED, j requires 0 <= j < RAY_MARCHING_LOADED => RayMarchingKeyAt(LoadedRayMarchingPosition(j)))
  }

  /** How many keys the loop has loaded before reaching the indices `k`: six per completed
      (ds, fs) block, plus the unpruned keys of the current block before `k`. For an unpruned
      key this is where it stands among the loaded keys. */
  function LoadedRayMarchingIndex(k: RayMarchingKey): int
  {
    var low := 4 * k.ct + 2 * k.fap + k.sm;
    6 * (2 * k.ds + k.fs) + (if low < 6 then low else 6)
  }

  /** A step of the loop nest passes one loaded key, unless the key it leaves is pruned. */
  lemma NextLoadedIndex(k: RayMarchingKey)
    requires RayMarchingInRange(k)
    ensures LoadedRayMarchingIndex(NextRayMarchingKey(k)) == LoadedRayMarchingIndex(k) + (if Pruned(k) then 0 else 1)
  {
  }

  /** An unpruned key is found at its loaded index. */
  lemma LoadedKeyAt(k: RayMarchingKey)
    requires RayMarchingInRange(k) && !Pruned(k)
    ensures 0 <= LoadedRayMarchingIndex(k) < RAY_MARCHING_LOADED
    ensures RayMarchingKeys()[LoadedRayMarchingIndex(k)] == k
  {
    var low := 4 * k.ct + 2 * k.fap + k.sm;
    var j := LoadedRayMarchingIndex(k);
    assert j == 6 * (2 * k.ds + k.fs) + low && 0 <= low < 6;
    assert j / 6 == 2 * k.ds + k.fs && j % 6 == low;
    assert LoadedRayMarchingPosition(j) == RayMarchingIndex(k);
    RayMarchingKeyRoundTrip(k);
  }

  /** The `j`-th loaded key is unpruned and its loaded index is `j`. */
  lemma LoadedIndexAt(j: int)
    requires 0 <= j < RAY_MARCHING_LOADED
    ensures RayMarchingInRange(RayMarchingKeys()[j]) && !Pruned(RayMarchingKeys()[j])
    ensures LoadedRayMarchingIndex(RayMarchingKeys()[j]) == j
  {
    var q, r := j / 6, j % 6;
    assert j == 6 * q + r && 0 <= q < 4 && 0 <= r < 6;
    var k := RayMarchingKeys()[j];
    assert RayMarchingIndex(k) == 8 * q + r;
    var low := 4 * k.ct + 2 * k.fap + k.sm;
    assert 8 * (2 * k.ds + k.fs) + low == 8 * q + r && 0 <= low < 8;
    assert 2 * k.ds + k.fs == q && low == r;
  }

  /** The closed form holds every unpruned key exactly once. */
  lemma RayMarchingKeysMembers()
    ensures forall k :: k in RayMarchingKeys() <==> RayMarchingInRange(k) && !Pruned(k)
  {
    var ks := RayMarchingKeys();
    forall k | k in ks ensures RayMarchingInRange(k) && !Pruned(k) {
      var j :| 0 <= j < |ks| && ks[j] == k;
      LoadedIndexAt(j);
    }
    forall k | RayMarchingInRange(k) && !Pruned(k) ensures k in ks {
      LoadedKeyAt(k);
    }
  }

  lemma SliceCons(ks: seq<RayMarchingKey>, c: int)
    requires 0 <= c < |ks|
    ensures ks[c..] == [ks[c]] + ks[c + 1..]
  {
  }

  /** From the indices `k` on, the loop loads the closed-form keys from `k`'s loaded index
      on. */
  lemma {:induction false} RayMarchingLoopSuffix(k: RayMarchingKey)
    requires RayMarchingInRange(k) || k == RAY_MARCHING_END
    ensures 0 <= LoadedRayMarchingIndex(k) <= RAY_MARCHING_LOADED
    ensures RayMarchingLoop(k) == RayMarchingKeys()[LoadedRayMarchingIndex(k)..]
    decreases RAY_MARCHING_SLOTS - RayMarchingIndex(k)
  {
    if k != RAY_MARCHING_END {
      var n := NextRayMarchingKey(k);
      RayMarchingLoopSuffix(n);
      NextLoadedIndex(k);
      if !Pruned(k) {
        LoadedKeyAt(k);
        SliceCons(RayMarchingKeys(), LoadedRayMarchingIndex(k));
      }
    }
  }

  /** The ray-marching loop nest, skip included, loads exactly the closed-form keys, in the
      same order. */
  lemma RayMarchingLoopClosedForm()
    ensures RayMarchingLoop(RAY_MARCHING_START) == RayMarchingKeys()
    ensures |RayMarchingLoop(RAY_MARCHING_START)| == RAY_MARCHING_LOADED
  {
    RayMarchingLoopSuffix(RAY_MARCHING_START);
  }

  // ---------------------------------------------------------------------------------------
  // Shader slots and their sources

  /** Every shader pointer the game holds. */
  datatype ShaderSlot =
    | VertexShader | ScreenVertexShader | PostProcessShader | ApplySkyAtmosphereShader
    | LutGeometryShader
    | LutShader(program: LutPipeline.Program)
    | NewMultiScattCS | CameraVolumesPS | RenderWithLutPS | RenderTransmittanceLutPS
    | SkyViewLutPS(skyViewDs: int)
    | TerrainVertexShader | TerrainPixelShader
    | RenderPathTracingPS(ptKey: PathTracingKey)
    | RenderRayMarchingPS(rmKey: RayMarchingKey)
    | CameraVolumesRayMarchPS(cameraDs: int)

  const COMMON_HLSL: string := "Resources\\Common.hlsl"
  const POST_PROCESS_HLSL: string := "Resources\\PostProcess.hlsl"
  const RAY_MARCHING_HLSL: string := "Resources\\RenderSkyRayMarching.hlsl"
  const PATH_TRACING_HLSL: string := "Resources\\RenderSkyPathTracing.hlsl"
  const WITH_LUTS_HLSL: string := "Resources\\RenderWithLuts.hlsl"
  const TERRAIN_HLSL: string := "Resources\\Terrain.hlsl"

  function MultiScatMacro(ds: int): Macro
  {
    Macro("MULTISCATAPPROX_ENABLED", StringNumber(ds))
  }

  /** The four path-tracing macros, in the order they are pushed. */
  function PathTracingMacros(k: PathTracingKey): seq<Macro>
  {
    [Macro("TRANSMITANCE_METHOD", StringNumber(k.trans)), Macro("GROUND_GI_ENABLED", StringNumber(k.ggi)),
     Macro("SHADOWMAP_ENABLED", StringNumber(k.sm)), MultiScatMacro(k.ds)]
  }

  /** The five ray-marching macros, in the order they are pushed. */
  function RayMarchingMacros(k: RayMarchingKey): seq<Macro>
  {
    [MultiScatMacro(k.ds), Macro("FASTSKY_ENABLED", StringNumber(k.fs)),
     Macro("COLORED_TRANSMITTANCE_ENABLED", StringNumber(k.ct)),
     Macro("FASTAERIALPERSPECTIVE_ENABLED", StringNumber(k.fap)), Macro("SHADOWMAP_ENABLED", StringNumber(k.sm))]
  }

  function LutSource(p: LutPipeline.Program): ShaderSource
  {
    match p
    case TransmittanceLut =>
      ShaderSource("Resources\\SkyAtmosphereTransmittanceLut.hlsl", "TransmittanceLutPS", Pixel, [])
    case DirectIrradianceLut =>
      ShaderSource("Resources\\SkyAtmosphereDirectIrradianceLut.hlsl", "DirectIrradianceLutPS", Pixel, [])
    case SingleScatteringLut =>
      ShaderSource("Resources\\SkyAtmosphereSingleScatteringLut.hlsl", "SingleScatteringLutPS", Pixel, [])
    case ScatteringDensityLut =>
      ShaderSource("Resources\\SkyAtmosphereScatteringDensity.hlsl", "ScatteringDensityLutPS", Pixel, [])
    case IndirectIrradianceLut =>
      ShaderSource("Resources\\SkyAtmosphereIndirectIrradiance.hlsl", "IndirectIrradianceLutPS", Pixel, [])
    case MultipleScatteringLut =>
      ShaderSource("Resources\\SkyAtmosphereMultipleScattering.hlsl", "MultipleScatteringLutPS", Pixel, [])
  }

  /** The file, entry point, stage and macros each slot is compiled from. */
  function SourceOf(s: ShaderSlot): ShaderSource
  {
    match s
    case VertexShader => ShaderSource(COMMON_HLSL, "DefaultVertexShader", Vertex, [])
    case ScreenVertexShader => ShaderSource(COMMON_HLSL, "ScreenTriangleVertexShader", Vertex, [])
    case PostProcessShader => ShaderSource(POST_PROCESS_HLSL, "PostProcessPS", Pixel, [])
    case ApplySkyAtmosphereShader => ShaderSource(POST_PROCESS_HLSL, "ApplySkyAtmospherePS", Pixel, [])
    case LutGeometryShader => ShaderSource(COMMON_HLSL, "LutGS", Geometry, [])
    case LutShader(p) => LutSource(p)
    case NewMultiScattCS =>
      ShaderSource(RAY_MARCHING_HLSL, "NewMultiScattCS", Compute, [Macro("ILLUMINANCE_IS_ONE", StringNumber(1))])
    case CameraVolumesPS => ShaderSource(WITH_LUTS_HLSL, "RenderCameraVolumesPS", Pixel, [])
    case RenderWithLutPS => ShaderSource(WITH_LUTS_HLSL, "RenderWithLutsPS", Pixel, [])
    case RenderTransmittanceLutPS => ShaderSource(RAY_MARCHING_HLSL, "RenderTransmittanceLutPS", Pixel, [])
    case SkyViewLutPS(ds) => ShaderSource(RAY_MARCHING_HLSL, "SkyViewLutPS", Pixel, [MultiScatMacro(ds)])
    case TerrainVertexShader => ShaderSource(TERRAIN_HLSL, "TerrainVertexShader", Vertex, [])
    case TerrainPixelShader => ShaderSource(TERRAIN_HLSL, "TerrainPixelShader", Pixel, [])
    case RenderPathTracingPS(k) => ShaderSource(PATH_TRACING_HLSL, "RenderPathTracingPS", Pixel, PathTracingMacros(k))
    case RenderRayMarchingPS(k) => ShaderSource(RAY_MARCHING_HLSL, "RenderRayMarchingPS", Pixel, RayMarchingMacros(k))
    case CameraVolumesRayMarchPS(ds) => ShaderSource(RAY_MARCHING_HLSL, "RenderCameraVolumePS", Pixel, [MultiScatMacro(ds)])
  }

  /** The two shaders loaded through the `reloadShader` helper: compiled eagerly (their
      bytecode creates the input layout) and fatal when they fail on the first load. Every
      other shader goes through `reload` directly with lazy compilation. */
  predicate ViaReloadShader(s: ShaderSlot)
  {
    s == VertexShader || s == ScreenVertexShader
  }

  /** The slots `loadShaders` assigns, characterised without reference to its loops. */
  predicate Loads(s: ShaderSlot)
  {
    match s
    case SkyViewLutPS(ds) => 0 <= ds < MULTI_SCAT_APPROX_COUNT
    case RenderPathTracingPS(k) => PathTracingInRange(k)
    case RenderRayMarchingPS(k) => RayMarchingInRange(k) && !Pruned(k)
    case CameraVolumesRayMarchPS(ds) => 0 <= ds < MULTI_SCAT_APPROX_COUNT
    case _ => true
  }

  /** The slots `releaseShaders` resets, characterised without reference to its loops. */
  predicate Releases(s: ShaderSlot)
  {
    match s
    case RenderRayMarchingPS(k) => RayMarchingInRange(k)
    case _ => Loads(s)
  }

  // ---------------------------------------------------------------------------------------
  // Load and release order

  /** The number of shaders loaded before the permutation arrays. */
  const FIXED_SLOTS: int := 19

  /** The shader loaded by the `i`-th statement before the permutation arrays. */
  function FixedLoadAt(i: int): ShaderSlot
    requires 0 <= i < FIXED_SLOTS
  {
    if i == 0 then VertexShader
    else if i == 1 then ScreenVertexShader
    else if i == 2 then PostProcessShader
    else if i == 3 then ApplySkyAtmosphereShader
    else if i == 4 then LutGeometryShader
    else if i == 5 then LutShader(LutPipeline.TransmittanceLut)
    else if i == 6 then LutShader(LutPipeline.DirectIrradianceLut)
    else if i == 7 then LutShader(LutPipeline.SingleScatteringLut)
    else if i == 8 then LutShader(LutPipeline.ScatteringDensityLut)
    else if i == 9 then LutShader(LutPipeline.IndirectIrradianceLut)
    else if i == 10 then LutShader(LutPipeline.MultipleScatteringLut)
    else if i == 11 then NewMultiScattCS
    else if i == 12 then CameraVolumesPS
    else if i == 13 then RenderWithLutPS
    else if i == 14 then RenderTransmittanceLutPS
    else if i == 15 then SkyViewLutPS(0)
    else if i == 16 then SkyViewLutPS(1)
    else if i == 17 then TerrainVertexShader
    else TerrainPixelShader
  }

  /** Where a slot stands among the fixed load statements, or -1 for a slot of a
      permutation array (or a sky-view index out of range). */
  function FixedPosition(s: ShaderSlot): int
  {
    match s
    case VertexShader => 0
    case ScreenVertexShader => 1
    case PostProcessShader => 2
    case ApplySkyAtmosphereShader => 3
    case LutGeometryShader => 4
    case LutShader(p) =>
      (match p
       case TransmittanceLut => 5
       case DirectIrradianceLut => 6
       case SingleScatteringLut => 7
       case ScatteringDensityLut => 8
       case IndirectIrradianceLut => 9
       case MultipleScatteringLut => 10)
    case NewMultiScattCS => 11
    case CameraVolumesPS => 12
    case RenderWithLutPS => 13
    case RenderTransmittanceLutPS => 14
    case SkyViewLutPS(ds) => if 0 <= ds < MULTI_SCAT_APPROX_COUNT then 15 + ds else -1
    case TerrainVertexShader => 17
    case TerrainPixelShader => 18
    case RenderPathTracingPS(_) => -1
    case RenderRayMarchingPS(_) => -1
    case CameraVolumesRayMarchPS(_) => -1
  }

  /** A slot outside the three permutation arrays that is loaded. */
  predicate FixedSlot(s: ShaderSlot)
  {
    FixedPosition(s) >= 0
  }

  /** Every slot outside the permutation arrays is loaded exactly when it has a fixed
      position, at most the last one. */
  lemma FixedSlotPosition(s: ShaderSlot)
    requires !s.RenderPathTracingPS? && !s.RenderRayMarchingPS? && !s.CameraVolumesRayMarchPS?
    ensures Loads(s) <==> FixedSlot(s)
    ensures FixedPosition(s) < FIXED_SLOTS
  {
  }

  /** Positions and statements are inverse to each other. */
  lemma FixedPositionRoundTrip()
    ensures forall i :: 0 <= i < FIXED_SLOTS ==> FixedPosition(FixedLoadAt(i)) == i
    ensures forall s :: FixedSlot(s) ==> FixedPosition(s) < FIXED_SLOTS && FixedLoadAt(FixedPosition(s)) == s
  {
    forall i | 0 <= i < FIXED_SLOTS ensures FixedPosition(FixedLoadAt(i)) == i {
      FixedPositionAt(i);
    }
    forall s | FixedSlot(s) ensures FixedPosition(s) < FIXED_SLOTS && FixedLoadAt(FixedPosition(s)) == s {
      FixedPositionOf(s);
    }
  }

  lemma FixedPositionAt(i: int)
    requires 0 <= i < FIXED_SLOTS
    ensures FixedPosition(FixedLoadAt(i)) == i
  {
  }

  lemma FixedPositionOf(s: ShaderSlot)
    requires FixedSlot(s)
    ensures FixedPosition(s) < FIXED_SLOTS && FixedLoadAt(FixedPosition(s)) == s
  {
    if s.LutShader? {
      match s.program
      case TransmittanceLut =>
      case DirectIrradianceLut =>
      case SingleScatteringLut =>
      case ScatteringDensityLut =>
      case IndirectIrradianceLut =>
      case MultipleScatteringLut =>
    } else if s.SkyViewLutPS? {
      assert s == SkyViewLutPS(0) || s == SkyViewLutPS(1);
    }
  }

  predicate DistinctSlots(ss: seq<ShaderSlot>)
  {
    forall a, b :: 0 <= a < b < |ss| ==> ss[a] != ss[b]
  }

  // Where each group of `loadShaders` starts, and how many statements it has in all.
  const LOAD_PATH_TRACING: int := FIXED_SLOTS
  const LOAD_RAY_MARCHING: int := LOAD_PATH_TRACING + PATH_TRACING_VARIANTS
  const LOAD_CAMERA_VOLUMES: int := LOAD_RAY_MARCHING + RAY_MARCHING_LOADED
  const LOAD_SLOTS: int := LOAD_CAMERA_VOLUMES + MULTI_SCAT_APPROX_COUNT

  /** The slot assigned by the `i`-th statement of `loadShaders`: the fixed shaders, the
      path-tracing array in row-major order, the ray-marching keys its loop nest loads, and
      the camera volumes. */
  function LoadAt(i: int): ShaderSlot
    requires 0 <= i < LOAD_SLOTS
  {
    if i < LOAD_PATH_TRACING then FixedLoadAt(i)
    else if i < LOAD_RAY_MARCHING then RenderPathTracingPS(PathTracingKeyAt(i - LOAD_PATH_TRACING))
    else if i < LOAD_CAMERA_VOLUMES then RenderRayMarchingPS(RayMarchingKeys()[i - LOAD_RAY_MARCHING])
    else CameraVolumesRayMarchPS(i - LOAD_CAMERA_VOLUMES)
  }

  /** The statement of `loadShaders` that assigns a slot, or -1 for a slot it never
      assigns. */
  function LoadPosition(s: ShaderSlot): int
  {
    match s
    case RenderPathTracingPS(k) =>
      if PathTracingInRange(k) then LOAD_PATH_TRACING + PathTracingIndex(k) else -1
    case RenderRayMarchingPS(k) =>
      if RayMarchingInRange(k) && !Pruned(k) then LOAD_RAY_MARCHING + LoadedRayMarchingIndex(k) else -1
    case CameraVolumesRayMarchPS(ds) =>
      if 0 <= ds < MULTI_SCAT_APPROX_COUNT then LOAD_CAMERA_VOLUMES + ds else -1
    case _ => FixedPosition(s)
  }

  lemma LoadAtPosition()
    ensures forall i :: 0 <= i < LOAD_SLOTS ==> LoadPosition(LoadAt(i)) == i
  {
    forall i | 0 <= i < LOAD_SLOTS ensures LoadPosition(LoadAt(i)) == i {
      LoadPositionOfStatement(i);
    }
  }

  lemma LoadPositionOfStatement(i: int)
    requires 0 <= i < LOAD_SLOTS
    ensures LoadPosition(LoadAt(i)) == i
  {
    if i < LOAD_PATH_TRACING {
      LoadFixedStatement(i);
    } else if LOAD_RAY_MARCHING <= i < LOAD_CAMERA_VOLUMES {
      LoadRayMarchingStatement(i);
    }
  }

  lemma LoadFixedStatement(i: int)
    requires 0 <= i < LOAD_PATH_TRACING
    ensures LoadPosition(LoadAt(i)) == i
  {
    FixedPositionAt(i);
    assert LoadAt(i) == FixedLoadAt(i);
  }

  lemma LoadRayMarchingStatement(i: int)
    requires LOAD_RAY_MARCHING <= i < LOAD_CAMERA_VOLUMES
    ensures LoadPosition(LoadAt(i)) == i
  {
    var j := i - LOAD_RAY_MARCHING;
    var k := RayMarchingKeys()[j];
    LoadedIndexAt(j);
    assert LoadAt(i) == RenderRayMarchingPS(k);
    assert LoadPosition(RenderRayMarchingPS(k)) == LOAD_RAY_MARCHING + j;
  }

  lemma LoadPositionAt()
    ensures forall s :: Loads(s) <==> LoadPosition(s) >= 0
    ensures forall s :: Loads(s) ==> LoadPosition(s) < LOAD_SLOTS && LoadAt(LoadPosition(s)) == s
  {
    forall s ensures Loads(s) <==> LoadPosition(s) >= 0 {
      LoadPositionSign(s);
    }
    forall s | Loads(s) ensures LoadPosition(s) < LOAD_SLOTS && LoadAt(LoadPosition(s)) == s {
      LoadPositionOf(s);
    }
  }

  lemma LoadPositionSign(s: ShaderSlot)
    ensures Loads(s) <==> LoadPosition(s) >= 0
  {
    if !s.RenderPathTracingPS? && !s.RenderRayMarchingPS? && !s.CameraVolumesRayMarchPS? {
      FixedSlotPosition(s);
    }
  }

  lemma LoadPositionOf(s: ShaderSlot)
    requires Loads(s)
    ensures 0 <= LoadPosition(s) < LOAD_SLOTS && LoadAt(LoadPosition(s)) == s
  {
    if s.RenderPathTracingPS? {
      LoadPositionOfPathTracing(s);
    } else if s.RenderRayMarchingPS? {
      LoadPositionOfRayMarching(s);
    } else if s.CameraVolumesRayMarchPS? {
      LoadPositionOfCameraVolumes(s);
    } else {
      FixedSlotPosition(s);
      LoadPositionOfFixed(s);
    }
  }

  lemma LoadPositionOfFixed(s: ShaderSlot)
    requires FixedSlot(s)
    ensures 0 <= LoadPosition(s) < LOAD_SLOTS && LoadAt(LoadPosition(s)) == s
  {
    FixedPositionOf(s);
    assert LoadPosition(s) == FixedPosition(s);
  }

  lemma LoadPositionOfPathTracing(s: ShaderSlot)
    requires s.RenderPathTracingPS? && PathTracingInRange(s.ptKey)
    ensures 0 <= LoadPosition(s) < LOAD_SLOTS && LoadAt(LoadPosition(s)) == s
  {
    PathTracingKeyRoundTrip(s.ptKey);
  }

  lemma LoadPositionOfRayMarching(s: ShaderSlot)
    requires s.RenderRayMarchingPS? && RayMarchingInRange(s.rmKey) && !Pruned(s.rmKey)
    ensures 0 <= LoadPosition(s) < LOAD_SLOTS && LoadAt(LoadPosition(s)) == s
  {
    var k := s.rmKey;
    var j := LoadedRayMarchingIndex(k);
    LoadedKeyAt(k);
    assert LoadPosition(s) == LOAD_RAY_MARCHING + j;
    assert LoadAt(LOAD_RAY_MARCHING + j) == RenderRayMarchingPS(RayMarchingKeys()[j]);
  }

  lemma LoadPositionOfCameraVolumes(s: ShaderSlot)
    requires s.CameraVolumesRayMarchPS? && 0 <= s.cameraDs < MULTI_SCAT_APPROX_COUNT
    ensures 0 <= LoadPosition(s) < LOAD_SLOTS && LoadAt(LoadPosition(s)) == s
  {
  }

  /** `loadShaders`: the order in which slots are (re)loaded. */
  function LoadOrder(): (ss: seq<ShaderSlot>)
    ensures |ss| == LOAD_SLOTS
    ensures forall i :: 0 <= i < LOAD_SLOTS ==> ss[i] == LoadAt(i)
  {
    seq(LOAD_SLOTS, i requires 0 <= i < LOAD_SLOTS => LoadAt(i))
  }

  // Where each group of `releaseShaders` starts, and how many statements it has in all.
  const RELEASE_PATH_TRACING: int := FIXED_SLOTS - 1
  const RELEASE_RAY_MARCHING: int := RELEASE_PATH_TRACING + PATH_TRACING_VARIANTS
  const RELEASE_CAMERA_VOLUMES: int := RELEASE_RAY_MARCHING + RAY_MARCHING_SLOTS
  const RELEASE_GEOMETRY_SHADER: int := RELEASE_CAMERA_VOLUMES + MULTI_SCAT_APPROX_COUNT
  const RELEASE_SLOTS: int := RELEASE_GEOMETRY_SHADER + 1

  /** The slot reset by the `i`-th statement of `releaseShaders`: the fixed shaders in load
      order less the geometry shader, both arrays in full and in row-major order (the
      ray-marching loop nest has no skip here), the camera volumes, and last the geometry
      shader. */
  function ReleaseAt(i: int): ShaderSlot
    requires 0 <= i < RELEASE_SLOTS
  {
    if i < RELEASE_PATH_TRACING then FixedLoadAt(if i < 4 then i else i + 1)
    else if i < RELEASE_RAY_MARCHING then RenderPathTracingPS(PathTracingKeyAt(i - RELEASE_PATH_TRACING))
    else if i < RELEASE_CAMERA_VOLUMES then RenderRayMarchingPS(RayMarchingKeyAt(i - RELEASE_RAY_MARCHING))
    else if i < RELEASE_GEOMETRY_SHADER then CameraVolumesRayMarchPS(i - RELEASE_CAMERA_VOLUMES)
    else LutGeometryShader
  }

  /** The statement of `releaseShaders` that resets a slot, or -1 for a slot it never
      touches. */
  function ReleasePosition(s: ShaderSlot): int
  {
    match s
    case LutGeometryShader => RELEASE_GEOMETRY_SHADER
    case RenderPathTracingPS(k) =>
      if PathTracingInRange(k) then RELEASE_PATH_TRACING + PathTracingIndex(k) else -1
    case RenderRayMarchingPS(k) =>
      if RayMarchingInRange(k) then RELEASE_RAY_MARCHING + RayMarchingIndex(k) else -1
    case CameraVolumesRayMarchPS(ds) =>
      if 0 <= ds < MULTI_SCAT_APPROX_COUNT then RELEASE_CAMERA_VOLUMES + ds else -1
    case _ =>
      var j := FixedPosition(s);
      if j < 4 then j else j - 1
  }

  /** Statements and positions of `releaseShaders` are inverse to each other, and the
      released slots are exactly those with a position. */
  lemma ReleasePositionRoundTrip()
    ensures forall i :: 0 <= i < RELEASE_SLOTS ==> ReleasePosition(ReleaseAt(i)) == i
    ensures forall s :: Releases(s) <==> ReleasePosition(s) >= 0
    ensures forall s :: Releases(s) ==> ReleasePosition(s) < RELEASE_SLOTS && ReleaseAt(ReleasePosition(s)) == s
  {
    ReleaseAtPosition();
    ReleasePositionAt();
  }

  lemma ReleaseAtPosition()
    ensures forall i :: 0 <= i < RELEASE_SLOTS ==> ReleasePosition(ReleaseAt(i)) == i
  {
    forall i | 0 <= i < RELEASE_SLOTS ensures ReleasePosition(ReleaseAt(i)) == i {
      ReleasePositionOfStatement(i);
    }
  }

  lemma ReleasePositionOfStatement(i: int)
    requires 0 <= i < RELEASE_SLOTS
    ensures ReleasePosition(ReleaseAt(i)) == i
  {
    if i < RELEASE_PATH_TRACING {
      var j := if i < 4 then i else i + 1;
      FixedPositionAt(j);
      assert ReleaseAt(i) == FixedLoadAt(j) && j != 4;
    }
  }

  lemma ReleasePositionAt()
    ensures forall s :: Releases(s) <==> ReleasePosition(s) >= 0
    ensures forall s :: Releases(s) ==> ReleasePosition(s) < RELEASE_SLOTS && ReleaseAt(ReleasePosition(s)) == s
  {
    forall s ensures Releases(s) <==> ReleasePosition(s) >= 0 {
      ReleasePositionSign(s);
    }
    forall s | Releases(s) ensures ReleasePosition(s) < RELEASE_SLOTS && ReleaseAt(ReleasePosition(s)) == s {
      ReleasePositionOf(s);
    }
  }

  lemma ReleasePositionSign(s: ShaderSlot)
    ensures Releases(s) <==> ReleasePosition(s) >= 0
  {
    if !s.RenderPathTracingPS? && !s.RenderRayMarchingPS? && !s.CameraVolumesRayMarchPS? {
      FixedSlotPosition(s);
    }
  }

  lemma ReleasePositionOf(s: ShaderSlot)
    requires Releases(s)
    ensures 0 <= ReleasePosition(s) < RELEASE_SLOTS && ReleaseAt(ReleasePosition(s)) == s
  {
    if s.RenderPathTracingPS? {
      ReleasePositionOfPathTracing(s);
    } else if s.RenderRayMarchingPS? {
      ReleasePositionOfRayMarching(s);
    } else if s.CameraVolumesRayMarchPS? {
      ReleasePositionOfCameraVolumes(s);
    } else if s.LutGeometryShader? {
    } else {
      FixedSlotPosition(s);
      ReleasePositionOfFixed(s);
    }
  }

  lemma ReleasePositionOfPathTracing(s: ShaderSlot)
    requires s.RenderPathTracingPS? && PathTracingInRange(s.ptKey)
    ensures 0 <= ReleasePosition(s) < RELEASE_SLOTS && ReleaseAt(ReleasePosition(s)) == s
  {
    PathTracingKeyRoundTrip(s.ptKey);
  }

  lemma ReleasePositionOfRayMarching(s: ShaderSlot)
    requires s.RenderRayMarchingPS? && RayMarchingInRange(s.rmKey)
    ensures 0 <= ReleasePosition(s) < RELEASE_SLOTS && ReleaseAt(ReleasePosition(s)) == s
  {
    RayMarchingKeyRoundTrip(s.rmKey);
  }

  lemma ReleasePositionOfCameraVolumes(s: ShaderSlot)
    requires s.CameraVolumesRayMarchPS? && 0 <= s.cameraDs < MULTI_SCAT_APPROX_COUNT
    ensures 0 <= ReleasePosition(s) < RELEASE_SLOTS && ReleaseAt(ReleasePosition(s)) == s
  {
  }

  lemma ReleasePositionOfFixed(s: ShaderSlot)
    requires FixedSlot(s) && s != LutGeometryShader
    ensures 0 <= ReleasePosition(s) < RELEASE_SLOTS && ReleaseAt(ReleasePosition(s)) == s
  {
    FixedPositionOf(s);
    var j := FixedPosition(s);
    assert j != 4;
    assert ReleasePosition(s) == if j < 4 then j else j - 1;
  }

  /** `releaseShaders`: the order in which slots are reset. */
  function ReleaseOrder(): (ss: seq<ShaderSlot>)
    ensures |ss| == RELEASE_SLOTS
    ensures forall i :: 0 <= i < RELEASE_SLOTS ==> ss[i] == ReleaseAt(i)
  {
    seq(RELEASE_SLOTS, i requires 0 <= i < RELEASE_SLOTS => ReleaseAt(i))
  }

  /** The load order assigns exactly the slots `Loads` describes, each once, and only its
      first two statements go through `reloadShader`. */
  lemma LoadOrderSlots()
    ensures DistinctSlots(LoadOrder())
    ensures forall s :: s in LoadOrder() <==> Loads(s)
    ensures forall i :: 0 <= i < |LoadOrder()| ==> (ViaReloadShader(LoadOrder()[i]) <==> i < 2)
  {
    LoadOrderDistinct();
    LoadOrderVertexShaders();
    LoadOrderMembers();
  }

  lemma LoadOrderMembers()
    ensures forall s :: s in LoadOrder() <==> Loads(s)
  {
    var ss := LoadOrder();
    LoadPositionAt();
    forall s | Loads(s) ensures s in ss {
      assert ss[LoadPosition(s)] == s;
    }
    forall s | s in ss ensures Loads(s) {
      var i :| 0 <= i < |ss| && ss[i] == s;
      LoadAtPosition();
    }
  }

  /** No slot is assigned twice. */
  lemma LoadOrderDistinct()
    ensures DistinctSlots(LoadOrder())
  {
    var ss := LoadOrder();
    LoadAtPosition();
    forall a, b | 0 <= a < b < |ss| ensures ss[a] != ss[b] {
      assert LoadPosition(ss[a]) == a && LoadPosition(ss[b]) == b;
    }
  }

  /** The first two statements load the vertex shaders, and no other statement does. */
  lemma LoadOrderVertexShaders()
    ensures LoadOrder()[0] == VertexShader && LoadOrder()[1] == ScreenVertexShader
    ensures forall i :: 0 <= i < |LoadOrder()| ==> (ViaReloadShader(LoadOrder()[i]) <==> i < 2)
  {
    var ss := LoadOrder();
    LoadAtPosition();
    forall i | 0 <= i < |ss| ensures ViaReloadShader(ss[i]) <==> i < 2 {
      assert LoadPosition(ss[i]) == i;
    }
  }

  /** No slot is reset twice. */
  lemma ReleaseOrderDistinct()
    ensures DistinctSlots(ReleaseOrder())
  {
    var ss := ReleaseOrder();
    ReleasePositionRoundTrip();
    forall a, b | 0 <= a < b < |ss| ensures ss[a] != ss[b] {
      assert ReleasePosition(ss[a]) == a && ReleasePosition(ss[b]) == b;
    }
  }

  /** The release order resets exactly the slots `Releases` describes, each once. */
  lemma ReleaseOrderSlots()
    ensures DistinctSlots(ReleaseOrder())
    ensures forall s :: s in ReleaseOrder() <==> Releases(s)
  {
    var ss := ReleaseOrder();
    ReleaseOrderDistinct();
    ReleasePositionRoundTrip();
    forall s | Releases(s) ensures s in ss {
      assert ss[ReleasePosition(s)] == s;
    }
  }

  /** The slots released but never loaded are exactly the pruned ray-marching slots. */
  lemma ReleasedNeverLoaded()
    ensures forall s :: Releases(s) && !Loads(s) <==> s.RenderRayMarchingPS? && RayMarchingInRange(s.rmKey) && Pruned(s.rmKey)
  {
  }

  // ---------------------------------------------------------------------------------------
  // The table of shader pointers

  /** The game's shader pointers: those written so far, and the value every other member
      holds. */
  datatype ShaderTable = ShaderTable(entries: map<ShaderSlot, Ptr<Shader>>, initial: Ptr<Shader>)

  function Get(t: ShaderTable, s: ShaderSlot): Ptr<Shader>
  {
    if s in t.entries then t.entries[s] else t.initial
  }

  function Put(t: ShaderTable, s: ShaderSlot, p: Ptr<Shader>): (r: ShaderTable)
    ensures Get(r, s) == p
    ensures forall s' :: s' != s ==> Get(r, s') == Get(t, s')
  {
    t.(entries := t.entries[s := p])
  }

  /** The pointers of the game object as the program creates it: a local of the entry point
      whose constructor initialises none of them. */
  function UninitialisedTable(): (t: ShaderTable)
    ensures forall s :: Get(t, s) == Indeterminate
  {
    ShaderTable(map[], Indeterminate)
  }

  /** The pointers with null initialisers. */
  function NullTable(): (t: ShaderTable)
    ensures forall s :: Get(t, s) == Null
  {
    ShaderTable(map[], Null)
  }

  // ---------------------------------------------------------------------------------------
  // loadShaders / releaseShaders

  /** One load statement on slot `s` holding `prev`. On a first load both paths call
      `reload`, eagerly and fatal on failure for the vertex shaders, lazily otherwise. On a
      later load the vertex shaders are only marked dirty (the program dereferences the
      pointer, hence the precondition), while every other shader is rebuilt lazily. */
  function LoadOne(s: ShaderSlot, first: bool, prev: Ptr<Shader>, c: Compiler): (o: ReloadOutcome)
    requires !first && ViaReloadShader(s) ==> prev.Points?
    ensures o.ExitProcess? <==> first && ViaReloadShader(s) && CompileShader(c, SourceOf(s)).None?
    ensures o.Reloaded? ==> o.ok && o.slot.Points?
    ensures o.Reloaded? && (first || !ViaReloadShader(s)) ==>
      o.slot == Points(NewShader(SourceOf(s), !ViaReloadShader(s), c)) && o.previous == ResetPtr(prev).1
    ensures !first && ViaReloadShader(s) ==> o == Reloaded(Points(MarkDirty(prev.target)), true, Untouched)
  {
    if ViaReloadShader(s) then
      if first then Reload(prev, SourceOf(s), true, false, c)
      else Reloaded(Points(MarkDirty(prev.target)), true, Untouched)
    else
      Reload(prev, SourceOf(s), first, true, c)
  }

  /** The result of a load: the new pointers, the accumulated `success` flag and, per load
      statement, what happened to the slot's previous object; or termination of the process. */
  datatype LoadOutcome = Loaded(table: ShaderTable, success: bool, disposals: seq<Disposal<Shader>>) | Exited

  /** The load statements `ss` in order, stopping at the first that terminates the process. */
  function LoadAll(ss: seq<ShaderSlot>, first: bool, t: ShaderTable, c: Compiler): (o: LoadOutcome)
    requires !first ==> VertexShadersPresent(t)
    ensures o.Exited? ==> first
    ensures o.Loaded? ==> o.success && |o.disposals| == |ss|
    decreases |ss|
  {
    if |ss| == 0 then Loaded(t, true, [])
    else
      match LoadOne(ss[0], first, Get(t, ss[0]), c)
      case ExitProcess => Exited
      case Reloaded(p, ok, d) =>
        match LoadAll(ss[1..], first, Put(t, ss[0], p), c)
        case Exited => Exited
        case Loaded(t2, ok2, ds) => Loaded(t2, ok && ok2, [d] + ds)
  }

  /** A completed load touches no slot outside its statements. */
  lemma {:induction false} LoadAllFrame(ss: seq<ShaderSlot>, first: bool, t: ShaderTable, c: Compiler)
    requires !first ==> VertexShadersPresent(t)
    requires LoadAll(ss, first, t, c).Loaded?
    ensures forall s :: s !in ss ==> Get(LoadAll(ss, first, t, c).table, s) == Get(t, s)
    decreases |ss|
  {
    if |ss| > 0 {
      var o := LoadOne(ss[0], first, Get(t, ss[0]), c);
      var t1 := Put(t, ss[0], o.slot);
      LoadAllFrame(ss[1..], first, t1, c);
      forall s | s !in ss ensures Get(LoadAll(ss, first, t, c).table, s) == Get(t, s) {
        assert s != ss[0] && s !in ss[1..];
      }
    }
  }

  /** In a completed load of distinct slots, each statement saw the slot's original pointer
      and left in it what it produced. */
  lemma {:induction false} LoadAllStatements(ss: seq<ShaderSlot>, first: bool, t: ShaderTable, c: Compiler)
    requires DistinctSlots(ss)
    requires !first ==> VertexShadersPresent(t)
    requires LoadAll(ss, first, t, c).Loaded?
    ensures forall i :: 0 <= i < |ss| ==>
      LoadOne(ss[i], first, Get(t, ss[i]), c)
        == Reloaded(Get(LoadAll(ss, first, t, c).table, ss[i]), true, LoadAll(ss, first, t, c).disposals[i])
    decreases |ss|
  {
    if |ss| > 0 {
      var o := LoadOne(ss[0], first, Get(t, ss[0]), c);
      var t1 := Put(t, ss[0], o.slot);
      var tail := ss[1..];
      assert forall j :: 0 <= j < |tail| ==> tail[j] == ss[j + 1];
      assert ss[0] !in tail;
      LoadAllStatements(tail, first, t1, c);
      LoadAllFrame(tail, first, t1, c);
      var r := LoadAll(ss, first, t, c);
      var r' := LoadAll(tail, first, t1, c);
      assert o.ok && r.table == r'.table && r.disposals == [o.previous] + r'.disposals;
      forall i | 0 <= i < |ss|
        ensures LoadOne(ss[i], first, Get(t, ss[i]), c) == Reloaded(Get(r.table, ss[i]), true, r.disposals[i])
      {
        if i > 0 {
          assert ss[i] == tail[i - 1] && ss[i] != ss[0];
          assert Get(t1, ss[i]) == Get(t, ss[i]) && r.disposals[i] == r'.disposals[i - 1];
        }
      }
    }
  }

  /** A statement whose compilation is fatal: a vertex shader that does not compile. */
  predicate Fatal(s: ShaderSlot, c: Compiler)
  {
    ViaReloadShader(s) && CompileShader(c, SourceOf(s)).None?
  }

  /** The load stops exactly when it is a first load and one of its statements is fatal. */
  lemma {:induction false} LoadAllExits(ss: seq<ShaderSlot>, first: bool, t: ShaderTable, c: Compiler)
    requires !first ==> VertexShadersPresent(t)
    ensures LoadAll(ss, first, t, c).Exited? <==> first && exists i :: 0 <= i < |ss| && Fatal(ss[i], c)
    decreases |ss|
  {
    if |ss| > 0 {
      var o := LoadOne(ss[0], first, Get(t, ss[0]), c);
      if o.Reloaded? {
        var tail := ss[1..];
        assert forall j :: 0 <= j < |tail| ==> tail[j] == ss[j + 1];
        var t1 := Put(t, ss[0], o.slot);
        LoadAllExits(tail, first, t1, c);
        if first && exists i :: 0 <= i < |ss| && Fatal(ss[i], c) {
          var i :| 0 <= i < |ss| && Fatal(ss[i], c);
          assert i > 0 && Fatal(tail[i - 1], c);
        }
      }
    }
  }

  /** What a completed load left in one of its slots is what that slot's statement
      produced. */
  lemma LoadAllSlot(ss: seq<ShaderSlot>, first: bool, t: ShaderTable, c: Compiler, s: ShaderSlot)
    requires DistinctSlots(ss)
    requires !first ==> VertexShadersPresent(t)
    requires LoadAll(ss, first, t, c).Loaded? && s in ss
    ensures LoadOne(s, first, Get(t, s), c).Reloaded?
    ensures LoadOne(s, first, Get(t, s), c).slot == Get(LoadAll(ss, first, t, c).table, s)
  {
    LoadAllStatements(ss, first, t, c);
    var i :| 0 <= i < |ss| && ss[i] == s;
  }

  /** The vertex shaders a later load marks dirty are present. */
  predicate VertexShadersPresent(t: ShaderTable)
  {
    Get(t, VertexShader).Points? && Get(t, ScreenVertexShader).Points?
  }

  /** The two shaders whose failure on the first load is fatal both compile. */
  predicate VertexShadersCompile(c: Compiler)
  {
    CompileShader(c, SourceOf(VertexShader)).Some? && CompileShader(c, SourceOf(ScreenVertexShader)).Some?
  }

  /** `loadShaders(first)`. */
  function LoadShaders(first: bool, t: ShaderTable, c: Compiler): (o: LoadOutcome)
    requires !first ==> VertexShadersPresent(t)
    ensures o.Exited? ==> first
    ensures o.Loaded? ==> o.success && |o.disposals| == |LoadOrder()|
  {
    LoadAll(LoadOrder(), first, t, c)
  }

  /** Only a first load can terminate the process, and it does exactly when one of the two
      vertex shaders does not compile. */
  lemma LoadShadersExits(first: bool, t: ShaderTable, c: Compiler)
    requires !first ==> VertexShadersPresent(t)
    ensures LoadShaders(first, t, c).Exited? <==>
      first && (CompileShader(c, SourceOf(VertexShader)).None? || CompileShader(c, SourceOf(ScreenVertexShader)).None?)
  {
    LoadOrderVertexShaders();
    var ss := LoadOrder();
    LoadAllExits(ss, first, t, c);
    assert (exists i :: 0 <= i < |ss| && Fatal(ss[i], c)) <==> Fatal(VertexShader, c) || Fatal(ScreenVertexShader, c) by {
      assert ss[0] == VertexShader && ss[1] == ScreenVertexShader;
    }
  }

  /** A completed load leaves an object in every slot `Loads` describes and touches no other
      slot. */
  lemma LoadShadersAssigns(first: bool, t: ShaderTable, c: Compiler)
    requires !first ==> VertexShadersPresent(t)
    requires first ==> VertexShadersCompile(c)
    ensures LoadShaders(first, t, c).Loaded?
    ensures forall s :: Loads(s) ==> Get(LoadShaders(first, t, c).table, s).Points?
    ensures forall s :: !Loads(s) ==> Get(LoadShaders(first, t, c).table, s) == Get(t, s)
  {
    LoadShadersExits(first, t, c);
    LoadOrderSlots();
    var ss := LoadOrder();
    LoadAllFrame(ss, first, t, c);
    forall s | Loads(s) ensures Get(LoadShaders(first, t, c).table, s).Points? {
      LoadAllSlot(ss, first, t, c, s);
    }
  }

  /** What a load leaves in each assigned slot. A first load compiles the two vertex shaders
      and leaves them clean, and installs every other shader dirty and uncompiled, so it is
      compiled on first use. A later load keeps the vertex shaders' objects and buffers but
      marks them dirty, and replaces every other shader by a fresh uncompiled one. Either
      way each slot is built from its own source. */
  lemma LoadShadersInstalls(first: bool, t: ShaderTable, c: Compiler, s: ShaderSlot)
    requires !first ==> VertexShadersPresent(t)
    requires first ==> VertexShadersCompile(c)
    requires Loads(s)
    ensures LoadShaders(first, t, c).Loaded?
    ensures Get(LoadShaders(first, t, c).table, s).Points?
    ensures Get(LoadShaders(first, t, c).table, s).target.dirty <==> !ViaReloadShader(s) || !first
    ensures first && ViaReloadShader(s) ==> CompileShader(c, SourceOf(s)).Some?
    ensures first && ViaReloadShader(s) ==>
      Get(LoadShaders(first, t, c).table, s).target
        == Shader(SourceOf(s), CompileShader(c, SourceOf(s)), Points(CompileShader(c, SourceOf(s)).value), false)
    ensures !ViaReloadShader(s) ==> Get(LoadShaders(first, t, c).table, s).target == Shader(SourceOf(s), None, Indeterminate, true)
    ensures !first && ViaReloadShader(s) ==>
      Get(LoadShaders(first, t, c).table, s).target == MarkDirty(Get(t, s).target)
  {
    LoadShadersExits(first, t, c);
    LoadOrderSlots();
    LoadAllSlot(LoadOrder(), first, t, c, s);
  }

  /** The statements of `releaseShaders` for `ss`: each slot reset in turn. The result pairs
      the new pointers with what happened to each slot's object. */
  function ReleaseAll(ss: seq<ShaderSlot>, t: ShaderTable): (r: (ShaderTable, seq<Disposal<Shader>>))
    ensures |r.1| == |ss|
    decreases |ss|
  {
    if |ss| == 0 then (t, [])
    else
      var (p, d) := ResetPtr(Get(t, ss[0]));
      var (t', ds) := ReleaseAll(ss[1..], Put(t, ss[0], p));
      (t', [d] + ds)
  }

  /** The release of `ss` touches no slot outside `ss`. */
  lemma {:induction false} ReleaseAllFrame(ss: seq<ShaderSlot>, t: ShaderTable)
    ensures forall s :: s !in ss ==> Get(ReleaseAll(ss, t).0, s) == Get(t, s)
    decreases |ss|
  {
    if |ss| > 0 {
      var t1 := Put(t, ss[0], ResetPtr(Get(t, ss[0])).0);
      ReleaseAllFrame(ss[1..], t1);
      forall s | s !in ss ensures Get(ReleaseAll(ss, t).0, s) == Get(t, s) {
        assert s != ss[0] && s !in ss[1..];
      }
    }
  }

  /** Releasing distinct slots leaves each null, and each statement disposes of the slot's
      original pointer. */
  lemma {:induction false} ReleaseAllStatements(ss: seq<ShaderSlot>, t: ShaderTable)
    requires DistinctSlots(ss)
    ensures forall i :: 0 <= i < |ss| ==>
      Get(ReleaseAll(ss, t).0, ss[i]) == Null && ReleaseAll(ss, t).1[i] == ResetPtr(Get(t, ss[i])).1
    decreases |ss|
  {
    if |ss| > 0 {
      var t1 := Put(t, ss[0], ResetPtr(Get(t, ss[0])).0);
      var tail := ss[1..];
      assert forall j :: 0 <= j < |tail| ==> tail[j] == ss[j + 1];
      assert ss[0] !in tail;
      ReleaseAllStatements(tail, t1);
      ReleaseAllFrame(tail, t1);
      var r := ReleaseAll(ss, t);
      var r' := ReleaseAll(tail, t1);
      assert r.0 == r'.0 && r.1 == [ResetPtr(Get(t, ss[0])).1] + r'.1;
      forall i | 0 <= i < |ss|
        ensures Get(r.0, ss[i]) == Null && r.1[i] == ResetPtr(Get(t, ss[i])).1
      {
        if i > 0 {
          assert ss[i] == tail[i - 1] && ss[i] != ss[0];
          assert Get(t1, ss[i]) == Get(t, ss[i]) && r.1[i] == r'.1[i - 1];
        }
      }
    }
  }

  /** `releaseShaders`. */
  function ReleaseShaders(t: ShaderTable): (r: (ShaderTable, seq<Disposal<Shader>>))
    ensures |r.1| == |ReleaseOrder()|
    ensures forall i :: 0 <= i < |ReleaseOrder()| ==> r.1[i] == ResetPtr(Get(t, ReleaseOrder()[i])).1
  {
    ReleaseOrderDistinct();
    ReleaseAllStatements(ReleaseOrder(), t);
    ReleaseAll(ReleaseOrder(), t)
  }

  /** `releaseShaders` leaves null in every slot it resets and touches no other slot. */
  lemma ReleaseShadersTable(t: ShaderTable)
    ensures forall s :: Releases(s) ==> Get(ReleaseShaders(t).0, s) == Null
    ensures forall s :: !Releases(s) ==> Get(ReleaseShaders(t).0, s) == Get(t, s)
  {
    ReleaseOrderSlots();
    var ss := ReleaseOrder();
    var r := ReleaseShaders(t);
    ReleaseAllStatements(ss, t);
    ReleaseAllFrame(ss, t);
    forall s | Releases(s) ensures Get(r.0, s) == Null {
      ReleasePositionOf(s);
      assert ss[ReleasePosition(s)] == s;
    }
  }

  /** A second release changes nothing and deletes nothing. */
  lemma ReleaseTwiceIsNoOp(t: ShaderTable)
    ensures forall s :: Get(ReleaseShaders(ReleaseShaders(t).0).0, s) == Get(ReleaseShaders(t).0, s)
    ensures forall i :: 0 <= i < |ReleaseOrder()| ==> ReleaseShaders(ReleaseShaders(t).0).1[i] == Untouched
  {
    var t1 := ReleaseShaders(t).0;
    ReleaseShadersTable(t);
    ReleaseShadersTable(t1);
    ReleaseOrderSlots();
    var ss := ReleaseOrder();
    forall i | 0 <= i < |ss| ensures ReleaseShaders(t1).1[i] == Untouched {
      assert ss[i] in ss && Get(t1, ss[i]) == Null;
    }
  }

  // ---------------------------------------------------------------------------------------
  // Start-up and shut-down of the pointer table

  /** The ray-marching slot at the head of the pruned block: fast aerial perspective and
      coloured transmittance both on. */
  const PRUNED_EXAMPLE: RayMarchingKey := RayMarchingKey(0, 0, 1, 1, 0)

  /** A release deletes an indeterminate pointer whenever a released slot holds one. */
  lemma ReleaseHitsIndeterminate(t: ShaderTable, s: ShaderSlot)
    requires Releases(s) && Get(t, s) == Indeterminate
    ensures DisposedIndeterminate in ReleaseShaders(t).1
  {
    ReleaseOrderSlots();
    var ss := ReleaseOrder();
    var j :| 0 <= j < |ss| && ss[j] == s;
    assert ReleaseShaders(t).1[j] == ResetPtr(Get(t, ss[j])).1;
  }

  /** A first load over a table whose every pointer is `prev` disposes of `prev` at every
      statement. */
  lemma FirstLoadDisposals(t: ShaderTable, prev: Ptr<Shader>, c: Compiler)
    requires forall s :: Get(t, s) == prev
    requires VertexShadersCompile(c)
    ensures LoadShaders(true, t, c).Loaded?
    ensures forall i :: 0 <= i < |LoadShaders(true, t, c).disposals| ==>
      LoadShaders(true, t, c).disposals[i] == ResetPtr(prev).1
  {
    LoadShadersExits(true, t, c);
    LoadOrderSlots();
    var ss := LoadOrder();
    var o := LoadAll(ss, true, t, c);
    LoadAllStatements(ss, true, t, c);
    forall i | 0 <= i < |o.disposals| ensures o.disposals[i] == ResetPtr(prev).1 {
      assert LoadOne(ss[i], true, prev, c).previous == o.disposals[i];
    }
  }

  /** As written: the first load starts from uninitialised pointers, so every statement that
      installs a shader first tests and deletes an indeterminate pointer, and the final
      release resets the pruned ray-marching slots, which still hold indeterminate values. */
  lemma UninitialisedPointersAreDeleted(c: Compiler)
    requires VertexShadersCompile(c)
    ensures LoadShaders(true, UninitialisedTable(), c).Loaded?
    ensures forall i :: 0 <= i < |LoadOrder()| ==> LoadShaders(true, UninitialisedTable(), c).disposals[i] == DisposedIndeterminate
    ensures Get(LoadShaders(true, UninitialisedTable(), c).table, RenderRayMarchingPS(PRUNED_EXAMPLE)) == Indeterminate
    ensures DisposedIndeterminate in ReleaseShaders(LoadShaders(true, UninitialisedTable(), c).table).1
  {
    var o := LoadShaders(true, UninitialisedTable(), c);
    FirstLoadDisposals(UninitialisedTable(), Indeterminate, c);
    LoadShadersAssigns(true, UninitialisedTable(), c);
    var s := RenderRayMarchingPS(PRUNED_EXAMPLE);
    assert !Loads(s) && Releases(s);
    ReleaseHitsIndeterminate(o.table, s);
  }

  /** Corrected: with null-initialised pointers the first load deletes nothing. */
  lemma NullPointersFirstLoad(c: Compiler)
    requires VertexShadersCompile(c)
    ensures LoadShaders(true, NullTable(), c).Loaded?
    ensures forall i :: 0 <= i < |LoadOrder()| ==> LoadShaders(true, NullTable(), c).disposals[i] == Untouched
    ensures forall s :: Get(LoadShaders(true, NullTable(), c).table, s).Points? <==> Loads(s)
    ensures forall s :: !Loads(s) ==> Get(LoadShaders(true, NullTable(), c).table, s) == Null
  {
    FirstLoadDisposals(NullTable(), Null, c);
    LoadShadersAssigns(true, NullTable(), c);
  }

  /** A table holding exactly the loaded shaders and nulls elsewhere is released to all
      nulls, deleting exactly the loaded objects. */
  lemma ReleaseLoadedTable(t: ShaderTable)
    requires forall s :: Get(t, s).Points? <==> Loads(s)
    requires forall s :: !Loads(s) ==> Get(t, s) == Null
    ensures DisposedIndeterminate !in ReleaseShaders(t).1
    ensures forall i :: 0 <= i < |ReleaseOrder()| ==>
      (ReleaseShaders(t).1[i].Disposed? <==> Loads(ReleaseOrder()[i]))
    ensures forall s :: Get(ReleaseShaders(t).0, s) == Null
  {
    ReleaseLoadedDisposals(t);
    ReleaseLoadedNulls(t);
  }

  lemma ReleaseLoadedDisposals(t: ShaderTable)
    requires forall s :: Get(t, s).Points? <==> Loads(s)
    requires forall s :: !Loads(s) ==> Get(t, s) == Null
    ensures forall i :: 0 <= i < |ReleaseOrder()| ==>
      (ReleaseShaders(t).1[i].Disposed? <==> Loads(ReleaseOrder()[i]))
    ensures DisposedIndeterminate !in ReleaseShaders(t).1
  {
    var ss := ReleaseOrder();
    var r := ReleaseShaders(t);
    forall i | 0 <= i < |ss|
      ensures r.1[i] != DisposedIndeterminate && (r.1[i].Disposed? <==> Loads(ss[i]))
    {
      var p := Get(t, ss[i]);
      assert r.1[i] == ResetPtr(p).1;
      assert p.Points? <==> Loads(ss[i]);
      assert p != Indeterminate;
    }
    assert forall i :: 0 <= i < |r.1| ==> r.1[i] != DisposedIndeterminate;
  }

  lemma ReleaseLoadedNulls(t: ShaderTable)
    requires forall s :: !Loads(s) ==> Get(t, s) == Null
    ensures forall s :: Get(ReleaseShaders(t).0, s) == Null
  {
    var r := ReleaseShaders(t);
    ReleaseShadersTable(t);
    forall s ensures Get(r.0, s) == Null {
      if !Releases(s) {
        assert !Loads(s);
      }
    }
  }

  /** Corrected: after a load from null-initialised pointers, the release deletes exactly the
      loaded objects, resets the never-assigned slots as a no-op, and leaves every pointer
      null. */
  lemma NullPointersRelease(c: Compiler)
    requires VertexShadersCompile(c)
    ensures LoadShaders(true, NullTable(), c).Loaded?
    ensures DisposedIndeterminate !in ReleaseShaders(LoadShaders(true, NullTable(), c).table).1
    ensures forall i :: 0 <= i < |ReleaseOrder()| ==>
      (ReleaseShaders(LoadShaders(true, NullTable(), c).table).1[i].Disposed? <==> Loads(ReleaseOrder()[i]))
    ensures forall s :: Get(ReleaseShaders(LoadShaders(true, NullTable(), c).table).0, s) == Null
  {
    NullPointersFirstLoad(c);
    ReleaseLoadedTable(LoadShaders(true, NullTable(), c).table);
  }
}

=== FILE: wrappers.dfy ===
/** Optional values, standing in for the nullable pointers and "no result" returns of the renderer. */
module Wrappers {

  datatype Option<+T> = None | Some(value: T) {

    /** Returns the value held in Some, or the default when None. */
    function GetOr(default: T): T
    {
      match this
      case Some(v) => v
      case None => default
    }
  }
}
